=== FILE: README.md ===
# Wander With KI — a Dafny model of its handlers and page logic

Wander With KI is a travel blog. An Express backend keeps posts, likes, comments, accounts, images, a bucket list of destinations, food items and adventures in PostgreSQL. An Angular frontend shows them.

This project models two parts of that system and proves properties about them.

**The backend handlers** (`backend/app.js`) are modelled in `backend.dfy` and `backend_tables.dfy`.
- The database is one object, `Backend.Database`, holding every table and the next value of each serial id sequence.
- Each handler is one atomic method. It returns a status code and a JSON body, and changes the tables as the handler's SQL does.
- SQL NULL is `None`, and `=` against NULL never matches.
- A database failure is a parameter: `fault` is the position of the statement that throws. Inside BEGIN/COMMIT the tables are then rolled back. The serial sequences are not rolled back, as in PostgreSQL.

**The frontend logic** is modelled in these files:
- `auth_service.dfy`: the sessionStorage login state of `AuthService`.
- `settings.dfy`: the account page's comment grouping, wishlist mapping and password form.
- `home.dfy`: the home page's section mapping and hero/story/destination classification.
- `blog.dfy`: the blog page's post normalisation and its comment, like and post handlers.
- `destination.dfy`: the bucket-list page's row chunking, form guard, item normalisation and map popup.

These files rest on a few shared modules:
- `js_value.dfy`: JavaScript values and the coercions the components use (`!!`, `||`, `??`, `===`, `String(v)`, `trim`, `toLowerCase`, `parseInt`).
- `json.dfy`: `JSON.stringify` and `JSON.parse`, with a proved round trip between them.
- `wrappers.dfy`: `Option`.
- `Completion`, declared in `js_value.dfy`, is a normal result or a thrown exception.

Every component keeps its fields in a class whose methods update them. HTTP replies, `confirm` answers and the session store are method parameters. A handler and the callback of its request run as one step.

Behaviour of the code worth noting:
- The like toggle neither updates `blogposts.likes` nor returns a count. It answers `{ liked }`.
- Post creation validates no field.
- Signup runs outside a transaction.
- A post delete commits the removal of likes and comments even when it answers 404.
- The post list sends the liked flag as `isliked`, since PostgreSQL folds the unquoted alias to lower case. The blog page reads `isLiked`, so every loaded post shows as not liked.

## Model

| member | source | states |
|---|---|---|
| AuthService.Auth.Create | frontend/src/app/services/auth.service.ts:16-19 | creating the service throws iff the stored 'user' entry does not parse; otherwise the published user starts as the parsed entry, or null when there is none |
| AuthService.UndefinedUserUnreadable | frontend/src/app/services/auth.service.ts:10-19 | after `setUser(undefined)` the stored text "undefined" is not JSON, so reading the stored user and the username throw |
| AuthService.SessionUser | frontend/src/app/components/destination/destination.component.ts:44 | the pages' `JSON.parse(getItem('user') \|\| '{}')` agrees with `getUserFromStorage` when an entry is present, and is the empty object otherwise |
| AuthService.StoredUser | frontend/src/app/services/auth.service.ts:16-19 | null without a 'user' entry; with one, it throws iff the text is not JSON; a value read back is never undefined or NaN |
| AuthService.SetUserStoredUser | frontend/src/app/services/auth.service.ts:9-19 | after `setUser(user)` the stored user reads back as the user's JSON view |
| AuthService.Username | frontend/src/app/services/auth.service.ts:26-29 | null without a 'user' entry; otherwise it throws iff `getUserFromStorage()` throws or gives null, and else is that user's `username` |
| AuthService.LoggedIn | frontend/src/app/services/auth.service.ts:31-33 | true iff the 'token' entry is present and truthy |
| AuthService.Admin | frontend/src/app/services/auth.service.ts:35-37 | true iff the 'role' entry is `=== 'admin'`; then isUser is false |
| AuthService.User | frontend/src/app/services/auth.service.ts:39-41 | true iff the 'role' entry is `=== 'user'` |
| AuthService.Auth.SetUser | frontend/src/app/services/auth.service.ts:9-14 | a non-nullish user is stored as its JSON text under 'user', `String(token)` under 'token' and `String(role)` under 'role', and is published; for a nullish user only 'user' is written before `user.token` throws |
| AuthService.Auth.ClearUser | frontend/src/app/services/auth.service.ts:21-33 | the store becomes empty and null is published; then isLoggedIn, isAdmin and isUser are false and getUsername is null |
| AuthService.Auth.IsUser | frontend/src/app/services/auth.service.ts:35-41 | isUser and isAdmin never hold together |
| AuthService.SetUserRole | frontend/src/app/services/auth.service.ts:35-41 | after setUser, isAdmin holds iff `String(role)` is "admin" and isUser iff it is "user"; for a non-array role, iff the role is that string |
| AuthService.SetUserLoggedIn | frontend/src/app/services/auth.service.ts:31-33 | after setUser, isLoggedIn iff `String(token)` is non-empty, so a user without a token counts as logged in |
| AuthService.SetUserUsername | frontend/src/app/services/auth.service.ts:26-29 | after setUser of an object, getUsername returns the user's own `username` as it survives JSON |
| AuthService.LoggedInIgnoresUser | frontend/src/app/services/auth.service.ts:31-33 | writing or removing 'user' never changes isLoggedIn |
| Json.RoundTrip | frontend/src/app/services/auth.service.ts:10-18 | `JSON.parse(JSON.stringify(v))` gives back v as JSON sees it (undefined properties dropped, undefined slots and NaN as null) |
| Json.Stringify | frontend/src/app/services/auth.service.ts:10 | undefined has no JSON text; any other value's text parses back to its JSON view |
| Json.Parse | frontend/src/app/services/auth.service.ts:18 | the empty text is not JSON; a parsed value is never undefined or NaN |
| Json.ValueRoundTrip | frontend/src/app/services/auth.service.ts:10-18 | parsing the text of any value, followed by what may follow a value, gives back the value and exactly the rest |
| Json.StringRoundTrip | frontend/src/app/services/auth.service.ts:10-18 | a string literal as stringify writes it reads back as the same string, and parsing stops after its closing quote |
| Json.EscapeCharRoundTrip | frontend/src/app/services/auth.service.ts:10-18 | every character, as stringify escapes it, reads back as itself |
| Json.NumberRoundTrip | frontend/src/app/services/auth.service.ts:10-18 | the numeral of every integer reads back as that integer |
| Json.ItemsRoundTrip | frontend/src/app/services/auth.service.ts:10-18 | the elements of an array read back as their JSON views |
| Json.MembersRoundTrip | frontend/src/app/services/auth.service.ts:10-18 | the properties of an object read back as their JSON views, in order |
| Json.EncodeStart | frontend/src/app/services/auth.service.ts:10 | the text of a value is never empty and never starts with `]` or `}` |
| Json.GetAfterRoundTrip | frontend/src/app/services/auth.service.ts:26-29 | reading a property of an object after the trip through JSON gives the JSON view of what it held |
| Json.HexVal | frontend/src/app/services/auth.service.ts:18 | a hex digit reads as a value below 16 |
| Json.ParseValue | frontend/src/app/services/auth.service.ts:18 | the parser consumes a non-empty prefix (the rest is shorter than the input) and never yields undefined or NaN |
| JsValue.Put | frontend/src/app/components/blog/blog.component.ts:139-152 | `{...o, key: v}` gives key the new value and every other property its old one |
| JsValue.ToStrWord | frontend/src/app/services/auth.service.ts:11-12 | `String(v)` equals "admin" or "user" iff v is that string, for any non-array v |
| JsValue.NatTextDigits | frontend/src/app/components/blog/blog.component.ts:144 | a numeral is a non-empty run of digits that reads back as its number |
| JsValue.TrimEmpty | frontend/src/app/components/destination/destination.component.ts:95-97 | `s.trim()` is empty iff s is all white space; otherwise it starts and ends with a non-space |
| JsValue.TrimStartShape | frontend/src/app/components/blog/blog.component.ts:315 | trimStart removes exactly a leading run of white space |
| JsValue.TrimEndShape | frontend/src/app/components/blog/blog.component.ts:315 | trimEnd removes exactly a trailing run of white space |
| JsValue.ParseIntNum | backend/app.js:28 | `parseInt` gives back every integer it is handed |
| Settings.FirstIndex | frontend/src/app/components/settings/settings.component.ts:189 | the position of the first occurrence of a post id, or the length when absent |
| Settings.Grouping | frontend/src/app/components/settings/settings.component.ts:184-203 | there is one group per distinct post id |
| Settings.GroupIndex | frontend/src/app/components/settings/settings.component.ts:189 | `groupedMap.has/get`: the group with the key, or the length when none |
| Settings.AddToGroups | frontend/src/app/components/settings/settings.component.ts:186-201 | one loop turn adds a group exactly when the post id is new |
| Settings.GroupByPost | frontend/src/app/components/settings/settings.component.ts:184-203 | the loop builds exactly `Grouping(comments)` |
| Settings.GroupingStep | frontend/src/app/components/settings/settings.component.ts:186-201 | grouping one more comment is one loop turn on the grouping so far |
| Settings.GroupingStepOld | frontend/src/app/components/settings/settings.component.ts:197-200 | a comment on a post already seen is appended to that post's group |
| Settings.GroupingStepNew | frontend/src/app/components/settings/settings.component.ts:189-195 | a comment on a new post opens a new group at the end |
| Settings.GroupForAppend | frontend/src/app/components/settings/settings.component.ts:197-200 | a further comment changes only its own post's group, by appending its entry |
| Settings.GroupingCountsEveryComment | frontend/src/app/components/settings/settings.component.ts:186-201 | the groups hold as many entries as there are comments |
| Settings.AddToGroupsTotal | frontend/src/app/components/settings/settings.component.ts:197-200 | each loop turn adds exactly one entry in total |
| Settings.TotalEntriesUpdate | frontend/src/app/components/settings/settings.component.ts:197-200 | replacing one group changes the total by the difference in its size |
| Settings.GroupKeysDistinct | frontend/src/app/components/settings/settings.component.ts:189-195 | no two groups are for the same post |
| Settings.GroupContents | frontend/src/app/components/settings/settings.component.ts:197-200 | each group is non-empty and holds exactly the entries of the comments on its post, in input order |
| Settings.EntriesOf | frontend/src/app/components/settings/settings.component.ts:197-200 | a post's entries are no more than the comments |
| Settings.EntriesOfAbsent | frontend/src/app/components/settings/settings.component.ts:197-200 | a post no comment is on has no entries |
| Settings.EntriesOfPresent | frontend/src/app/components/settings/settings.component.ts:197-200 | a post some comment is on has at least one entry |
| Settings.EntriesOfAppend | frontend/src/app/components/settings/settings.component.ts:197-200 | one more comment appends its entry to its own post's entries only |
| Settings.GroupTitle | frontend/src/app/components/settings/settings.component.ts:190-193 | a group's title is that of the first comment on its post |
| Settings.FirstTitleIsFirst | frontend/src/app/components/settings/settings.component.ts:190-193 | the recorded title is the title of the comment at the first occurrence |
| Settings.FirstTitleAppend | frontend/src/app/components/settings/settings.component.ts:190-193 | a later comment never changes the title of a post already seen |
| Settings.GroupIndexFirst | frontend/src/app/components/settings/settings.component.ts:189 | no group before the one found has the key |
| Settings.GroupIndexOfKey | frontend/src/app/components/settings/settings.component.ts:189-197 | in the grouping, the group found for a key sits at the key's position among the distinct ids |
| Settings.GroupCount | frontend/src/app/components/settings/settings.component.ts:189-203 | the number of groups equals the number of distinct post ids |
| Settings.DistinctInFirstOccurrenceOrder | frontend/src/app/components/settings/settings.component.ts:189-203 | groups come in the order their post ids first occur |
| Settings.DistinctMembers | frontend/src/app/components/settings/settings.component.ts:189-203 | the distinct keys are exactly the keys that occur |
| Settings.DistinctNoDuplicates | frontend/src/app/components/settings/settings.component.ts:189-195 | the distinct keys hold no duplicates |
| Settings.DistinctAppend | frontend/src/app/components/settings/settings.component.ts:189-195 | a new key is added at the end, a known key adds nothing |
| Settings.PostIdsAppend | frontend/src/app/components/settings/settings.component.ts:186-187 | the post ids of one more comment end with its id |
| Settings.FirstIndexAppend | frontend/src/app/components/settings/settings.component.ts:189 | appending never moves the first occurrence of a key already present |
| Settings.NoDuplicatesCardinality | frontend/src/app/components/settings/settings.component.ts:203 | a list without duplicates has as many elements as its set |
| Settings.WishlistEntry | frontend/src/app/components/settings/settings.component.ts:158-169 | throws iff the row is null or undefined; otherwise id, name, country, coordinates and emoji are copied, uniqueThing and funFact are '' when falsy, isWishlist is true and completed false when nullish, and otherwise they are taken from the row |
| Settings.WishlistEntries | frontend/src/app/components/settings/settings.component.ts:158-169 | throws iff some row is nullish; otherwise one entry per row, in order |
| Settings.SettingsComponent.constructor | frontend/src/app/components/settings/settings.component.ts:17-38 | no tab and full settings shown, empty password fields, user id 0, empty lists |
| Settings.SettingsComponent.SetActiveTab | frontend/src/app/components/settings/settings.component.ts:69-72 | sets the tab and hides full settings; the password fields, user id, wishlist and comment groups are unchanged |
| Settings.SettingsComponent.GoBackToSettings | frontend/src/app/components/settings/settings.component.ts:74-77 | clears the tab and shows full settings; the password fields, user id, wishlist and comment groups are unchanged |
| Settings.SettingsComponent.ChangePassword | frontend/src/app/components/settings/settings.component.ts:96-116 | mismatched new/confirm: no request and nothing changes; otherwise the request carries the user id and both passwords, and on success all three fields become '' |
| Settings.SettingsComponent.LoadWishlist | frontend/src/app/components/settings/settings.component.ts:155-173 | the wishlist becomes the mapped reply rows; on error, or when a nullish row makes the mapping throw, it is unchanged; every other field is unchanged |
| Settings.SettingsComponent.LoadComments | frontend/src/app/components/settings/settings.component.ts:182-206 | the grouped comments become `Grouping(reply)`; on error they are unchanged; every other field is unchanged |
| Home.ImageUrl | frontend/src/app/services/blog.service.ts:47-50 | the image URL is empty iff the id is falsy |
| Home.BackgroundStyle | frontend/src/app/components/home/home.component.ts:38-44 | the style is empty iff the image id is falsy |
| Home.DefaultSection | frontend/src/app/components/home/home.component.ts:151-165 | the placeholder has the kind given, id and imageid 0, empty texts, not editing, no background style |
| Home.MapSection | frontend/src/app/components/home/home.component.ts:50-72 | it throws iff the section is nullish or its type is a non-string; otherwise the kind is the lower-cased type or ''; only hero sections get a background style; imageid is null when neither spelling is present; id is `id ?? Id`; title, description, content1 and content2 are each the first truthy of their two spellings, else '' |
| Home.MapSections | frontend/src/app/components/home/home.component.ts:50-72 | the mapping throws iff some section is nullish or has a non-string type; otherwise one section per entry, in order |
| Home.OfKindMembers | frontend/src/app/components/home/home.component.ts:82-84 | the destinations are exactly the sections of that kind |
| Home.LastOfKindAbsent | frontend/src/app/components/home/home.component.ts:74-81 | with no section of the kind, hero/story keep their previous value |
| Home.LastOfKindPresent | frontend/src/app/components/home/home.component.ts:74-81 | otherwise they take the last section of the kind |
| Home.OtherKindsIgnored | frontend/src/app/components/home/home.component.ts:74-86 | dropping sections of other kinds changes neither hero, story nor destinations |
| Home.Saved | frontend/src/app/components/home/home.component.ts:123-131 | after a save the section takes the reply's image id, stops editing, drops its preview, and its URL is empty iff the id is falsy; id, kind, texts and background style are unchanged |
| Home.HomeComponent.constructor | frontend/src/app/components/home/home.component.ts:17-21 | not admin, hero and story are the default sections, no destinations |
| Home.HomeComponent.Classify | frontend/src/app/components/home/home.component.ts:74-86 | hero and story become the last section of their kind or stay; destinations gain the destination sections in input order |
| Home.HomeComponent.LoadSections | frontend/src/app/components/home/home.component.ts:46-94 | destinations are reset first; on a reply that maps, hero, story and destinations are classified from it; on error or a throwing mapping hero and story stay |
| Home.HomeComponent.EditSection | frontend/src/app/components/home/home.component.ts:96-98 | only that section changes, to editing; isAdmin and the number of destinations are unchanged |
| Home.HomeComponent.SaveSection | frontend/src/app/components/home/home.component.ts:114-137 | a request is sent iff the id is truthy; only a non-null reply changes the section, to `Saved`; no other section changes |
| Home.HomeComponent.DeleteSection | frontend/src/app/components/home/home.component.ts:139-148 | a request is sent iff the id is truthy and the user confirms; only a successful delete reloads, leaving hero, story and destinations as `LoadSections` of the reload reply does; otherwise nothing changes |
| Blog.ImageIds | frontend/src/app/components/blog/blog.component.ts:147-151 | the ImageIds of postImages when it is an array (throwing on a null entry), else [imageid] when truthy, else [] |
| Blog.NormalizePost | frontend/src/app/components/blog/blog.component.ts:137-153 | it throws iff the row is nullish or its image ids throw; isLiked is `!!isLiked`; likes and commentList get their defaults when falsy; summary and comments are hidden |
| Blog.NormalizePosts | frontend/src/app/components/blog/blog.component.ts:137-153 | the mapping throws iff some row is nullish or has an unreadable image list; otherwise one post per row, in order |
| Blog.AsObject | frontend/src/app/components/blog/blog.component.ts:139-152 | the post as the page holds it: its seven page properties as set, and every other property read from the spread row |
| Blog.LowerCaseLikedIgnored | frontend/src/app/components/blog/blog.component.ts:141 | a row that spells the liked flag `isliked`, as the post list sends it, loads as not liked |
| Blog.CommentCountParsed | frontend/src/app/components/blog/blog.component.ts:144 | the comment count is the number the backend sent, as a JSON number or as decimal text, or 0 when it sent a falsy one |
| Blog.LengthOf | frontend/src/app/components/blog/blog.component.ts:298 | `v?.length === 0` holds exactly for the empty array, the empty text, and an object whose `length` is 0 |
| Blog.WithComment | frontend/src/app/components/blog/blog.component.ts:329-335 | the comment is put in front of the list (a falsy list becomes empty first); the count equals the new length; every other property of the post is unchanged |
| Blog.OtherComments | frontend/src/app/components/blog/blog.component.ts:349 | filtering never lengthens the list |
| Blog.OtherCommentsMembers | frontend/src/app/components/blog/blog.component.ts:349 | the kept comments are exactly those whose id is not `===` the deleted id |
| Blog.OtherCommentsKeepsAll | frontend/src/app/components/blog/blog.component.ts:349 | with no comment of that id the list is unchanged |
| Blog.OtherCommentsAppend | frontend/src/app/components/blog/blog.component.ts:349 | the filter distributes over concatenation, so kept comments keep their order |
| Blog.WithoutComment | frontend/src/app/components/blog/blog.component.ts:347-351 | a falsy list leaves the post; an array loses every comment with the id and the count equals the new length |
| Blog.DeleteUndoesAdd | frontend/src/app/components/blog/blog.component.ts:329-350 | deleting comment id 0 right after adding one restores the list, when no other comment has id 0 |
| Blog.FindPost | frontend/src/app/components/blog/blog.component.ts:347 | `find`: the first post whose id is `===` the id, or none |
| Blog.WithLikeReply | frontend/src/app/components/blog/blog.component.ts:372-376 | the post takes `res.isLiked` and `res.likes`; every other property of the post is unchanged |
| Blog.LikeReplyLeavesLikesUndefined | frontend/src/app/components/blog/blog.component.ts:374-375 | against the backend's `{ liked }` reply the page stores undefined for both isLiked and likes |
| Blog.BlogComponent.constructor | frontend/src/app/components/blog/blog.component.ts:54-74 | the field initialisers: no modal, no posts, an empty draft and form, no post being edited |
| Blog.BlogComponent.LoadPosts | frontend/src/app/components/blog/blog.component.ts:131-157 | reading the session user throws on a stored text that is not JSON, and nothing changes; otherwise the request carries `user?.username`, and the posts become the normalised rows, while a throwing mapping or an error leaves them; every other field is unchanged |
| Blog.BlogComponent.ResetForm | frontend/src/app/components/blog/blog.component.ts:203-216 | empty draft and form, and editingPostId null; every other field is unchanged |
| Blog.BlogComponent.OpenModal | frontend/src/app/components/blog/blog.component.ts:183-186 | the form is reset and the modal shown; every other field is unchanged |
| Blog.BlogComponent.OpenEditModal | frontend/src/app/components/blog/blog.component.ts:188-201 | editingPostId is the post's id, the draft copies its title, summary and author, the files are cleared and the modal shown; every other field is unchanged |
| Blog.BlogComponent.SavePost | frontend/src/app/components/blog/blog.component.ts:218-238 | the request carries the draft and the post image but no logo; on success the modal closes and the form is reset, on failure nothing changes; every other field is unchanged |
| Blog.BlogComponent.UpdatePost | frontend/src/app/components/blog/blog.component.ts:240-266 | nothing happens while editingPostId is null; otherwise the request carries both images, and the form is reset only on success; every other field is unchanged |
| Blog.BlogComponent.DeletePost | frontend/src/app/components/blog/blog.component.ts:268-279 | a confirmed, successful delete removes exactly the post at the index; every other field is unchanged |
| Blog.BlogComponent.ToggleComments | frontend/src/app/components/blog/blog.component.ts:295-307 | only that post changes: showComments flips, and the comments are fetched iff the list opens with `commentList?.length === 0`; a fetched reply becomes the list and its length the count, and no other property of the post changes; every other field is unchanged |
| Blog.BlogComponent.AddComment | frontend/src/app/components/blog/blog.component.ts:309-340 | logged out: only the prompt; a whitespace-only message: nothing; otherwise the trimmed comment is prepended to that post and its draft cleared on success; every other field is unchanged |
| Blog.BlogComponent.DeleteComment | frontend/src/app/components/blog/blog.component.ts:342-358 | on a confirmed, successful delete only the first post with the id changes, as `WithoutComment`; every other field is unchanged |
| Blog.BlogComponent.LikePost | frontend/src/app/components/blog/blog.component.ts:360-381 | no username: prompt; unknown post: nothing; otherwise that post takes the reply's isLiked and likes; every other field is unchanged |
| Destination.NormalizeItem | frontend/src/app/components/destination/destination.component.ts:65-80 | throws iff the row is null or undefined; otherwise isWishlist only with a userId; emoji '❓', country 'Unknown', latitude and longitude 0 when both spellings are nullish; completed is `!!(completed ?? Completed)` |
| Destination.NormalizeAll | frontend/src/app/components/destination/destination.component.ts:65-80 | throws iff some row is nullish; otherwise one item per row, in order |
| Destination.LowerCaseWishlistIgnored | frontend/src/app/components/destination/destination.component.ts:77-79 | a row that spells the flag only as `iswishlist` is never on the wishlist |
| Destination.ChunkCountBounds | frontend/src/app/components/destination/destination.component.ts:176 | the chunk count is ceil(len / size): k is below it iff k * size < len |
| Destination.ChunkArray | frontend/src/app/components/destination/destination.component.ts:174-180 | the loop returns exactly `ChunksOf(arr, size)` |
| Destination.FlattenChunksPrefix | frontend/src/app/components/destination/destination.component.ts:176-178 | the first n chunks concatenate to the first min(n * size, len) elements |
| Destination.ChunksConcat | frontend/src/app/components/destination/destination.component.ts:174-180 | concatenating the chunks gives back the input |
| Destination.ChunksShape | frontend/src/app/components/destination/destination.component.ts:176-177 | ceil(len / size) chunks, each non-empty and at most size long, all but the last exactly size |
| Destination.TrackByKeys | frontend/src/app/components/destination/destination.component.ts:182-184 | the key ignores the position; two destinations share a key iff they have the same id, or each has a nullish id or the id -1 |
| Destination.TrackByItemId | frontend/src/app/components/destination/destination.component.ts:182-184 | the key is never null or undefined, and is the item's id or -1 |
| Destination.PopupContent | frontend/src/app/components/destination/destination.component.ts:186-217 | a star iff logged in and not admin, and a shown star is ⭐ on the wishlist and ☆ off it; the fun fact and unique thing are shown, as the item's own text, iff the item is completed and they are truthy; the status reads completed or not yet |
| Destination.PopupHidesDetailsUntilCompleted | frontend/src/app/components/destination/destination.component.ts:189-212 | an item not completed never shows its details |
| Destination.Draft | frontend/src/app/components/destination/destination.component.ts:99-107 | the posted body keeps coordinates and emoji and trims the texts |
| Destination.DraftTrimmed | frontend/src/app/components/destination/destination.component.ts:95-107 | a form past the guard posts a non-empty trimmed name and country |
| Destination.DestinationComponent.constructor | frontend/src/app/components/destination/destination.component.ts:20-34 | the field initialisers |
| Destination.DestinationComponent.Init | frontend/src/app/components/destination/destination.component.ts:43-53 | reading the session user throws on a stored text that is not JSON, and nothing changes; otherwise userId is `user?.id` and isAdmin iff the role is `=== 'admin'` and the URL starts with /admin; the list, the rows, the loading flag and the form are unchanged |
| Destination.DestinationComponent.LoadBucketList | frontend/src/app/components/destination/destination.component.ts:61-92 | the list becomes the normalised rows and the rows stay its chunks of 10, and loading ends; on error the list is unchanged and loading ends; a nullish row throws, leaving the list and the loading flag set; the form is unchanged |
| Destination.DestinationComponent.ClearForm | frontend/src/app/components/destination/destination.component.ts:112-118 | every form field becomes '' or 0; nothing else changes |
| Destination.DestinationComponent.AddBucketItem | frontend/src/app/components/destination/destination.component.ts:94-127 | nothing happens when the trimmed name, trimmed country or emoji is empty; otherwise the draft is posted and, on success, the form cleared and the list reloaded |
| Destination.DestinationComponent.ToggleItem | frontend/src/app/components/destination/destination.component.ts:146-159 | nothing for a non-admin or an undefined id; otherwise the item is sent, and on failure its completed flag is flipped; the form is unchanged |
| Destination.DestinationComponent.DeleteBucketItem | frontend/src/app/components/destination/destination.component.ts:161-172 | a request only for a truthy id, an admin and a confirmation; reload on success; the list and the form are unchanged |
| BackendTables.Filter | backend/app.js:34-38 | `SELECT ... WHERE`: exactly the rows that match, no more than the table, all of it iff every row matches, none iff no row does |
| BackendTables.FilterAppend | backend/app.js:71-78 | selecting from a table with one more row appends that row when it matches |
| BackendTables.FilterIncreasing | backend/app.js:359-364 | selection keeps id order |
| BackendTables.CredentialsFound | backend/app.js:54-60 | login finds a row iff one has the given (non-NULL) username and password |
| BackendTables.AdminCredentialsFound | backend/app.js:34-42 | admin login finds a row iff one has the given (non-NULL) username and password |
| BackendTables.UpdateKeepsIdsBelow | backend/app.js:214-217 | an UPDATE that keeps ids keeps them below the sequence |
| BackendTables.Toggle | backend/app.js:281-299 | the pair is present afterwards iff it was absent; every other pair is unchanged |
| BackendTables.ToggleTwice | backend/app.js:281-299 | toggling twice restores the likes |
| BackendTables.ToggleLikeCount | backend/app.js:281-299 | a toggle moves its post's like count by exactly one and leaves other posts' counts |
| BackendTables.CommentCountAfterInsert | backend/app.js:119 | a new comment adds one to its own post's comment count and none to others |
| BackendTables.SignupKeepsUnique | backend/app.js:64-74 | inserting after an empty existence check keeps usernames unique |
| BackendTables.SignupSelectsNewRow | backend/app.js:75-79 | the re-select after signup finds exactly the new row (none for a NULL username) |
| Backend.RouteId | backend/app.js:28 | `toInt(req.params.id)` is a number iff parseInt of the text is |
| Backend.PostUpdateSteps | backend/app.js:214-238 | the text UPDATE, then the image insert and repoint, then the logo insert and repoint, compose to `PostUpdated`, and no image row is removed |
| Backend.TextUpdateValid | backend/app.js:214-217 | changing a post's title and summary keeps the tables valid |
| Backend.Database.Commit | backend/app.js:240 | the working copy becomes the tables |
| Backend.Database.StageImage | backend/app.js:220-223 | the INSERT into images draws the next image id and appends the row |
| Backend.Database.NextPostId | backend/app.js:179-183 | the blogposts INSERT draws the next post id |
| Backend.Database.NextFoodId | backend/app.js:489-492 | the fooditems INSERT draws the next food id |
| Backend.Database.AdminLogin | backend/app.js:31-47 | 200 with a matching admin row and role 'admin' iff one matches; else 401; 500 on failure |
| Backend.Database.Login | backend/app.js:53-61 | 200 with a matching account and role 'user' iff one matches; else 401; nothing changes |
| Backend.Database.InsertAccount | backend/app.js:71-74 | the account is appended and the account sequence advances |
| Backend.Database.Register | backend/app.js:71-79 | with the username free, the row is appended, one account id drawn, and the reply is the new row, or 500 when the re-select throws |
| Backend.Database.Signup | backend/app.js:63-80 | an existing username gives 400 and inserts nothing; otherwise exactly one row with role 'user' is added and returned, drawing one account id exactly when the INSERT runs |
| Backend.Database.Auth | backend/app.js:50-87 | login: 200 with a matching row iff one exists, else 401, 500 on failure, and nothing changes; signup as above, with the exact sequences; any other action gives 400 and changes nothing |
| Backend.Database.ListPosts | backend/app.js:114-132 | one row per post with the number of its comments, the number of its likes, and whether the viewer likes it |
| Backend.Database.CreatePost | backend/app.js:150-200 | the logo image row, the post image row, then a post with likes 0, the author "Wander With KI" and the new image ids or NULL, answered 201 with a post id no earlier post had; on any failure no table changes; the image and post sequences advance by the INSERTs that ran |
| Backend.Database.StageAndRepoint | backend/app.js:219-238 | for a file, the image insert and the repoint; for none, nothing; failure iff a statement of them throws; the image sequence advances iff the INSERT ran |
| Backend.Database.UpdatePostTx | backend/app.js:212-248 | committed iff no statement throws, and then the tables are `PostUpdated`; else unchanged; images are never removed; the image sequence advances by the INSERTs that ran |
| Backend.Database.UpdatePost | backend/app.js:202-250 | 200 and `PostUpdated` when no statement throws, else 500 and unchanged tables; the previous images stay; the image sequence advances by the INSERTs that ran |
| Backend.Database.DeletePost | backend/app.js:252-271 | the likes and comments of the post and the post row are removed together; 404 iff no post row had the id, with the other removals still committed |
| Backend.Database.ToggleLike | backend/app.js:274-307 | 400 and no change without a username; otherwise the pair is toggled and the reply says whether it is now present |
| Backend.Database.CreateComment | backend/app.js:324-338 | 400 and no insert unless post id, username and message are truthy; otherwise one row is appended; the comment sequence advances iff the reply is 201 |
| Backend.Database.DeleteComment | backend/app.js:340-351 | every comment with the id is removed; 404 iff none had it |
| Backend.Database.ListBucket | backend/app.js:354-370 | in id order; with `completed`, exactly the rows whose completed equals (completed === "true") |
| Backend.Database.CreateFoodItem | backend/app.js:479-502 | 400 without an image; otherwise an image row and a food row pointing at it, with rating `\|\| 0`, or no change on failure; each sequence advances iff its INSERT ran |
| Backend.Database.UpdateFoodItem | backend/app.js:504-533 | the text UPDATE and, with a file, a new image and the repoint; the previous image stays; no change on failure; the image sequence advances iff its INSERT ran |
| Backend.Database.UpdateAdventure | backend/app.js:599-628 | the same for an adventure |

## Left out

- Express, multer, body-parser and CORS wiring are not modelled. A request body is a set of optional text fields, and an upload is its name and bytes.
- The handlers `GET /api/images/:id`, `GET /api/posts/:id` and `GET /api/comments/:postId` are not modelled. They are single selects and carry nothing beyond `Filter`.
- The bucket-list `POST`, `PUT` and `DELETE` routes are not modelled. Neither are food `GET`/`DELETE`, the adventure `GET`/`POST`/`DELETE` routes, the home-section routes, or the wishlist, liked-posts and user-comments lookups. They are single statements with no logic of their own.
- Image byte streaming and base64 data URLs are not modelled. They are foreign buffer calls.
- `NOW()` timestamps are not modelled, so neither are the columns they fill (`post_date`, `liked_at`, `comment_date`).
- Backend.Database.ListPosts: rows come in table order. The `ORDER BY post_date DESC` is not modelled, because post dates are not.
- Interleaving of concurrent requests through the connection pool is not modelled. Each handler is one atomic step, so the check-then-act race of the like toggle is not captured.
- Password storage is not modelled. Credentials are compared as plain strings, as in the code.
- Sanitizer wrappers (`bypassSecurityTrustUrl`, `bypassSecurityTrustStyle`) are not modelled. URLs and styles are kept as their text.
- The blog page's `ngOnInit`, `ngAfterViewInit`, scroll and highlight handling, `onImageSelected`, `getImageUrl`, `getCurrentUsername` and `isLoggedIn` are not modelled. They are view plumbing.
- The blog page's `promptLogin` sets the message but its three-second timer and navigation are not modelled.
- The home page's `ngOnInit` and `onFileSelected` are not modelled. The first is routing; the second is the FileReader preview.
- The settings page's `ngOnInit`, `saveSettings`, `deleteAccount`, `logout`, `checkLogin`, `toggleSidebar`, `togglePassword` and liked-posts callback are not modelled. They only issue requests, navigate or flip a view flag.
- The destination page's map construction, geocoding (`autoFillCoordinates`), wishlist star binding and `ngOnDestroy` are not modelled. They are Leaflet, network and DOM calls with floating-point coordinates. Latitude and longitude are opaque values.
- `frontend/src/app/services/blog.service.ts` is not part of this model, apart from `getImageUrl`. Its calls are HTTP requests whose replies are parameters here.
- JavaScript numbers are integers, and NaN is a value of its own. Floating point is not modelled.
- Json: the parser reads exactly the text `JSON.stringify` writes. It accepts no white space between tokens and no fractions or exponents, so it is not a full JSON reader.
- Backend.Database.Signup, Backend.Database.CreatePost, Backend.Database.UpdatePost, Backend.Database.CreateComment, Backend.Database.CreateFoodItem, Backend.Database.UpdateFoodItem, Backend.Database.UpdateAdventure: a failing INSERT is taken to draw no sequence value. PostgreSQL may consume one even then; that gap in the ids is not modelled.
- JsValue.ToLower: lowers ASCII letters only, where `toLowerCase` lowers all of Unicode. Home.MapSection therefore gives a different kind for a type with non-ASCII capitals.
- JsValue.StrictEq: compares arrays and objects by structure, where `===` compares identity. The components apply `===` only to numbers, text and null (ids, the role, a length), where structure and identity agree.
- Settings.GroupByPost: comment rows are records, so a null row (on which `comment.post_id` throws) cannot occur; `Map` keys are compared by value, which agrees with `SameValueZero` for the numeric post ids.

=== FILE: auth_service.dfy ===
/**
  The frontend's session state (frontend/src/app/services/auth.service.ts): the
  logged-in user kept in sessionStorage under the keys 'user' (its JSON text),
  'token' and 'role', and the user subject that publishes the current user.

  sessionStorage is a map from keys to strings; `setItem` stores `String(v)`.
 */
module AuthService {
  import opened Wrappers
  import opened JsValue
  import Json

  type Store = map<string, string>

  /** The text stored for `JSON.stringify(user)`: a value with no JSON text
      (undefined) is stored as the string "undefined". */
  function UserText(user: Value): string {
    match Json.Stringify(user)
    case Some(t) => t
    case None => "undefined"
  }

  /** `sessionStorage.getItem(key)` is truthy. */
  predicate HasText(store: Store, key: string) {
    key in store && store[key] != ""
  }

  /** `getUserFromStorage()`: the parsed 'user' entry, or null when there is
      none; JSON.parse throws on text that is not JSON. */
  function StoredUser(store: Store): (r: Completion<Value>)
    ensures !HasText(store, "user") ==> r == Normal(Null)
    ensures HasText(store, "user") ==> (r.Throw? <==> Json.Parse(store["user"]).None?)
    ensures r.Normal? ==> !r.value.Undefined? && !r.value.NaN?
  {
    if HasText(store, "user") then
      match Json.Parse(store["user"])
      case Some(v) => Normal(v)
      case None => Throw
    else Normal(Null)
  }

  /** `JSON.parse(sessionStorage.getItem('user') || '{}')`, as the pages read
      the session: the same as `getUserFromStorage()` except that a missing
      entry reads as an empty object. */
  function SessionUser(store: Store): (r: Completion<Value>)
    ensures HasText(store, "user") ==> r == StoredUser(store)
    ensures !HasText(store, "user") ==> r == Normal(Obj([]))
  {
    if HasText(store, "user") then
      match Json.Parse(store["user"])
      case Some(v) => Normal(v)
      case None => Throw
    else Normal(Obj([]))
  }

  /** `getUsername()`: the `username` of the stored user, or null when there is
      no 'user' entry; reading a property of a stored null throws. */
  function Username(store: Store): (r: Completion<Value>)
    ensures !HasText(store, "user") ==> r == Normal(Null)
    ensures HasText(store, "user") ==>
              (r.Throw? <==> StoredUser(store).Throw? || Nullish(StoredUser(store).value))
    ensures HasText(store, "user") && r.Normal? ==> r.value == Get(StoredUser(store).value, "username")
  {
    if HasText(store, "user") then
      match Json.Parse(store["user"])
      case Some(v) => if Nullish(v) then Throw else Normal(Get(v, "username"))
      case None => Throw
    else Normal(Null)
  }

  /** `isLoggedIn()`: `!!getItem('token')`, where a missing entry is null. */
  predicate LoggedIn(store: Store): (b: bool)
    ensures b <==> "token" in store && Truthy(Str(store["token"]))
  {
    HasText(store, "token")
  }

  /** `isAdmin()`: `getItem('role') === 'admin'`, where a missing entry is null. */
  predicate Admin(store: Store): (b: bool)
    ensures b <==> "role" in store && StrictEq(Str(store["role"]), Str("admin"))
    ensures b ==> !User(store)
  {
    "role" in store && store["role"] == "admin"
  }

  /** `isUser()`: `getItem('role') === 'user'`, where a missing entry is null. */
  predicate User(store: Store): (b: bool)
    ensures b <==> "role" in store && StrictEq(Str(store["role"]), Str("user"))
  {
    "role" in store && store["role"] == "user"
  }

  /** The store after `setUser(user)` on a non-nullish user. */
  function AfterSetUser(store: Store, user: Value): Store {
    store["user" := UserText(user)]["token" := ToStr(Get(user, "token"))]["role" := ToStr(Get(user, "role"))]
  }

  class Auth {
    var storage: Store
    /** The value last published on `user$`. */
    var currentUser: Value

    /** A service over `initial` whose subject holds `user`. */
    constructor Of(initial: Store, user: Value)
      ensures storage == initial && currentUser == user
    {
      storage := initial;
      currentUser := user;
    }

    /** Creating the service: the subject starts with the user found in
        storage, and the creation throws when that entry does not parse (for
        instance the text "undefined" that `setUser(undefined)` leaves). */
    static method Create(initial: Store) returns (r: Completion<Auth>)
      ensures r.Throw? <==> StoredUser(initial).Throw?
      ensures r.Normal? ==> fresh(r.value) && r.value.storage == initial
                            && r.value.currentUser == StoredUser(initial).value
    {
      var user := StoredUser(initial);
      if user.Throw? {
        return Throw;
      }
      var auth := new Auth.Of(initial, user.value);
      r := Normal(auth);
    }

    /** `setUser(user)`: the 'user' entry is written first; for an undefined or
        null user, reading `user.token` then throws and nothing else changes. */
    method SetUser(user: Value) returns (outcome: Completion<()>)
      modifies this
      ensures Nullish(user) ==> outcome == Throw && storage == old(storage)["user" := UserText(user)]
                                && currentUser == old(currentUser)
      ensures !Nullish(user) ==> outcome == Normal(()) && storage == AfterSetUser(old(storage), user)
                                 && currentUser == user
    {
      storage := storage["user" := UserText(user)];
      if Nullish(user) {
        return Throw;
      }
      storage := storage["token" := ToStr(Get(user, "token"))];
      storage := storage["role" := ToStr(Get(user, "role"))];
      currentUser := user;
      outcome := Normal(());
    }

    /** `clearUser()`: every key is removed and null is published. */
    method ClearUser()
      modifies this
      ensures storage == map[] && currentUser == Null
      ensures !IsLoggedIn() && !IsAdmin() && !IsUser() && GetUsername() == Normal(Null)
    {
      storage := map[];
      currentUser := Null;
    }

    function GetUsername(): Completion<Value>
      reads this
    {
      Username(storage)
    }

    predicate IsLoggedIn()
      reads this
    {
      LoggedIn(storage)
    }

    predicate IsAdmin()
      reads this
    {
      Admin(storage)
    }

    /** `isUser()`, which never holds together with `isAdmin()`. */
    predicate IsUser()
      reads this
      ensures IsUser() ==> !IsAdmin()
    {
      User(storage)
    }
  }

  /** After `setUser(user)` the role checks read `String(user.role)`; unless
      the role is an array, `isAdmin()` holds exactly when it is "admin" and
      `isUser()` exactly when it is "user". */
  lemma SetUserRole(store: Store, user: Value)
    requires !Nullish(user)
    ensures Admin(AfterSetUser(store, user)) <==> ToStr(Get(user, "role")) == "admin"
    ensures User(AfterSetUser(store, user)) <==> ToStr(Get(user, "role")) == "user"
    ensures !Get(user, "role").Arr? ==>
              (Admin(AfterSetUser(store, user)) <==> Get(user, "role") == Str("admin")) &&
              (User(AfterSetUser(store, user)) <==> Get(user, "role") == Str("user"))
  {
    if !Get(user, "role").Arr? {
      ToStrWord(Get(user, "role"), "admin");
      ToStrWord(Get(user, "role"), "user");
    }
  }

  /** After `setUser(user)` the session counts as logged in unless the token
      is the empty string (or an array that joins to it); in particular a user
      object without a token stores the text "undefined" and is logged in. */
  lemma SetUserLoggedIn(store: Store, user: Value)
    requires !Nullish(user)
    ensures LoggedIn(AfterSetUser(store, user)) <==> ToStr(Get(user, "token")) != ""
    ensures Get(user, "token").Undefined? ==> LoggedIn(AfterSetUser(store, user))
  {
  }

  /** After `setUser(user)` on an object, `getUsername()` gives back the
      user's own `username` property as it survives JSON. */
  lemma SetUserUsername(store: Store, fields: seq<Field>)
    requires DistinctKeys(fields)
    ensures Username(AfterSetUser(store, Obj(fields))) == Normal(Json.PropertyView(Get(Obj(fields), "username")))
  {
    var user := Obj(fields);
    var s := AfterSetUser(store, user);
    Json.RoundTrip(user);
    assert s["user"] == Json.Encode(user);
    assert Json.Encode(user)[0] == '{';
    Json.GetAfterRoundTrip(fields, "username");
  }

  /** `getUserFromStorage()` after `setUser(user)` gives back the user as a
      trip through JSON leaves it. */
  lemma SetUserStoredUser(store: Store, user: Value)
    requires !Nullish(user)
    ensures StoredUser(AfterSetUser(store, user)) == Normal(Json.View(user))
  {
    Json.RoundTrip(user);
    Json.EncodeStart(user);
    assert AfterSetUser(store, user)["user"] == Json.Encode(user);
  }

  /** `setUser(undefined)` stores the text "undefined", which is not JSON:
      reading the stored user, and so creating the service, then throws. */
  lemma UndefinedUserUnreadable(store: Store)
    ensures StoredUser(store["user" := UserText(Undefined)]).Throw?
    ensures Username(store["user" := UserText(Undefined)]).Throw?
  {
    var text := UserText(Undefined);
    assert text == "undefined";
    assert Json.Parse(text).None?;
  }

  /** `isLoggedIn()` looks at the 'token' entry alone: writing or removing the
      'user' entry does not change it. */
  lemma LoggedInIgnoresUser(store: Store, text: string)
    ensures LoggedIn(store["user" := text]) == LoggedIn(store)
    ensures LoggedIn(store - {"user"}) == LoggedIn(store)
  {
  }
}

=== FILE: backend.dfy ===
/**
  The request handlers of the Express backend (backend/app.js) that change or
  select table rows: admin login, login and signup, post create/update/delete,
  the like toggle, comment create/delete, the bucket-list filter, and food
  item and adventure create/update.

  Each handler runs as one step. Database failures are a parameter: `fault`
  is the position (0 for the first statement after BEGIN, COMMIT included) of
  the statement that throws, if any. A handler inside BEGIN/COMMIT then rolls
  every table back; the serial id sequences are not rolled back.
 */
module Backend {
  import opened Wrappers
  import opened JsValue
  import opened BackendTables

  /** The JSON body of a reply. */
  datatype Body =
    | Message(message: string)                         // { message }
    | Error(error: string)                             // { error }
    | Text(text: string)                               // res.send(text)
    | AdminUser(admin: AdminRow, role: string)         // { user, role }
    | AccountUser(user: Option<Account>, role: string) // { user, role }; None: `user` is undefined
    | Liked(liked: bool)                               // { liked }
    | PostCreated(message: string, postId: int)        // { message, postId }
    | BucketRows(rows: seq<BucketRow>)                 // the rows themselves
    | Posts(posts: seq<PostSummary>)                   // the rows of the post list

  datatype Response = Response(status: int, body: Body)

  /** A row of `GET /api/posts`: the post's columns, the number of its
      comments, the number of its likes, and whether the viewer likes it. */
  datatype PostSummary = PostSummary(
    id: int,
    title: Option<string>,
    summary: Option<string>,
    author: string,
    logoid: Option<int>,
    imageid: Option<int>,
    commentcount: nat,
    likes: nat,
    isliked: bool)

  /** All tables, as a snapshot taken at BEGIN. */
  datatype Tables = Tables(
    users: seq<AdminRow>,
    logintable: seq<Account>,
    images: seq<Image>,
    blogposts: seq<PostRow>,
    postlikes: set<Like>,
    comments: seq<CommentRow>,
    adventurebucketlist: seq<BucketRow>,
    fooditems: seq<FoodRow>,
    adventures: seq<AdventureRow>)

  /** The next value of each serial id sequence. */
  datatype Serials = Serials(account: int, image: int, post: int, comment: int, food: int)

  /** Usernames are unique, every post id was drawn from its sequence, and
      the bucket list is kept in id order. */
  predicate ValidDb(t: Tables, s: Serials) {
    UniqueUsernames(t.logintable)
    && (forall row :: row in t.blogposts ==> row.id < s.post)
    && IncreasingBy(t.adventurebucketlist, BucketId)
  }

  /** `toInt(req.params.id)`: parseInt of the route text; None for NaN, which
      Postgres rejects in the first statement that uses it. */
  function RouteId(param: string): (r: Option<int>)
    ensures r.Some? <==> ParseIntText(param).Num?
  {
    match ParseIntText(param)
    case Num(n) => Some(n)
    case _ => None
  }

  /** The statement that throws: the given one, or the first when the id is
      not a number. */
  function Effective(fault: Option<nat>, id: Option<int>): Option<nat> {
    if id.None? then Some(0) else fault
  }

  /** One of the first `n` statements throws. */
  predicate FailsBefore(fault: Option<nat>, n: nat) {
    fault.Some? && fault.value < n
  }

  /** A truthy text field of a JSON body. */
  predicate Given(v: Option<string>) {
    v.Some? && v.value != ""
  }

  function Count(file: Option<Upload>): nat {
    if file.Some? then 1 else 0
  }

  /** 1 when an upload was given and its INSERT, statement `at`, ran: no
      statement up to and including it threw (a failing INSERT draws no id). */
  function Inserted(f: Option<nat>, file: Option<Upload>, at: nat): nat {
    if file.Some? && !FailsBefore(f, at + 1) then 1 else 0
  }

  /** The `images` row an optional upload adds when it gets id `id`. */
  function ImageRows(file: Option<Upload>, id: int): seq<Image> {
    if file.Some? then [Image(id, file.value.originalname, file.value.buffer)] else []
  }

  /** The id an optional upload gets, or NULL. */
  function NewId(file: Option<Upload>, id: int): Option<int> {
    if file.Some? then Some(id) else None
  }

  /** `rating || 0` for a multipart text field. */
  function RatingParam(rating: Option<string>): Option<string> {
    if Given(rating) then rating else Some("0")
  }

  /** The post rows after an optional upload with id `imageId` is made the
      post's image (or, for `logo`, its logo); unchanged without an upload. */
  function PointAt(rows: seq<PostRow>, id: int, file: Option<Upload>, logo: bool, imageId: int): seq<PostRow> {
    if file.None? then rows
    else if logo then SetPostLogo(rows, id, imageId)
    else SetPostImage(rows, id, imageId)
  }

  /** The tables a committed post update leaves: the new title and summary,
      then, for each upload, its image row and the post pointing at it (post
      image first, drawing id `next`, then logo). */
  function PostUpdated(t: Tables, id: int, title: Option<string>, summary: Option<string>,
                       postImage: Option<Upload>, logoImage: Option<Upload>, next: int): Tables
  {
    var logoId := next + Count(postImage);
    var texted := SetPostText(t.blogposts, id, title, summary);
    t.(images := t.images + ImageRows(postImage, next) + ImageRows(logoImage, logoId),
       blogposts := PointAt(PointAt(texted, id, postImage, false, next), id, logoImage, true, logoId))
  }

  /** The update transaction's three steps on the working copy compose to
      `PostUpdated`. */
  lemma PostUpdateSteps(t: Tables, id: int, title: Option<string>, summary: Option<string>,
                        postImage: Option<Upload>, logoImage: Option<Upload>, next: int,
                        t0: Tables, t1: Tables, t2: Tables)
    requires t0 == t.(blogposts := SetPostText(t.blogposts, id, title, summary))
    requires t1 == t0.(images := t0.images + ImageRows(postImage, next),
                       blogposts := PointAt(t0.blogposts, id, postImage, false, next))
    requires t2 == t1.(images := t1.images + ImageRows(logoImage, next + Count(postImage)),
                       blogposts := PointAt(t1.blogposts, id, logoImage, true, next + Count(postImage)))
    ensures t2 == PostUpdated(t, id, title, summary, postImage, logoImage, next)
    ensures t.images <= t2.images
  {
    var added := ImageRows(postImage, next) + ImageRows(logoImage, next + Count(postImage));
    assert t2.images == t.images + added;
  }

  /** Changing a post's title and summary keeps the tables valid. */
  lemma TextUpdateValid(t: Tables, s: Serials, id: int, title: Option<string>, summary: Option<string>)
    requires ValidDb(t, s)
    ensures ValidDb(t.(blogposts := SetPostText(t.blogposts, id, title, summary)), s)
  {
    UpdateKeepsIdsBelow(t.blogposts, SetPostText(t.blogposts, id, title, summary), s.post);
  }

  const Author := "Wander With KI"

  /** The database: every table, and the next value of each serial id
      sequence. */
  class Database {
    var tables: Tables
    var serials: Serials

    predicate Valid()
      reads this
    {
      ValidDb(tables, serials)
    }

    constructor (t: Tables, s: Serials)
      requires ValidDb(t, s)
      ensures tables == t && serials == s && Valid()
    {
      tables, serials := t, s;
    }

    /** COMMIT: the working copy a transaction built becomes the tables.
        (ROLLBACK is dropping the working copy.) */
    method Commit(tx: Tables)
      requires ValidDb(tx, serials)
      modifies this
      ensures tables == tx && serials == old(serials) && Valid()
    {
      tables := tx;
    }

    /** `INSERT INTO images (name, imagedata) VALUES ($1, $2) RETURNING id`
        inside a transaction: the row goes to the working copy, the id is
        drawn from the sequence at once. */
    method StageImage(tx: Tables, file: Upload) returns (tx': Tables, id: int)
      requires Valid() && ValidDb(tx, serials)
      modifies this
      ensures Valid() && ValidDb(tx', serials)
      ensures id == old(serials.image) && serials == old(serials).(image := id + 1)
      ensures tables == old(tables)
      ensures tx' == tx.(images := tx.images + [Image(id, file.originalname, file.buffer)])
    {
      id := serials.image;
      serials := serials.(image := id + 1);
      tx' := tx.(images := tx.images + [Image(id, file.originalname, file.buffer)]);
    }

    /** `nextval` of the post id sequence. */
    method NextPostId() returns (id: int)
      requires Valid()
      modifies this
      ensures Valid()
      ensures id == old(serials.post) && serials == old(serials).(post := id + 1)
      ensures tables == old(tables)
    {
      id := serials.post;
      serials := serials.(post := id + 1);
    }

    /** `nextval` of the food item id sequence. */
    method NextFoodId() returns (id: int)
      requires Valid()
      modifies this
      ensures Valid()
      ensures id == old(serials.food) && serials == old(serials).(food := id + 1)
      ensures tables == old(tables)
    {
      id := serials.food;
      serials := serials.(food := id + 1);
    }

    // -------------------------------------------------------------------------
    // POST /api/admin, POST /api/auth
    // -------------------------------------------------------------------------

    /** Admin login: 200 with the first admin row whose username and password
        both equal the ones given, 401 when there is none. */
    method AdminLogin(username: Option<string>, password: Option<string>, fault: bool) returns (r: Response)
      ensures fault ==> r == Response(500, Message("Server error"))
      ensures !fault ==> (r.status == 200 <==>
                exists row :: row in tables.users && SqlEq(row.username, username) && SqlEq(row.password, password))
      ensures !fault && r.status == 200 ==>
                r.body.AdminUser? && r.body.role == "admin" && r.body.admin in tables.users
                && SqlEq(r.body.admin.username, username) && SqlEq(r.body.admin.password, password)
      ensures !fault && r.status != 200 ==> r == Response(401, Message("Invalid admin credentials"))
    {
      if fault {
        return Response(500, Message("Server error"));
      }
      var rows := Filter(tables.users, AdminCredentials(username, password));
      AdminCredentialsFound(tables.users, username, password);
      if |rows| > 0 {
        assert rows[0] in rows;
        r := Response(200, AdminUser(rows[0], "admin"));
      } else {
        r := Response(401, Message("Invalid admin credentials"));
      }
    }

    /** The visitor login branch of `/api/auth`, which changes nothing. */
    method Login(username: Option<string>, password: Option<string>, fault: bool) returns (r: Response)
      ensures fault ==> r == Response(500, Message("Server error"))
      ensures !fault ==> (r.status == 200 <==>
                exists row :: row in tables.logintable && SqlEq(row.username, username) && SqlEq(row.password, password))
      ensures !fault && r.status == 200 ==>
                r.body.AccountUser? && r.body.role == "user" && r.body.user.Some? && r.body.user.value in tables.logintable
                && SqlEq(r.body.user.value.username, username) && SqlEq(r.body.user.value.password, password)
      ensures !fault && r.status != 200 ==> r == Response(401, Message("Invalid credentials"))
    {
      if fault {
        return Response(500, Message("Server error"));
      }
      var rows := Filter(tables.logintable, Credentials(username, password));
      CredentialsFound(tables.logintable, username, password);
      if |rows| == 0 {
        return Response(401, Message("Invalid credentials"));
      }
      assert rows[0] in rows;
      r := Response(200, AccountUser(Some(rows[0]), "user"));
    }

    /** The signup INSERT into `logintable`, of a row whose id is drawn from the
        account sequence. */
    method InsertAccount(row: Account)
      requires Valid() && row.id == serials.account && UniqueUsernames(tables.logintable + [row])
      modifies this
      ensures Valid()
      ensures tables == old(tables).(logintable := old(tables.logintable) + [row])
      ensures serials == old(serials).(account := row.id + 1)
    {
      tables := tables.(logintable := tables.logintable + [row]);
      serials := serials.(account := row.id + 1);
    }

    /** The INSERT and the re-select of signup, once the username is known to
        be free; `selectFails` says whether the re-select throws, which leaves
        the new row in place. */
    method Register(username: Option<string>, password: Option<string>,
                    email: Option<string>, phone: Option<string>, selectFails: bool) returns (r: Response)
      requires Valid() && Filter(tables.logintable, SameUsername(username)) == []
      modifies this
      ensures Valid()
      ensures tables == old(tables).(logintable := old(tables.logintable) +
                                       [Account(old(serials.account), username, password, email, phone, "user")])
      ensures serials == old(serials).(account := old(serials.account) + 1)
      ensures selectFails ==> r == Response(500, Message("Server error"))
      ensures !selectFails ==>
                r == Response(200, AccountUser(if username.Some?
                                               then Some(Account(old(serials.account), username, password, email, phone, "user"))
                                               else None, "user"))
    {
      var row := Account(serials.account, username, password, email, phone, "user");
      ghost var rows := tables.logintable;
      SignupKeepsUnique(rows, row);
      SignupSelectsNewRow(rows, row);
      InsertAccount(row);
      assert tables.logintable == rows + [row];
      if selectFails {
        return Response(500, Message("Server error"));
      }
      var newUser := Filter(tables.logintable, SameUsername(username));
      assert username.Some? ==> newUser == [row];
      assert username.None? ==> newUser == [];
      r := Response(200, AccountUser(if |newUser| > 0 then Some(newUser[0]) else None, "user"));
    }

    /** The signup branch of `/api/auth`. It runs three statements without a
        transaction: the existence check, the INSERT and the re-select, so a
        failure of the re-select leaves the new row in place. */
    method Signup(username: Option<string>, password: Option<string>,
                  email: Option<string>, phone: Option<string>, fault: Option<nat>) returns (r: Response)
      requires Valid()
      modifies this
      ensures Valid()
      ensures fault == Some(0) ==>
                r == Response(500, Message("Server error")) && tables == old(tables) && serials == old(serials)
      ensures fault != Some(0) && Filter(old(tables.logintable), SameUsername(username)) != [] ==>
                r == Response(400, Message("Username already exists")) && tables == old(tables) && serials == old(serials)
      ensures fault != Some(0) && Filter(old(tables.logintable), SameUsername(username)) == [] ==>
                var row := Account(old(serials.account), username, password, email, phone, "user");
                (fault == Some(1) ==> r == Response(500, Message("Server error")) && tables == old(tables)
                                      && serials == old(serials))
                && (fault != Some(1) ==> tables == old(tables).(logintable := old(tables.logintable) + [row])
                                         && serials == old(serials).(account := row.id + 1))
                && (fault == Some(2) ==> r == Response(500, Message("Server error")))
                && (fault != Some(1) && fault != Some(2) ==>
                      r == Response(200, AccountUser(if username.Some? then Some(row) else None, "user")))
    {
      if fault == Some(0) {
        return Response(500, Message("Server error"));
      }
      var existing := Filter(tables.logintable, SameUsername(username));
      if |existing| > 0 {
        return Response(400, Message("Username already exists"));
      }
      if fault == Some(1) {
        return Response(500, Message("Server error"));
      }
      r := Register(username, password, email, phone, fault == Some(2));
    }

    /** `POST /api/auth`: login, signup, or 400 for any other action. */
    method Auth(action: Option<string>, username: Option<string>, password: Option<string>,
                email: Option<string>, phone: Option<string>, fault: Option<nat>) returns (r: Response)
      requires Valid()
      modifies this
      ensures Valid()
      ensures action != Some("login") && action != Some("signup") ==>
                r == Response(400, Message("Invalid action")) && tables == old(tables) && serials == old(serials)
      ensures action == Some("login") ==> tables == old(tables) && serials == old(serials)
      ensures action == Some("login") && fault == Some(0) ==> r == Response(500, Message("Server error"))
      ensures action == Some("login") && fault != Some(0) ==>
                (r.status == 200 <==>
                 exists row :: row in tables.logintable && SqlEq(row.username, username) && SqlEq(row.password, password))
      ensures action == Some("login") && fault != Some(0) && r.status == 200 ==>
                r.body.AccountUser? && r.body.role == "user" && r.body.user.Some? && r.body.user.value in tables.logintable
                && SqlEq(r.body.user.value.username, username) && SqlEq(r.body.user.value.password, password)
      ensures action == Some("login") && fault != Some(0) && r.status != 200 ==>
                r == Response(401, Message("Invalid credentials"))
      ensures action == Some("signup") && fault == Some(0) ==>
                r == Response(500, Message("Server error")) && tables == old(tables) && serials == old(serials)
      ensures action == Some("signup") && fault != Some(0) && Filter(old(tables.logintable), SameUsername(username)) != [] ==>
                r == Response(400, Message("Username already exists")) && tables == old(tables) && serials == old(serials)
      ensures action == Some("signup") && fault != Some(0) && Filter(old(tables.logintable), SameUsername(username)) == [] ==>
                var row := Account(old(serials.account), username, password, email, phone, "user");
                (fault == Some(1) ==> r == Response(500, Message("Server error")) && tables == old(tables)
                                      && serials == old(serials))
                && (fault != Some(1) ==> tables == old(tables).(logintable := old(tables.logintable) + [row])
                                         && serials == old(serials).(account := row.id + 1))
                && (fault == Some(2) ==> r == Response(500, Message("Server error")))
                && (fault != Some(1) && fault != Some(2) ==>
                      r == Response(200, AccountUser(if username.Some? then Some(row) else None, "user")))
    {
      if action == Some("login") {
        r := Login(username, password, fault == Some(0));
      } else if action == Some("signup") {
        r := Signup(username, password, email, phone, fault);
      } else {
        r := Response(400, Message("Invalid action"));
      }
    }

    // -------------------------------------------------------------------------
    // GET /api/posts, POST /api/posts, PUT /api/posts/:id, DELETE /api/posts/:id
    // -------------------------------------------------------------------------

    /** The post list: every post with the counts of its comments and likes,
        and whether the viewer (`username || null`) likes it. */
    method ListPosts(username: Option<string>, fault: bool) returns (r: Response)
      requires Valid()
      ensures fault ==> r == Response(500, Message("Failed to load posts"))
      ensures !fault ==> r.status == 200 && r.body.Posts? && |r.body.posts| == |tables.blogposts|
      ensures !fault ==> forall i :: 0 <= i < |r.body.posts| ==>
                var p := tables.blogposts[i];
                r.body.posts[i].id == p.id && r.body.posts[i].title == p.title
                && r.body.posts[i].summary == p.summary && r.body.posts[i].author == p.author
                && r.body.posts[i].logoid == p.logoid && r.body.posts[i].imageid == p.imageid
                && r.body.posts[i].commentcount == |Filter(tables.comments, OnPost(p.id))|
                && r.body.posts[i].likes == |LikesOf(tables.postlikes, p.id)|
                && (r.body.posts[i].isliked <==> Given(username) && Like(p.id, username.value) in tables.postlikes)
    {
      if fault {
        return Response(500, Message("Failed to load posts"));
      }
      var viewer := if Given(username) then username else None;
      var t := tables;
      var rows := seq(|t.blogposts|, i requires 0 <= i < |t.blogposts| =>
        var p := t.blogposts[i];
        PostSummary(p.id, p.title, p.summary, p.author, p.logoid, p.imageid,
                    |Filter(t.comments, OnPost(p.id))|, |LikesOf(t.postlikes, p.id)|,
                    viewer.Some? && Like(p.id, viewer.value) in t.postlikes));
      r := Response(200, Posts(rows));
    }

    /** Create a post: the logo image, then the post image, then the post,
        all in one transaction. */
    method CreatePost(title: Option<string>, summary: Option<string>,
                      logoImage: Option<Upload>, postImage: Option<Upload>,
                      fault: Option<nat>) returns (r: Response)
      requires Valid()
      modifies this
      ensures Valid()
      ensures serials == old(serials).(
                image := old(serials.image) + Inserted(fault, logoImage, 0) + Inserted(fault, postImage, Count(logoImage)),
                post := old(serials.post) + (if FailsBefore(fault, Count(logoImage) + Count(postImage) + 1) then 0 else 1))
      ensures FailsBefore(fault, Count(logoImage) + Count(postImage) + 2) ==>
                r == Response(500, Error("Failed to create post")) && tables == old(tables)
      ensures !FailsBefore(fault, Count(logoImage) + Count(postImage) + 2) ==>
                var logoId := old(serials.image);
                var postImageId := old(serials.image) + Count(logoImage);
                var post := PostRow(old(serials.post), title, summary, Author, 0,
                                    NewId(logoImage, logoId), NewId(postImage, postImageId));
                r == Response(201, PostCreated("Post created successfully", old(serials.post)))
                && tables == old(tables).(
                     images := old(tables.images) + ImageRows(logoImage, logoId) + ImageRows(postImage, postImageId),
                     blogposts := old(tables.blogposts) + [post])
      ensures r.status == 201 ==> forall row :: row in old(tables.blogposts) ==> row.id != r.body.postId
    {
      var tx := tables;
      var step := 0;
      var logoId: Option<int> := None;
      var postImageId: Option<int> := None;
      if logoImage.Some? {
        if fault == Some(step) {
          return Response(500, Error("Failed to create post"));
        }
        var id;
        tx, id := StageImage(tx, logoImage.value);
        logoId := Some(id);
        step := step + 1;
      }
      if postImage.Some? {
        if fault == Some(step) {
          return Response(500, Error("Failed to create post"));
        }
        var id;
        tx, id := StageImage(tx, postImage.value);
        postImageId := Some(id);
        step := step + 1;
      }
      if fault == Some(step) {
        return Response(500, Error("Failed to create post"));
      }
      var postId := NextPostId();
      tx := tx.(blogposts := tx.blogposts + [PostRow(postId, title, summary, Author, 0, logoId, postImageId)]);
      step := step + 1;
      if fault == Some(step) {
        return Response(500, Error("Failed to create post"));
      }
      Commit(tx);
      r := Response(201, PostCreated("Post created successfully", postId));
    }

    /** Inside the update transaction, for an optional upload: insert the
        image (statement `step`) and point the post's image (or, for `logo`,
        its logo) at it (statement `step + 1`). Nothing happens without an
        upload. `next` is the position of the statement that follows. */
    method StageAndRepoint(tx: Tables, id: int, file: Option<Upload>, logo: bool, f: Option<nat>, step: nat)
      returns (tx': Tables, failed: bool, next: nat)
      requires Valid() && ValidDb(tx, serials)
      requires !FailsBefore(f, step)
      modifies this
      ensures Valid() && ValidDb(tx', serials)
      ensures serials == old(serials).(image := old(serials.image) + Inserted(f, file, step)) && tables == old(tables)
      ensures next == step + 2 * Count(file)
      ensures failed <==> FailsBefore(f, next)
      ensures !failed ==>
                tx' == tx.(images := tx.images + ImageRows(file, old(serials.image)),
                              blogposts := PointAt(tx.blogposts, id, file, logo, old(serials.image)))
    {
      next := step + 2 * Count(file);
      if file.None? {
        return tx, false, next;
      }
      if f == Some(step) {
        return tx, true, next;
      }
      var imageId;
      tx', imageId := StageImage(tx, file.value);
      if f == Some(step + 1) {
        return tx', true, next;
      }
      var posts := if logo then SetPostLogo(tx'.blogposts, id, imageId) else SetPostImage(tx'.blogposts, id, imageId);
      UpdateKeepsIdsBelow(tx'.blogposts, posts, serials.post);
      tx' := tx'.(blogposts := posts);
      failed := false;
    }

    /** The update transaction once statement 0, the text UPDATE, is known
        not to throw: each upload takes two more statements, and COMMIT is
        the last. */
    method UpdatePostTx(id: int, title: Option<string>, summary: Option<string>,
                        logoImage: Option<Upload>, postImage: Option<Upload>,
                        f: Option<nat>) returns (ok: bool)
      requires Valid() && f != Some(0)
      modifies this
      ensures Valid()
      ensures serials == old(serials).(
                image := old(serials.image) + Inserted(f, postImage, 1) + Inserted(f, logoImage, 1 + 2 * Count(postImage)))
      ensures old(tables.images) <= tables.images
      ensures ok <==> !FailsBefore(f, 2 + 2 * Count(postImage) + 2 * Count(logoImage))
      ensures ok ==> tables == PostUpdated(old(tables), id, title, summary, postImage, logoImage, old(serials.image))
      ensures !ok ==> tables == old(tables)
    {
      var tx := tables;
      ghost var before := tx;
      ghost var imageId := serials.image;
      TextUpdateValid(tx, serials, id, title, summary);
      tx := tx.(blogposts := SetPostText(tx.blogposts, id, title, summary));
      ghost var t0 := tx;
      var failed, step;
      tx, failed, step := StageAndRepoint(tx, id, postImage, false, f, 1);
      ghost var t1 := tx;
      ok := false;
      if !failed {
        tx, failed, step := StageAndRepoint(tx, id, logoImage, true, f, step);
        if !failed && f != Some(step) {
          PostUpdateSteps(before, id, title, summary, postImage, logoImage, imageId, t0, t1, tx);
          Commit(tx);
          ok := true;
        }
      }
    }

    /** Update a post's title and summary and, for each file given, insert the
        image and repoint the post (post image first, then logo). The image the
        post pointed to before stays in `images`. */
    method UpdatePost(idParam: string, title: Option<string>, summary: Option<string>,
                      logoImage: Option<Upload>, postImage: Option<Upload>,
                      fault: Option<nat>) returns (r: Response)
      requires Valid()
      modifies this
      ensures Valid()
      ensures var f := Effective(fault, RouteId(idParam));
              serials == old(serials).(
                image := old(serials.image) + Inserted(f, postImage, 1) + Inserted(f, logoImage, 1 + 2 * Count(postImage)))
      ensures old(tables.images) <= tables.images
      ensures FailsBefore(Effective(fault, RouteId(idParam)), 2 + 2 * Count(postImage) + 2 * Count(logoImage)) ==>
                r == Response(500, Error("Failed to update post")) && tables == old(tables)
      ensures !FailsBefore(Effective(fault, RouteId(idParam)), 2 + 2 * Count(postImage) + 2 * Count(logoImage)) ==>
                r == Response(200, Message("Post updated successfully"))
                && tables == PostUpdated(old(tables), RouteId(idParam).value, title, summary,
                                              postImage, logoImage, old(serials.image))
    {
      var routeId := RouteId(idParam);
      var f := Effective(fault, routeId);
      if f == Some(0) {
        return Response(500, Error("Failed to update post"));
      }
      var ok := UpdatePostTx(routeId.value, title, summary, logoImage, postImage, f);
      r := if ok then Response(200, Message("Post updated successfully")) else Response(500, Error("Failed to update post"));
    }

    /** Delete a post: its likes, its comments, then the post row, committed
        together. The reply is 404 when no post row had the id, even though
        the deletions of likes and comments are committed. */
    method DeletePost(idParam: string, fault: Option<nat>) returns (r: Response)
      requires Valid()
      modifies this
      ensures Valid() && serials == old(serials)
      ensures FailsBefore(Effective(fault, RouteId(idParam)), 4) ==>
                r == Response(500, Message("Failed to delete post")) && tables == old(tables)
      ensures !FailsBefore(Effective(fault, RouteId(idParam)), 4) ==>
                var id := RouteId(idParam).value;
                tables == old(tables).(
                  postlikes := LikesNotOf(old(tables.postlikes), id),
                  comments := Filter(old(tables.comments), OtherPostComment(id)),
                  blogposts := Filter(old(tables.blogposts), OtherPost(id)))
                && (forall like :: like in tables.postlikes ==> like.postId != id)
                && (forall c :: c in tables.comments ==> c.postId != id)
                && (forall p :: p in tables.blogposts ==> p.id != id)
                && (r.status == 404 <==> forall p :: p in old(tables.blogposts) ==> p.id != id)
                && (r.status == 404 ==> r.body == Message("Post not found"))
                && (r.status != 404 ==> r == Response(200, Message("Post deleted successfully")))
    {
      var routeId := RouteId(idParam);
      var f := Effective(fault, routeId);
      if FailsBefore(f, 4) {
        // whichever statement throws, the working copy is dropped
        return Response(500, Message("Failed to delete post"));
      }
      var id := routeId.value;
      var tx := tables;
      tx := tx.(postlikes := LikesNotOf(tx.postlikes, id));
      tx := tx.(comments := Filter(tx.comments, OtherPostComment(id)));
      var kept := Filter(tx.blogposts, OtherPost(id));
      var rowCount := |tx.blogposts| - |kept|;
      tx := tx.(blogposts := kept);
      Commit(tx);
      if rowCount == 0 {
        return Response(404, Message("Post not found"));
      }
      r := Response(200, Message("Post deleted successfully"));
    }

    // -------------------------------------------------------------------------
    // POST /api/posts/:id/like
    // -------------------------------------------------------------------------

    /** The like toggle: 400 without a username; otherwise remove the
        (post, username) like when present and insert it when absent, and
        reply with whether it is now present. Whether the post exists is not
        checked. */
    method ToggleLike(idParam: string, username: Option<string>, fault: Option<nat>) returns (r: Response)
      requires Valid()
      modifies this
      ensures Valid() && serials == old(serials)
      ensures !Given(username) ==> r == Response(400, Message("username required")) && tables == old(tables)
      ensures Given(username) && FailsBefore(Effective(fault, RouteId(idParam)), 3) ==>
                r == Response(500, Message("Failed to toggle like")) && tables == old(tables)
      ensures Given(username) && !FailsBefore(Effective(fault, RouteId(idParam)), 3) ==>
                var like := Like(RouteId(idParam).value, username.value);
                tables == old(tables).(postlikes := Toggle(old(tables.postlikes), like))
                && r == Response(200, Liked(like in tables.postlikes))
                && (like in tables.postlikes <==> like !in old(tables.postlikes))
    {
      if !Given(username) {
        return Response(400, Message("username required"));
      }
      var routeId := RouteId(idParam);
      var f := Effective(fault, routeId);
      if f == Some(0) {
        return Response(500, Message("Failed to toggle like"));
      }
      var like := Like(routeId.value, username.value);
      var tx := tables;
      if like in tx.postlikes {
        if f == Some(1) {
          return Response(500, Message("Failed to toggle like"));
        }
        tx := tx.(postlikes := tx.postlikes - {like});
        if f == Some(2) {
          return Response(500, Message("Failed to toggle like"));
        }
        Commit(tx);
        r := Response(200, Liked(false));
      } else {
        if f == Some(1) {
          return Response(500, Message("Failed to toggle like"));
        }
        tx := tx.(postlikes := tx.postlikes + {like});
        if f == Some(2) {
          return Response(500, Message("Failed to toggle like"));
        }
        Commit(tx);
        r := Response(200, Liked(true));
      }
    }

    // -------------------------------------------------------------------------
    // POST /api/comments, DELETE /api/comments/:id
    // -------------------------------------------------------------------------

    /** Add a comment: 400 unless the post id, the username and the message are
        all truthy; one INSERT otherwise. */
    method CreateComment(postId: Option<int>, username: Option<string>, message: Option<string>, fault: bool)
      returns (r: Response)
      requires Valid()
      modifies this
      ensures Valid()
      ensures serials == if r.status == 201 then old(serials).(comment := old(serials.comment) + 1) else old(serials)
      ensures postId.None? || postId == Some(0) || !Given(username) || !Given(message) ==>
                r == Response(400, Message("All fields required")) && tables == old(tables)
      ensures postId.Some? && postId != Some(0) && Given(username) && Given(message) ==>
                (fault ==> r == Response(500, Message("Failed to add comment")) && tables == old(tables))
                && (!fault ==> (r == Response(201, Message("Comment added successfully"))
                                && tables == old(tables).(comments := old(tables.comments) +
                                     [CommentRow(old(serials.comment), postId.value, username.value, message.value)])))
    {
      if postId.None? || postId == Some(0) || !Given(username) || !Given(message) {
        return Response(400, Message("All fields required"));
      }
      if fault {
        return Response(500, Message("Failed to add comment"));
      }
      tables := tables.(comments := tables.comments + [CommentRow(serials.comment, postId.value, username.value, message.value)]);
      serials := serials.(comment := serials.comment + 1);
      r := Response(201, Message("Comment added successfully"));
    }

    /** Delete a comment by id: 404 exactly when no comment has that id. */
    method DeleteComment(idParam: string, fault: bool) returns (r: Response)
      requires Valid()
      modifies this
      ensures Valid() && serials == old(serials)
      ensures fault || RouteId(idParam).None? ==>
                r == Response(500, Message("Failed to delete comment")) && tables == old(tables)
      ensures !fault && RouteId(idParam).Some? ==>
                var id := RouteId(idParam).value;
                tables == old(tables).(comments := Filter(old(tables.comments), OtherComment(id)))
                && (forall c :: c in tables.comments ==> c.id != id)
                && (r.status == 404 <==> forall c :: c in old(tables.comments) ==> c.id != id)
                && (r.status == 404 ==> r.body == Message("Comment not found"))
                && (r.status != 404 ==> r == Response(200, Message("Comment deleted successfully")))
    {
      var routeId := RouteId(idParam);
      if fault || routeId.None? {
        return Response(500, Message("Failed to delete comment"));
      }
      var kept := Filter(tables.comments, OtherComment(routeId.value));
      var rowCount := |tables.comments| - |kept|;
      tables := tables.(comments := kept);
      if rowCount == 0 {
        return Response(404, Message("Comment not found"));
      }
      r := Response(200, Message("Comment deleted successfully"));
    }

    // -------------------------------------------------------------------------
    // GET /api/bucketlist
    // -------------------------------------------------------------------------

    /** The bucket list ordered by id, only the rows whose `completed` equals
        (`completed` === "true") when the query parameter is present. */
    method ListBucket(completed: Option<string>, fault: bool) returns (r: Response)
      requires Valid()
      ensures fault ==> r == Response(500, Text("Failed to fetch bucket list items"))
      ensures !fault ==> r.status == 200 && r.body.BucketRows? && IncreasingBy(r.body.rows, BucketId)
      ensures !fault && completed.None? ==> r.body == BucketRows(tables.adventurebucketlist)
      ensures !fault && completed.Some? ==>
                forall row :: row in r.body.rows <==>
                  row in tables.adventurebucketlist && row.completed == Some(completed.value == "true")
    {
      if fault {
        return Response(500, Text("Failed to fetch bucket list items"));
      }
      var rows := tables.adventurebucketlist;
      if completed.Some? {
        FilterIncreasing(rows, CompletedIs(completed.value == "true"), BucketId);
        rows := Filter(rows, CompletedIs(completed.value == "true"));
      }
      r := Response(200, BucketRows(rows));
    }

    // -------------------------------------------------------------------------
    // POST /api/fooditems, PUT /api/fooditems/:id, PUT /api/adventures/:id
    // -------------------------------------------------------------------------

    /** Create a food item: 400 without an image; otherwise the image and then
        the item (rating `|| 0`) in one transaction. */
    method CreateFoodItem(name: Option<string>, description: Option<string>, location: Option<string>,
                          rating: Option<string>, image: Option<Upload>, fault: Option<nat>) returns (r: Response)
      requires Valid()
      modifies this
      ensures Valid()
      ensures serials == old(serials).(
                image := old(serials.image) + Inserted(fault, image, 0),
                food := old(serials.food) + (if image.Some? && !FailsBefore(fault, 2) then 1 else 0))
      ensures image.None? ==> r == Response(400, Message("Image required")) && tables == old(tables)
      ensures image.Some? && FailsBefore(fault, 3) ==>
                r == Response(500, Message("Failed to create food item")) && tables == old(tables)
      ensures image.Some? && !FailsBefore(fault, 3) ==>
                r == Response(201, Message("Food item created"))
                && tables == old(tables).(
                     images := old(tables.images) + [Image(old(serials.image), image.value.originalname, image.value.buffer)],
                     fooditems := old(tables.fooditems) +
                       [FoodRow(old(serials.food), name, description, location, RatingParam(rating), Some(old(serials.image)))])
    {
      if image.None? {
        return Response(400, Message("Image required"));
      }
      if fault == Some(0) {
        return Response(500, Message("Failed to create food item"));
      }
      var tx := tables;
      var imageId;
      tx, imageId := StageImage(tx, image.value);
      if fault == Some(1) {
        return Response(500, Message("Failed to create food item"));
      }
      var foodId := NextFoodId();
      tx := tx.(fooditems := tx.fooditems +
                  [FoodRow(foodId, name, description, location, RatingParam(rating), Some(imageId))]);
      if fault == Some(2) {
        return Response(500, Message("Failed to create food item"));
      }
      Commit(tx);
      r := Response(201, Message("Food item created"));
    }

    /** Update a food item and, with a file, insert the image and repoint the
        item; the previous image stays in `images`. */
    method UpdateFoodItem(idParam: string, name: Option<string>, description: Option<string>,
                          location: Option<string>, rating: Option<string>, image: Option<Upload>,
                          fault: Option<nat>) returns (r: Response)
      requires Valid()
      modifies this
      ensures Valid()
      ensures serials == old(serials).(image := old(serials.image) + Inserted(Effective(fault, RouteId(idParam)), image, 1))
      ensures old(tables.images) <= tables.images
      ensures FailsBefore(Effective(fault, RouteId(idParam)), 2 + 2 * Count(image)) ==>
                r == Response(500, Message("Failed to update food item")) && tables == old(tables)
      ensures !FailsBefore(Effective(fault, RouteId(idParam)), 2 + 2 * Count(image)) ==>
                var id := RouteId(idParam).value;
                var texted := SetFoodText(old(tables.fooditems), id, name, description, location, rating);
                r == Response(200, Message("Food item updated"))
                && tables == old(tables).(
                     images := old(tables.images) + ImageRows(image, old(serials.image)),
                     fooditems := if image.Some? then SetFoodImage(texted, id, old(serials.image)) else texted)
    {
      var routeId := RouteId(idParam);
      var f := Effective(fault, routeId);
      if f == Some(0) {
        return Response(500, Message("Failed to update food item"));
      }
      var id := routeId.value;
      var tx := tables;
      tx := tx.(fooditems := SetFoodText(tx.fooditems, id, name, description, location, rating));
      var step := 1;
      if image.Some? {
        if f == Some(1) {
          return Response(500, Message("Failed to update food item"));
        }
        var imageId;
        tx, imageId := StageImage(tx, image.value);
        if f == Some(2) {
          return Response(500, Message("Failed to update food item"));
        }
        tx := tx.(fooditems := SetFoodImage(tx.fooditems, id, imageId));
        step := 3;
      }
      if f == Some(step) {
        return Response(500, Message("Failed to update food item"));
      }
      Commit(tx);
      r := Response(200, Message("Food item updated"));
    }

    /** Update an adventure and, with a file, insert the image and repoint the
        adventure; the previous image stays in `images`. */
    method UpdateAdventure(idParam: string, name: Option<string>, description: Option<string>,
                           location: Option<string>, image: Option<Upload>,
                           fault: Option<nat>) returns (r: Response)
      requires Valid()
      modifies this
      ensures Valid()
      ensures serials == old(serials).(image := old(serials.image) + Inserted(Effective(fault, RouteId(idParam)), image, 1))
      ensures old(tables.images) <= tables.images
      ensures FailsBefore(Effective(fault, RouteId(idParam)), 2 + 2 * Count(image)) ==>
                r == Response(500, Message("Failed to update adventure")) && tables == old(tables)
      ensures !FailsBefore(Effective(fault, RouteId(idParam)), 2 + 2 * Count(image)) ==>
                var id := RouteId(idParam).value;
                var texted := SetAdventureText(old(tables.adventures), id, name, description, location);
                r == Response(200, Message("Adventure updated"))
                && tables == old(tables).(
                     images := old(tables.images) + ImageRows(image, old(serials.image)),
                     adventures := if image.Some? then SetAdventureImage(texted, id, old(serials.image)) else texted)
    {
      var routeId := RouteId(idParam);
      var f := Effective(fault, routeId);
      if f == Some(0) {
        return Response(500, Message("Failed to update adventure"));
      }
      var id := routeId.value;
      var tx := tables;
      tx := tx.(adventures := SetAdventureText(tx.adventures, id, name, description, location));
      var step := 1;
      if image.Some? {
        if f == Some(1) {
          return Response(500, Message("Failed to update adventure"));
        }
        var imageId;
        tx, imageId := StageImage(tx, image.value);
        if f == Some(2) {
          return Response(500, Message("Failed to update adventure"));
        }
        tx := tx.(adventures := SetAdventureImage(tx.adventures, id, imageId));
        step := 3;
      }
      if f == Some(step) {
        return Response(500, Message("Failed to update adventure"));
      }
      Commit(tx);
      r := Response(200, Message("Adventure updated"));
    }
  }
}

=== FILE: backend_tables.dfy ===
/**
  The tables the Express backend (backend/app.js) works on, as rows, and the
  SQL it runs against them, as functions on those rows: NULL-aware equality,
  `SELECT ... WHERE`, `DELETE ... WHERE`, `UPDATE ... WHERE` and the like
  toggle.

  A text column is an `Option<string>` (None is SQL NULL); an integer
  foreign key that may be NULL is an `Option<int>`.
 */
module BackendTables {
  import opened Wrappers

  /** A file received by multer: its original name and its bytes. */
  datatype Upload = Upload(originalname: string, buffer: seq<bv8>)

  /** A row of `users`, the admin accounts. */
  datatype AdminRow = AdminRow(id: int, username: Option<string>, password: Option<string>)

  /** A row of `logintable`, the visitor accounts. */
  datatype Account = Account(
    id: int,
    username: Option<string>,
    password: Option<string>,
    email: Option<string>,
    phone: Option<string>,
    role: string)

  /** A row of `images`. */
  datatype Image = Image(id: int, name: string, imagedata: seq<bv8>)

  /** A row of `blogposts`; `post_date` is not modelled. */
  datatype PostRow = PostRow(
    id: int,
    title: Option<string>,
    summary: Option<string>,
    author: string,
    likes: int,
    logoid: Option<int>,
    imageid: Option<int>)

  /** A row of `postlikes`; `liked_at` is not modelled. */
  datatype Like = Like(postId: int, username: string)

  /** A row of `comments`; `comment_date` is not modelled. */
  datatype CommentRow = CommentRow(id: int, postId: int, username: string, message: string)

  /** A row of `adventurebucketlist`; the coordinates are not modelled. */
  datatype BucketRow = BucketRow(
    id: int,
    name: Option<string>,
    emoji: Option<string>,
    country: Option<string>,
    funfact: Option<string>,
    uniquething: Option<string>,
    completed: Option<bool>,
    iswishlist: Option<bool>)

  /** A row of `fooditems`; `rating` holds the text handed to the numeric column. */
  datatype FoodRow = FoodRow(
    id: int,
    name: Option<string>,
    description: Option<string>,
    location: Option<string>,
    rating: Option<string>,
    imageid: Option<int>)

  /** A row of `adventures`. */
  datatype AdventureRow = AdventureRow(
    id: int,
    name: Option<string>,
    description: Option<string>,
    location: Option<string>,
    imageid: Option<int>)

  // ---------------------------------------------------------------------------
  // SQL comparison and selection
  // ---------------------------------------------------------------------------

  /** `a = b` in a WHERE clause: a comparison with NULL is never true. */
  predicate SqlEq<T(==)>(a: Option<T>, b: Option<T>) {
    a.Some? && b.Some? && a.value == b.value
  }

  /** The rows a `WHERE keep(row)` clause selects, in table order. */
  function Filter<T(==,!new)>(s: seq<T>, keep: T -> bool): (r: seq<T>)
    ensures |r| <= |s|
    ensures forall x :: x in r <==> x in s && keep(x)
    ensures |r| == |s| <==> forall x :: x in s ==> keep(x)
    ensures r == [] <==> forall x :: x in s ==> !keep(x)
  {
    if s == [] then []
    else
      var rest := Filter(s[..|s| - 1], keep);
      var last := s[|s| - 1];
      assert forall x :: x in s <==> x in s[..|s| - 1] || x == last;
      if keep(last) then rest + [last] else rest
  }

  /** Selecting from a table with one more row appends that row when it
      matches. */
  lemma FilterAppend<T(!new)>(s: seq<T>, x: T, keep: T -> bool)
    ensures Filter(s + [x], keep) == Filter(s, keep) + (if keep(x) then [x] else [])
  {
    assert (s + [x])[..|s + [x]| - 1] == s;
  }

  /** Rows whose key increases strictly in table order. */
  predicate IncreasingBy<T>(s: seq<T>, key: T -> int) {
    forall i, j :: 0 <= i < j < |s| ==> key(s[i]) < key(s[j])
  }

  /** Selection keeps the order of the table. */
  lemma {:induction false} FilterIncreasing<T(!new)>(s: seq<T>, keep: T -> bool, key: T -> int)
    requires IncreasingBy(s, key)
    ensures IncreasingBy(Filter(s, keep), key)
  {
    if s != [] {
      var init := s[..|s| - 1];
      var last := s[|s| - 1];
      FilterIncreasing(init, keep, key);
      if keep(last) {
        var r := Filter(init, keep);
        forall i | 0 <= i < |r| ensures key(r[i]) < key(last) {
          assert r[i] in init;
          var k :| 0 <= k < |init| && init[k] == r[i];
          assert s[k] == init[k];
        }
      }
    }
  }

  // ---------------------------------------------------------------------------
  // The WHERE clauses the handlers use
  // ---------------------------------------------------------------------------

  /** `WHERE username = $1 AND password = $2` on `users`. */
  function AdminCredentials(username: Option<string>, password: Option<string>): AdminRow -> bool {
    (row: AdminRow) => SqlEq(row.username, username) && SqlEq(row.password, password)
  }

  /** `WHERE username = $1 AND password = $2` on `logintable`. */
  function Credentials(username: Option<string>, password: Option<string>): Account -> bool {
    (row: Account) => SqlEq(row.username, username) && SqlEq(row.password, password)
  }

  /** `WHERE username = $1` on `logintable`. */
  function SameUsername(username: Option<string>): Account -> bool {
    (row: Account) => SqlEq(row.username, username)
  }

  /** The rows left by `DELETE FROM comments WHERE post_id=$1`. */
  function OtherPostComment(postId: int): CommentRow -> bool {
    (row: CommentRow) => row.postId != postId
  }

  /** `WHERE post_id = p.id` on `comments`, which `GET /api/posts` counts. */
  function OnPost(postId: int): CommentRow -> bool {
    (row: CommentRow) => row.postId == postId
  }

  /** A new comment adds one to the comment count of its own post and leaves
      the count of every other post alone. */
  lemma CommentCountAfterInsert(comments: seq<CommentRow>, row: CommentRow, postId: int)
    ensures |Filter(comments + [row], OnPost(postId))| ==
            |Filter(comments, OnPost(postId))| + (if row.postId == postId then 1 else 0)
  {
    FilterAppend(comments, row, OnPost(postId));
  }

  /** The rows left by `DELETE FROM comments WHERE id=$1`. */
  function OtherComment(id: int): CommentRow -> bool {
    (row: CommentRow) => row.id != id
  }

  /** The rows left by `DELETE FROM blogposts WHERE id=$1`. */
  function OtherPost(id: int): PostRow -> bool {
    (row: PostRow) => row.id != id
  }

  /** `WHERE completed = $1` on `adventurebucketlist`. */
  function CompletedIs(flag: bool): BucketRow -> bool {
    (row: BucketRow) => SqlEq(row.completed, Some(flag))
  }

  function BucketId(row: BucketRow): int {
    row.id
  }

  /** Every login or admin-login lookup finds a row exactly when the table
      holds one with that username and that password. */
  lemma CredentialsFound(rows: seq<Account>, username: Option<string>, password: Option<string>)
    ensures Filter(rows, Credentials(username, password)) != [] <==>
              exists row :: row in rows && SqlEq(row.username, username) && SqlEq(row.password, password)
  {
    var keep := Credentials(username, password);
    if Filter(rows, keep) != [] {
      var row := Filter(rows, keep)[0];
      assert row in Filter(rows, keep);
    }
  }

  /** The same for the admin table. */
  lemma AdminCredentialsFound(rows: seq<AdminRow>, username: Option<string>, password: Option<string>)
    ensures Filter(rows, AdminCredentials(username, password)) != [] <==>
              exists row :: row in rows && SqlEq(row.username, username) && SqlEq(row.password, password)
  {
    var keep := AdminCredentials(username, password);
    if Filter(rows, keep) != [] {
      var row := Filter(rows, keep)[0];
      assert row in Filter(rows, keep);
    }
  }

  // ---------------------------------------------------------------------------
  // UPDATE ... WHERE id = $n
  // ---------------------------------------------------------------------------

  /** `UPDATE blogposts SET title=$1, summary=$2 WHERE id=$3` */
  function SetPostText(rows: seq<PostRow>, id: int, title: Option<string>, summary: Option<string>): seq<PostRow>
  {
    seq(|rows|, i requires 0 <= i < |rows| =>
      if rows[i].id == id then rows[i].(title := title, summary := summary) else rows[i])
  }

  /** `UPDATE blogposts SET imageid=$1 WHERE id=$2` */
  function SetPostImage(rows: seq<PostRow>, id: int, imageId: int): seq<PostRow>
  {
    seq(|rows|, i requires 0 <= i < |rows| =>
      if rows[i].id == id then rows[i].(imageid := Some(imageId)) else rows[i])
  }

  /** `UPDATE blogposts SET logoid=$1 WHERE id=$2` */
  function SetPostLogo(rows: seq<PostRow>, id: int, logoId: int): seq<PostRow>
  {
    seq(|rows|, i requires 0 <= i < |rows| =>
      if rows[i].id == id then rows[i].(logoid := Some(logoId)) else rows[i])
  }

  /** An UPDATE that keeps every row's id keeps every id below a bound. */
  lemma UpdateKeepsIdsBelow(before: seq<PostRow>, after: seq<PostRow>, bound: int)
    requires |after| == |before| && forall i :: 0 <= i < |before| ==> after[i].id == before[i].id
    requires forall row :: row in before ==> row.id < bound
    ensures forall row :: row in after ==> row.id < bound
  {
    forall row | row in after ensures row.id < bound {
      var i :| 0 <= i < |after| && after[i] == row;
      assert before[i] in before;
    }
  }

  /** `UPDATE fooditems SET name=$1, description=$2, location=$3, rating=$4 WHERE id=$5` */
  function SetFoodText(rows: seq<FoodRow>, id: int, name: Option<string>, description: Option<string>,
                       location: Option<string>, rating: Option<string>): seq<FoodRow>
  {
    seq(|rows|, i requires 0 <= i < |rows| =>
      if rows[i].id == id
      then rows[i].(name := name, description := description, location := location, rating := rating)
      else rows[i])
  }

  /** `UPDATE fooditems SET imageid=$1 WHERE id=$2` */
  function SetFoodImage(rows: seq<FoodRow>, id: int, imageId: int): seq<FoodRow>
  {
    seq(|rows|, i requires 0 <= i < |rows| =>
      if rows[i].id == id then rows[i].(imageid := Some(imageId)) else rows[i])
  }

  /** `UPDATE adventures SET name=$1, description=$2, location=$3 WHERE id=$4` */
  function SetAdventureText(rows: seq<AdventureRow>, id: int, name: Option<string>, description: Option<string>,
                            location: Option<string>): seq<AdventureRow>
  {
    seq(|rows|, i requires 0 <= i < |rows| =>
      if rows[i].id == id
      then rows[i].(name := name, description := description, location := location)
      else rows[i])
  }

  /** `UPDATE adventures SET imageid=$1 WHERE id=$2` */
  function SetAdventureImage(rows: seq<AdventureRow>, id: int, imageId: int): seq<AdventureRow>
  {
    seq(|rows|, i requires 0 <= i < |rows| =>
      if rows[i].id == id then rows[i].(imageid := Some(imageId)) else rows[i])
  }

  // ---------------------------------------------------------------------------
  // Likes
  // ---------------------------------------------------------------------------

  /** The like toggle: remove the pair when present, insert it otherwise. */
  function Toggle<T(==,!new)>(s: set<T>, x: T): (r: set<T>)
    ensures x in r <==> x !in s
    ensures forall y :: y != x ==> (y in r <==> y in s)
  {
    if x in s then s - {x} else s + {x}
  }

  /** Toggling the same pair twice restores the likes. */
  lemma ToggleTwice<T(!new)>(s: set<T>, x: T)
    ensures Toggle(Toggle(s, x), x) == s
  {
  }

  /** The likes of one post, which `GET /api/posts` counts. */
  function LikesOf(likes: set<Like>, postId: int): set<Like> {
    set l | l in likes && l.postId == postId
  }

  /** A toggle moves the like count of its post by exactly one and leaves
      the count of every other post alone. */
  lemma ToggleLikeCount(likes: set<Like>, postId: int, username: string)
    ensures var after := Toggle(likes, Like(postId, username));
      |LikesOf(after, postId)| == if Like(postId, username) in likes
                                  then |LikesOf(likes, postId)| - 1
                                  else |LikesOf(likes, postId)| + 1
    ensures forall q :: q != postId ==> LikesOf(Toggle(likes, Like(postId, username)), q) == LikesOf(likes, q)
  {
    var x := Like(postId, username);
    var after := Toggle(likes, x);
    if x in likes {
      assert LikesOf(after, postId) == LikesOf(likes, postId) - {x};
    } else {
      assert LikesOf(after, postId) == LikesOf(likes, postId) + {x};
    }
  }

  /** The likes left by `DELETE FROM postlikes WHERE post_id=$1`. */
  function LikesNotOf(likes: set<Like>, postId: int): set<Like> {
    set l | l in likes && l.postId != postId
  }

  // ---------------------------------------------------------------------------
  // Account invariants
  // ---------------------------------------------------------------------------

  /** No two accounts share a (non-NULL) username. */
  predicate UniqueUsernames(rows: seq<Account>) {
    forall i, j :: 0 <= i < j < |rows| ==> !SqlEq(rows[i].username, rows[j].username)
  }

  /** Signup inserts only after finding no account with the username, so the
      usernames stay unique. */
  lemma SignupKeepsUnique(rows: seq<Account>, row: Account)
    requires UniqueUsernames(rows)
    requires Filter(rows, SameUsername(row.username)) == []
    ensures UniqueUsernames(rows + [row])
  {
    var s := rows + [row];
    forall i, j | 0 <= i < j < |s| ensures !SqlEq(s[i].username, s[j].username) {
      if j == |rows| {
        assert s[i] in rows;
        assert !SameUsername(row.username)(s[i]);
      }
    }
  }

  /** After that insert, selecting by a non-NULL username finds exactly the
      new row; selecting by NULL finds nothing. */
  lemma SignupSelectsNewRow(rows: seq<Account>, row: Account)
    requires Filter(rows, SameUsername(row.username)) == []
    ensures row.username.Some? ==> Filter(rows + [row], SameUsername(row.username)) == [row]
    ensures row.username.None? ==> Filter(rows + [row], SameUsername(row.username)) == []
  {
    FilterAppend(rows, row, SameUsername(row.username));
  }
}

=== FILE: blog.dfy ===
/**
  The blog page (frontend/src/app/components/blog/blog.component.ts): the
  post list as loaded from the backend, its comment lists, likes, and the
  post form.

  A post is kept as the row the backend sent (`row`, for the properties the
  spread `...p` copies) plus the properties the page sets itself. The session
  storage is an `AuthService.Store`; HTTP replies and `confirm` answers are
  parameters; each handler and the callback of its request run as one step.
  Selected files are represented by their names.
 */
module Blog {
  import opened Wrappers
  import opened JsValue
  import AuthService

  datatype BlogPost = BlogPost(
    row: Value,
    isLiked: Value,
    likes: Value,
    commentList: Value,
    comments: Value,
    showFullSummary: bool,
    showComments: Value,
    imageIds: seq<Value>)

  /** `post.id` */
  function PostId(p: BlogPost): Value {
    Get(p.row, "id")
  }

  // ---------------------------------------------------------------------------
  // Loading
  // ---------------------------------------------------------------------------

  /** The `imageIds` of a loaded post: the `ImageId`s of `postImages` when it
      is an array (reading a property of a null entry throws), otherwise the
      `imageid` alone when it is truthy, otherwise none. */
  function ImageIds(p: Value): (r: Completion<seq<Value>>)
    ensures Get(p, "postImages").Arr? ==>
              var imgs := Get(p, "postImages").items;
              (r.Normal? <==> forall i :: 0 <= i < |imgs| ==> !Nullish(imgs[i])) &&
              (r.Normal? ==> |r.value| == |imgs| && forall i :: 0 <= i < |imgs| ==> r.value[i] == Get(imgs[i], "ImageId"))
    ensures !Get(p, "postImages").Arr? && Truthy(Get(p, "imageid")) ==> r == Normal([Get(p, "imageid")])
    ensures !Get(p, "postImages").Arr? && !Truthy(Get(p, "imageid")) ==> r == Normal([])
  {
    match Get(p, "postImages")
    case Arr(imgs) =>
      if forall i :: 0 <= i < |imgs| ==> !Nullish(imgs[i]) then
        Normal(seq(|imgs|, i requires 0 <= i < |imgs| => Get(imgs[i], "ImageId")))
      else Throw
    case _ =>
      if Truthy(Get(p, "imageid")) then Normal([Get(p, "imageid")]) else Normal([])
  }

  /** The mapping `loadPosts` applies to each row; reading a property of a
      null row throws. */
  function NormalizePost(p: Value): (r: Completion<BlogPost>)
    ensures r.Normal? <==> !Nullish(p) && ImageIds(p).Normal?
    ensures r.Normal? ==> r.value.row == p && r.value.imageIds == ImageIds(p).value
    ensures r.Normal? ==> r.value.isLiked == Bool(Truthy(Get(p, "isLiked")))
    ensures r.Normal? ==> r.value.likes == (if Truthy(Get(p, "likes")) then Get(p, "likes") else Num(0))
    ensures r.Normal? ==> r.value.commentList == (if Truthy(Get(p, "commentlist")) then Get(p, "commentlist") else Arr([]))
    ensures r.Normal? ==> !r.value.showFullSummary && r.value.showComments == Bool(false)
  {
    if Nullish(p) then Throw
    else
      match ImageIds(p)
      case Throw => Throw
      case Normal(ids) =>
        Normal(BlogPost(
          row := p,
          isLiked := Bool(Truthy(Get(p, "isLiked"))),
          likes := Or(Get(p, "likes"), Num(0)),
          commentList := Or(Get(p, "commentlist"), Arr([])),
          comments := ParseInt(Or(Get(p, "commentcount"), Str("0"))),
          showFullSummary := false,
          showComments := Bool(false),
          imageIds := ids))
  }

  /** The post list answers the liked flag as `isliked` (PostgreSQL folds the
      unquoted alias to lower case), while the page reads `p.isLiked`: a row
      that carries only `isliked` loads as not liked, whatever the flag. */
  lemma LowerCaseLikedIgnored(fields: seq<Field>, liked: bool)
    requires Lookup(fields, "isLiked").None?
    ensures var p := Obj(Put(fields, "isliked", Bool(liked)));
            Get(p, "isliked") == Bool(liked) && NormalizePost(p).Normal? ==> NormalizePost(p).value.isLiked == Bool(false)
  {
  }

  /** The properties `loadPosts` sets on each post over the spread row. */
  const PageKeys: set<string> :=
    {"isLiked", "likes", "commentList", "comments", "showFullSummary", "showComments", "imageIds"}

  /** The object `{...p, isLiked, likes, commentList, comments,
      showFullSummary, showComments, imageIds}` a loaded post is: the row's
      own properties, with the page's seven written over them. */
  function AsObject(b: BlogPost): (o: Value)
    ensures o.Obj?
    ensures Get(o, "isLiked") == b.isLiked && Get(o, "likes") == b.likes
    ensures Get(o, "commentList") == b.commentList && Get(o, "comments") == b.comments
    ensures Get(o, "showFullSummary") == Bool(b.showFullSummary) && Get(o, "showComments") == b.showComments
    ensures Get(o, "imageIds") == Arr(b.imageIds)
    ensures forall k :: k !in PageKeys ==> Get(o, k) == Get(b.row, k)
  {
    var own := if b.row.Obj? then b.row.fields else [];
    var f1 := Put(own, "isLiked", b.isLiked);
    var f2 := Put(f1, "likes", b.likes);
    var f3 := Put(f2, "commentList", b.commentList);
    var f4 := Put(f3, "comments", b.comments);
    var f5 := Put(f4, "showFullSummary", Bool(b.showFullSummary));
    var f6 := Put(f5, "showComments", b.showComments);
    Obj(Put(f6, "imageIds", Arr(b.imageIds)))
  }

  /** The comment count of a loaded post is the number the backend sent,
      whether it arrives as a JSON number (the `COUNT(*)::int` of the post
      list) or as decimal text, and 0 when it sent none. */
  lemma CommentCountParsed(p: Value, n: int)
    requires NormalizePost(p).Normal?
    ensures Get(p, "commentcount") == Num(n) ==> NormalizePost(p).value.comments == Num(n)
    ensures Get(p, "commentcount") == Str(IntText(n)) ==> NormalizePost(p).value.comments == Num(n)
    ensures !Truthy(Get(p, "commentcount")) ==> NormalizePost(p).value.comments == Num(0)
  {
    ParseIntNum(n);
    ParseIntNum(0);
    assert ToStr(Num(n)) == IntText(n);
    assert ToStr(Num(0)) == "0";
    if Get(p, "commentcount") == Str(IntText(n)) {
      NatTextDigits(if n < 0 then -n else n);
      assert ToStr(Str(IntText(n))) == IntText(n);
    }
  }

  /** `posts.map(...)`: throws when any row does. */
  function NormalizePosts(ps: seq<Value>): (r: Completion<seq<BlogPost>>)
    ensures r.Normal? <==> forall i :: 0 <= i < |ps| ==> !Nullish(ps[i]) && ImageIds(ps[i]).Normal?
    ensures r.Normal? ==> |r.value| == |ps|
    ensures r.Normal? ==> forall i :: 0 <= i < |ps| ==> Normal(r.value[i]) == NormalizePost(ps[i])
  {
    if forall i :: 0 <= i < |ps| ==> NormalizePost(ps[i]).Normal? then
      Normal(seq(|ps|, i requires 0 <= i < |ps| => NormalizePost(ps[i]).value))
    else Throw
  }

  // ---------------------------------------------------------------------------
  // Comment lists
  // ---------------------------------------------------------------------------

  /** The comment `addComment` puts in front of the list. */
  function NewComment(username: Value, message: string): Value {
    Obj([Field("id", Num(0)), Field("username", username), Field("message", Str(message))])
  }

  /** `v?.length`: the length of an array or of a text (only whether it is 0
      matters here, so characters stand for UTF-16 units), an object's own
      `length` property, and undefined for anything else, null and undefined
      included. */
  function LengthOf(v: Value): (r: Value)
    ensures StrictEq(r, Num(0)) <==> v == Arr([]) || v == Str("") || (v.Obj? && Get(v, "length") == Num(0))
  {
    match v
    case Arr(items) => Num(|items|)
    case Str(t) => Num(|t|)
    case Obj(_) => Get(v, "length")
    case _ => Undefined
  }

  /** The post's count is the length of its comment list. */
  predicate CountMatches(p: BlogPost) {
    p.commentList.Arr? && p.comments == Num(|p.commentList.items|)
  }

  /** The success callback of `addComment`: a missing list becomes empty, the
      comment goes in front and the count follows the list; a list that is
      not an array has no `unshift` and throws. */
  function WithComment(p: BlogPost, comment: Value): (r: Completion<BlogPost>)
    ensures r.Normal? <==> p.commentList.Arr? || !Truthy(p.commentList)
    ensures r.Normal? ==> CountMatches(r.value)
    ensures r.Normal? ==>
              r.value.commentList.items == [comment] + (if p.commentList.Arr? then p.commentList.items else [])
    ensures r.Normal? ==> r.value.row == p.row && r.value.likes == p.likes && r.value.showComments == p.showComments
    ensures r.Normal? ==> r.value.(commentList := p.commentList, comments := p.comments) == p
  {
    match Or(p.commentList, Arr([]))
    case Arr(items) => Normal(p.(commentList := Arr([comment] + items), comments := Num(|items| + 1)))
    case _ => Throw
  }

  /** The comments whose id is not `=== commentId`, in order. */
  function OtherComments(items: seq<Value>, commentId: Value): (r: seq<Value>)
    ensures |r| <= |items|
  {
    if items == [] then []
    else (if StrictEq(Get(items[0], "id"), commentId) then [] else [items[0]]) + OtherComments(items[1..], commentId)
  }

  /** `OtherComments` keeps exactly the comments whose id is not `=== commentId`. */
  lemma {:induction false} OtherCommentsMembers(items: seq<Value>, commentId: Value)
    ensures forall c :: c in OtherComments(items, commentId) <==> c in items && !StrictEq(Get(c, "id"), commentId)
  {
    if items != [] {
      OtherCommentsMembers(items[1..], commentId);
      assert forall c :: c in items <==> c == items[0] || c in items[1..];
    }
  }

  /** `filter` keeps the order: the kept comments of a concatenation are the
      kept comments of each part, one after the other. */
  lemma {:induction false} OtherCommentsAppend(a: seq<Value>, b: seq<Value>, commentId: Value)
    ensures OtherComments(a + b, commentId) == OtherComments(a, commentId) + OtherComments(b, commentId)
  {
    if a == [] {
      assert a + b == b;
    } else {
      var h := if StrictEq(Get(a[0], "id"), commentId) then [] else [a[0]];
      var x, y := OtherComments(a[1..], commentId), OtherComments(b, commentId);
      OtherCommentsAppend(a[1..], b, commentId);
      assert OtherComments(a + b, commentId) == h + (x + y) by {
        assert (a + b)[0] == a[0] && (a + b)[1..] == a[1..] + b;
      }
      assert OtherComments(a, commentId) == h + x;
      ConcatAssociative(h, x, y);
    }
  }

  /** Concatenation is associative (stated over any element type, where the
      solver settles it cheaply). */
  lemma ConcatAssociative<T>(h: seq<T>, x: seq<T>, y: seq<T>)
    ensures h + (x + y) == (h + x) + y
  {
  }

  /** The success callback of `deleteComment` on the post it found: a falsy
      list is left alone; an array is filtered (reading `id` of a null entry
      throws) and the count follows it; anything else has no `filter`. */
  function WithoutComment(p: BlogPost, commentId: Value): (r: Completion<BlogPost>)
    ensures !Truthy(p.commentList) ==> r == Normal(p)
    ensures p.commentList.Arr? ==>
              (r.Normal? <==> forall i :: 0 <= i < |p.commentList.items| ==> !Nullish(p.commentList.items[i]))
    ensures p.commentList.Arr? && r.Normal? ==>
              CountMatches(r.value) && r.value.commentList.items == OtherComments(p.commentList.items, commentId)
    ensures Truthy(p.commentList) && !p.commentList.Arr? ==> r == Throw
    ensures r.Normal? ==> r.value.row == p.row && r.value.likes == p.likes
  {
    match p.commentList
    case Arr(items) =>
      if forall i :: 0 <= i < |items| ==> !Nullish(items[i]) then
        var kept := OtherComments(items, commentId);
        Normal(p.(commentList := Arr(kept), comments := Num(|kept|)))
      else Throw
    case _ => if Truthy(p.commentList) then Throw else Normal(p)
  }

  lemma {:induction false} OtherCommentsKeepsAll(items: seq<Value>, commentId: Value)
    requires forall i :: 0 <= i < |items| ==> !StrictEq(Get(items[i], "id"), commentId)
    ensures OtherComments(items, commentId) == items
  {
    if items != [] {
      OtherCommentsKeepsAll(items[1..], commentId);
    }
  }

  /** Deleting comment 0 right after adding one undoes the addition, as long
      as no earlier comment had id 0: the list and its count are back. */
  lemma DeleteUndoesAdd(p: BlogPost, username: Value, message: string)
    requires p.commentList.Arr?
    requires forall i :: 0 <= i < |p.commentList.items| ==>
               !Nullish(p.commentList.items[i]) && !StrictEq(Get(p.commentList.items[i], "id"), Num(0))
    ensures WithComment(p, NewComment(username, message)).Normal?
    ensures var added := WithComment(p, NewComment(username, message)).value;
            WithoutComment(added, Num(0)) == Normal(p.(comments := Num(|p.commentList.items|)))
  {
    var items := p.commentList.items;
    var c := NewComment(username, message);
    var added := p.(commentList := Arr([c] + items), comments := Num(|items| + 1));
    assert WithComment(p, c) == Normal(added);
    assert Get(c, "id") == Num(0);
    OtherCommentsKeepsAll(items, Num(0));
    assert ([c] + items)[1..] == items;
    assert OtherComments([c] + items, Num(0)) == items;
    assert forall i :: 0 <= i < |[c] + items| ==> !Nullish(([c] + items)[i]) by {
      forall i | 0 <= i < |[c] + items| ensures !Nullish(([c] + items)[i]) {
        if i > 0 {
          assert ([c] + items)[i] == items[i - 1];
        }
      }
    }
  }

  /** The first post whose id is `=== id` (`Array.prototype.find`), as its
      position, or the number of posts when there is none. */
  function FindPost(posts: seq<BlogPost>, id: Value): (i: nat)
    ensures i <= |posts|
    ensures i < |posts| ==> StrictEq(PostId(posts[i]), id)
    ensures forall j :: 0 <= j < i ==> !StrictEq(PostId(posts[j]), id)
  {
    if posts == [] then 0
    else if StrictEq(PostId(posts[0]), id) then 0
    else 1 + FindPost(posts[1..], id)
  }

  // ---------------------------------------------------------------------------
  // Likes
  // ---------------------------------------------------------------------------

  /** The body the backend's like route answers with (backend/app.js:291,
      298): a single `liked` flag. */
  function LikeReply(liked: bool): Value {
    Obj([Field("liked", Bool(liked))])
  }

  /** The success callback of `likePost`: the post takes `isLiked` and
      `likes` from the reply. */
  function WithLikeReply(p: BlogPost, res: Value): (r: BlogPost)
    ensures r.isLiked == Get(res, "isLiked") && r.likes == Get(res, "likes")
    ensures r.row == p.row && r.commentList == p.commentList && r.comments == p.comments
    ensures r.(isLiked := p.isLiked, likes := p.likes) == p
  {
    p.(isLiked := Get(res, "isLiked"), likes := Get(res, "likes"))
  }

  /** Against the backend's actual reply, the page loses both the like flag
      and the count: they become undefined whatever the post had. */
  lemma LikeReplyLeavesLikesUndefined(p: BlogPost, liked: bool)
    ensures WithLikeReply(p, LikeReply(liked)).isLiked == Undefined
    ensures WithLikeReply(p, LikeReply(liked)).likes == Undefined
    ensures !Truthy(WithLikeReply(p, LikeReply(liked)).likes)
  {
    var fields := LikeReply(liked).fields;
    assert fields[0].key == "liked" && fields[1..] == [];
    assert Lookup(fields, "isLiked") == None && Lookup(fields, "likes") == None;
  }

  // ---------------------------------------------------------------------------
  // The component
  // ---------------------------------------------------------------------------

  const PromptText := "Please log in to like or comment."
  const DefaultAuthor := "Wander With KI"

  /** `newPost` */
  datatype PostDraft = PostDraft(title: Value, summary: Value, author: Value)

  /** `form`: the selected files by name. */
  datatype ImageForm = ImageForm(postImage: Option<string>, logoImage: Option<string>, postImageName: string, logoImageName: string)

  const EmptyDraft := PostDraft(Str(""), Str(""), Str(DefaultAuthor))
  const EmptyImageForm := ImageForm(None, None, "", "")

  /** What `addComment` and `likePost` do before any reply. */
  datatype Action =
    | PromptedLogin
    | Ignored
    | Requested(postId: Value, username: Value)

  /** The request `savePost` / `updatePost` sends. */
  datatype PostRequest = PostRequest(id: Value, draft: PostDraft, postImage: Option<string>, logoImage: Option<string>)

  class BlogComponent {
    var showModal: bool
    var loginRequiredMessage: string
    /** `newCommentMap`, keyed by `String(post.id)`. */
    var newCommentMap: map<string, string>
    var isAdmin: bool
    var editingPostId: Value
    var blogPosts: seq<BlogPost>
    var newPost: PostDraft
    var form: ImageForm

    constructor ()
      ensures !showModal && loginRequiredMessage == "" && newCommentMap == map[] && !isAdmin
      ensures editingPostId == Null && blogPosts == [] && newPost == EmptyDraft && form == EmptyImageForm
    {
      showModal := false;
      loginRequiredMessage := "";
      newCommentMap := map[];
      isAdmin := false;
      editingPostId := Null;
      blogPosts := [];
      newPost := EmptyDraft;
      form := EmptyImageForm;
    }

    /** `loadPosts()` with the session storage and the reply rows (None when
        the request fails). It first reads the session user (`{}` when there
        is none), which throws on a stored text that is not JSON; otherwise
        it returns the username it asks with, and a row the mapping throws on
        leaves the list as it was. */
    method LoadPosts(store: AuthService.Store, reply: Option<seq<Value>>)
      returns (username: Option<Value>, outcome: Completion<()>)
      modifies this
      ensures AuthService.SessionUser(store).Throw? ==>
                username.None? && outcome == Throw && blogPosts == old(blogPosts)
      ensures AuthService.SessionUser(store).Normal? ==>
                var user := AuthService.SessionUser(store).value;
                username == Some(if Nullish(user) then Undefined else Get(user, "username"))
      ensures AuthService.SessionUser(store).Normal? && reply.Some? && NormalizePosts(reply.value).Normal? ==>
                outcome == Normal(()) && blogPosts == NormalizePosts(reply.value).value
      ensures AuthService.SessionUser(store).Normal? && reply.Some? && NormalizePosts(reply.value).Throw? ==>
                outcome == Throw && blogPosts == old(blogPosts)
      ensures AuthService.SessionUser(store).Normal? && reply.None? ==>
                outcome == Normal(()) && blogPosts == old(blogPosts)
      ensures showModal == old(showModal) && loginRequiredMessage == old(loginRequiredMessage)
      ensures newCommentMap == old(newCommentMap) && isAdmin == old(isAdmin) && editingPostId == old(editingPostId)
      ensures newPost == old(newPost) && form == old(form)
    {
      var session := AuthService.SessionUser(store);
      if session.Throw? {
        return None, Throw;
      }
      var user := session.value;
      username := Some(if Nullish(user) then Undefined else Get(user, "username"));
      outcome := Normal(());
      if reply.None? {
        return;
      }
      var mapped := NormalizePosts(reply.value);
      if mapped.Throw? {
        return username, Throw;
      }
      blogPosts := mapped.value;
    }

    /** `resetForm()` */
    method ResetForm()
      modifies this
      ensures newPost == EmptyDraft && form == EmptyImageForm && editingPostId == Null
      ensures blogPosts == old(blogPosts) && showModal == old(showModal) && newCommentMap == old(newCommentMap)
      ensures loginRequiredMessage == old(loginRequiredMessage) && isAdmin == old(isAdmin)
    {
      newPost := EmptyDraft;
      form := EmptyImageForm;
      editingPostId := Null;
    }

    /** `openModal()` */
    method OpenModal()
      modifies this
      ensures newPost == EmptyDraft && form == EmptyImageForm && editingPostId == Null && showModal
      ensures blogPosts == old(blogPosts) && newCommentMap == old(newCommentMap)
      ensures loginRequiredMessage == old(loginRequiredMessage) && isAdmin == old(isAdmin)
    {
      ResetForm();
      showModal := true;
    }

    /** `openEditModal(post)` for the post at `index`. */
    method OpenEditModal(index: nat)
      requires index < |blogPosts|
      modifies this
      ensures blogPosts == old(blogPosts) && newCommentMap == old(newCommentMap)
      ensures loginRequiredMessage == old(loginRequiredMessage) && isAdmin == old(isAdmin)
      ensures editingPostId == PostId(blogPosts[index]) && showModal && form == EmptyImageForm
      ensures var row := blogPosts[index].row;
              newPost == PostDraft(Get(row, "title"), Get(row, "summary"), Get(row, "author"))
    {
      var row := blogPosts[index].row;
      editingPostId := PostId(blogPosts[index]);
      newPost := PostDraft(Get(row, "title"), Get(row, "summary"), Get(row, "author"));
      form := EmptyImageForm;
      showModal := true;
    }

    /** `savePost()` with the outcome of the request; the logo is not sent.
        The list is reloaded afterwards by `LoadPosts`. */
    method SavePost(ok: bool) returns (request: PostRequest)
      modifies this
      ensures request == PostRequest(Undefined, old(newPost), old(form).postImage, None)
      ensures ok ==> !showModal && newPost == EmptyDraft && form == EmptyImageForm && editingPostId == Null
      ensures !ok ==> showModal == old(showModal) && newPost == old(newPost) && form == old(form)
                      && editingPostId == old(editingPostId)
      ensures blogPosts == old(blogPosts) && newCommentMap == old(newCommentMap)
      ensures loginRequiredMessage == old(loginRequiredMessage) && isAdmin == old(isAdmin)
    {
      request := PostRequest(Undefined, newPost, form.postImage, None);
      if ok {
        showModal := false;
        ResetForm();
      }
    }

    /** `updatePost()` with the outcome of the request: nothing happens while
        `editingPostId` is null. */
    method UpdatePost(ok: bool) returns (request: Option<PostRequest>)
      modifies this
      ensures old(editingPostId) == Null ==>
                (request.None? && showModal == old(showModal)
                 && newPost == old(newPost) && form == old(form) && editingPostId == Null)
      ensures old(editingPostId) != Null ==>
                request == Some(PostRequest(old(editingPostId), old(newPost), old(form).postImage, old(form).logoImage))
      ensures old(editingPostId) != Null && ok ==>
                !showModal && newPost == EmptyDraft && form == EmptyImageForm && editingPostId == Null
      ensures old(editingPostId) != Null && !ok ==>
                showModal == old(showModal) && newPost == old(newPost) && form == old(form)
                && editingPostId == old(editingPostId)
      ensures blogPosts == old(blogPosts) && newCommentMap == old(newCommentMap)
      ensures loginRequiredMessage == old(loginRequiredMessage) && isAdmin == old(isAdmin)
    {
      if editingPostId == Null {
        return None;
      }
      request := Some(PostRequest(editingPostId, newPost, form.postImage, form.logoImage));
      if ok {
        showModal := false;
        ResetForm();
      }
    }

    /** `deletePost(index)` with the user's answer and the outcome of the
        request: on success exactly the post at `index` is removed. */
    method DeletePost(index: nat, confirmed: bool, ok: bool) returns (sent: bool)
      requires index < |blogPosts|
      modifies this
      ensures sent <==> confirmed
      ensures sent && ok ==> blogPosts == old(blogPosts)[..index] + old(blogPosts)[index + 1..]
      ensures !(sent && ok) ==> blogPosts == old(blogPosts)
      ensures newCommentMap == old(newCommentMap) && editingPostId == old(editingPostId)
      ensures showModal == old(showModal) && loginRequiredMessage == old(loginRequiredMessage) && isAdmin == old(isAdmin)
      ensures newPost == old(newPost) && form == old(form)
    {
      sent := confirmed;
      if confirmed && ok {
        blogPosts := blogPosts[..index] + blogPosts[index + 1..];
      }
    }

    /** `toggleComments(index)`; the comments are fetched (reply None on
        error) only when the list is then shown and its `?.length` is `=== 0`. */
    method ToggleComments(index: nat, reply: Option<seq<Value>>) returns (fetched: bool)
      requires index < |blogPosts|
      modifies this
      ensures |blogPosts| == old(|blogPosts|)
      ensures fetched <==> !Truthy(old(blogPosts[index].showComments))
                           && StrictEq(LengthOf(old(blogPosts[index].commentList)), Num(0))
      ensures var shown := old(blogPosts[index]).(showComments := Bool(!Truthy(old(blogPosts[index].showComments))));
              if fetched && reply.Some? then
                blogPosts[index] == shown.(commentList := Arr(reply.value), comments := Num(|reply.value|))
                && CountMatches(blogPosts[index])
              else blogPosts[index] == shown
      ensures forall j :: 0 <= j < |blogPosts| && j != index ==> blogPosts[j] == old(blogPosts[j])
      ensures newCommentMap == old(newCommentMap) && editingPostId == old(editingPostId)
      ensures showModal == old(showModal) && loginRequiredMessage == old(loginRequiredMessage) && isAdmin == old(isAdmin)
      ensures newPost == old(newPost) && form == old(form)
    {
      var post := blogPosts[index];
      post := post.(showComments := Bool(!Truthy(post.showComments)));
      fetched := Truthy(post.showComments) && StrictEq(LengthOf(post.commentList), Num(0));
      if fetched && reply.Some? {
        post := post.(commentList := Arr(reply.value), comments := Num(|reply.value|));
      }
      blogPosts := blogPosts[index := post];
    }

    /** `addComment(index, message)` with the session storage and the
        outcome of the request. Logged out, it only prompts; a blank message
        does nothing; otherwise it reads the stored user (which throws on a
        stored text that is not JSON or is `null`) and posts the trimmed
        message. */
    method AddComment(index: nat, message: string, store: AuthService.Store, ok: bool)
      returns (action: Completion<Action>)
      requires index < |blogPosts|
      modifies this
      ensures !AuthService.HasText(store, "user") ==>
                (action == Normal(PromptedLogin) && loginRequiredMessage == PromptText && blogPosts == old(blogPosts))
      ensures AuthService.HasText(store, "user") ==> loginRequiredMessage == old(loginRequiredMessage)
      ensures AuthService.HasText(store, "user") && Trim(message) == "" ==>
                action == Normal(Ignored) && blogPosts == old(blogPosts)
      ensures AuthService.HasText(store, "user") && Trim(message) != "" && AuthService.Username(store).Throw? ==>
                action == Throw && blogPosts == old(blogPosts)
      ensures action.Normal? && action.value.Requested? ==>
                AuthService.Username(store).Normal? &&
                action.value == Requested(PostId(old(blogPosts[index])), AuthService.Username(store).value)
      ensures action.Normal? && action.value.Requested? && ok ==>
                var added := WithComment(old(blogPosts[index]), NewComment(action.value.username, Trim(message)));
                (added.Normal? ==> blogPosts == old(blogPosts)[index := added.value]
                                   && newCommentMap == old(newCommentMap)[ToStr(PostId(old(blogPosts[index]))) := ""])
                && (added.Throw? ==> blogPosts == old(blogPosts) && newCommentMap == old(newCommentMap))
      ensures action.Normal? && action.value.Requested? && !ok ==>
                blogPosts == old(blogPosts) && newCommentMap == old(newCommentMap)
      ensures !(action.Normal? && action.value.Requested? && ok) ==> newCommentMap == old(newCommentMap)
      ensures editingPostId == old(editingPostId) && showModal == old(showModal) && isAdmin == old(isAdmin)
      ensures newPost == old(newPost) && form == old(form)
    {
      if !AuthService.HasText(store, "user") {
        loginRequiredMessage := PromptText;
        return Normal(PromptedLogin);
      }
      var trimmed := Trim(message);
      if trimmed == "" {
        return Normal(Ignored);
      }
      var user := AuthService.Username(store);
      if user.Throw? {
        return Throw;
      }
      var post := blogPosts[index];
      action := Normal(Requested(PostId(post), user.value));
      if ok {
        var added := WithComment(post, NewComment(user.value, trimmed));
        if added.Normal? {
          blogPosts := blogPosts[index := added.value];
          newCommentMap := newCommentMap[ToStr(PostId(post)) := ""];
        }
      }
    }

    /** `deleteComment(postId, commentId)` with the user's answer and the
        outcome of the request: only the first post with that id changes. */
    method DeleteComment(postId: Value, commentId: Value, confirmed: bool, ok: bool)
      returns (sent: bool, outcome: Completion<()>)
      modifies this
      ensures sent <==> confirmed
      ensures var i := FindPost(old(blogPosts), postId);
              if sent && ok && i < |old(blogPosts)| then
                var removed := WithoutComment(old(blogPosts[i]), commentId);
                (removed.Normal? ==> outcome == Normal(()) && blogPosts == old(blogPosts)[i := removed.value])
                && (removed.Throw? ==> outcome == Throw && blogPosts == old(blogPosts))
              else outcome == Normal(()) && blogPosts == old(blogPosts)
      ensures newCommentMap == old(newCommentMap) && editingPostId == old(editingPostId)
      ensures showModal == old(showModal) && loginRequiredMessage == old(loginRequiredMessage) && isAdmin == old(isAdmin)
      ensures newPost == old(newPost) && form == old(form)
    {
      sent := confirmed;
      outcome := Normal(());
      if !confirmed || !ok {
        return;
      }
      var i := FindPost(blogPosts, postId);
      if i < |blogPosts| {
        var removed := WithoutComment(blogPosts[i], commentId);
        if removed.Throw? {
          return true, Throw;
        }
        blogPosts := blogPosts[i := removed.value];
      }
    }

    /** `likePost(postId)` with the session storage and the reply (None on
        error). Without a username it prompts; for an unknown post it does
        nothing; otherwise it copies `isLiked` and `likes` from the reply
        (reading them from a null reply throws). */
    method LikePost(postId: Value, store: AuthService.Store, reply: Option<Value>)
      returns (action: Completion<Action>)
      modifies this
      ensures AuthService.Username(store).Throw? ==> action == Throw && blogPosts == old(blogPosts)
      ensures AuthService.Username(store).Normal? && !Truthy(AuthService.Username(store).value) ==>
                action == Normal(PromptedLogin) && loginRequiredMessage == PromptText && blogPosts == old(blogPosts)
      ensures action != Normal(PromptedLogin) ==> loginRequiredMessage == old(loginRequiredMessage)
      ensures AuthService.Username(store).Normal? && Truthy(AuthService.Username(store).value) ==>
                var i := FindPost(old(blogPosts), postId);
                (i == |old(blogPosts)| ==> action == Normal(Ignored) && blogPosts == old(blogPosts))
                && (i < |old(blogPosts)| ==> action == Normal(Requested(postId, AuthService.Username(store).value)))
                && (i < |old(blogPosts)| && reply.Some? && !Nullish(reply.value) ==>
                      blogPosts == old(blogPosts)[i := WithLikeReply(old(blogPosts[i]), reply.value)])
                && (i < |old(blogPosts)| && reply.Some? && Nullish(reply.value) ==> blogPosts == old(blogPosts))
                && (i < |old(blogPosts)| && reply.None? ==> blogPosts == old(blogPosts))
      ensures newCommentMap == old(newCommentMap) && editingPostId == old(editingPostId)
      ensures showModal == old(showModal) && isAdmin == old(isAdmin)
      ensures newPost == old(newPost) && form == old(form)
    {
      var username := AuthService.Username(store);
      if username.Throw? {
        return Throw;
      }
      if !Truthy(username.value) {
        loginRequiredMessage := PromptText;
        return Normal(PromptedLogin);
      }
      var i := FindPost(blogPosts, postId);
      if i == |blogPosts| {
        return Normal(Ignored);
      }
      action := Normal(Requested(postId, username.value));
      if reply.Some? && !Nullish(reply.value) {
        blogPosts := blogPosts[i := WithLikeReply(blogPosts[i], reply.value)];
      }
    }
  }
}

=== FILE: destination.dfy ===
/**
  The bucket-list page (frontend/src/app/components/destination/
  destination.component.ts): loading and normalising the destinations, cutting
  them into rows of ten, the add/toggle/delete guards, and what the map popup
  of a destination shows.

  HTTP replies and the answer to `confirm` are parameters; each handler and
  the callback of its request run as one step.
 */
module Destination {
  import opened Wrappers
  import opened JsValue
  import AuthService

  /** A destination as the component keeps it (BucketListItem in models/post.ts);
      the fields filled from the reply keep whatever value the reply held. */
  datatype BucketListItem = BucketListItem(
    id: Value,
    name: Value,
    completed: bool,
    emoji: Value,
    latitude: Value,
    longitude: Value,
    country: Value,
    funFact: Value,
    uniqueThing: Value,
    isWishlist: bool)

  /** The body `addBucketItem` posts. */
  datatype NewBucketItem = NewBucketItem(
    name: string,
    country: string,
    latitude: Value,
    longitude: Value,
    emoji: string,
    funFact: string,
    uniqueThing: string)

  /** The number of destinations per row on the page. */
  const ChunkSize := 10

  const QuestionMark := "\U{2753}"
  const FullStar := "\U{2B50}"
  const EmptyStar := "\U{2606}"

  // ---------------------------------------------------------------------------
  // loadBucketList: one reply row to one destination
  // ---------------------------------------------------------------------------

  /** `a ?? b ?? c` */
  function Coalesce3(a: Value, b: Value, c: Value): Value {
    Coalesce(Coalesce(a, b), c)
  }

  /** The mapping `loadBucketList` applies to each row of the reply; lower-case
      and capitalised column names are both accepted, and reading `item.id` of
      a null or undefined row throws. */
  function NormalizeItem(item: Value, userId: Value): (r: Completion<BucketListItem>)
    ensures r.Throw? <==> Nullish(item)
    ensures r.Normal? && r.value.isWishlist ==> Truthy(userId)
    ensures r.Normal? && Nullish(Get(item, "emoji")) && Nullish(Get(item, "Emoji")) ==> r.value.emoji == Str(QuestionMark)
    ensures r.Normal? && Nullish(Get(item, "country")) && Nullish(Get(item, "Country")) ==> r.value.country == Str("Unknown")
    ensures r.Normal? && Nullish(Get(item, "latitude")) && Nullish(Get(item, "Latitude")) ==> r.value.latitude == Num(0)
    ensures r.Normal? && Nullish(Get(item, "longitude")) && Nullish(Get(item, "Longitude")) ==> r.value.longitude == Num(0)
    ensures r.Normal? && !Nullish(Get(item, "id")) ==> r.value.id == Get(item, "id")
    ensures r.Normal? ==> (r.value.completed <==> Truthy(Coalesce(Get(item, "completed"), Get(item, "Completed"))))
  {
    if Nullish(item) then Throw
    else
      Normal(BucketListItem(
        id := Coalesce(Get(item, "id"), Get(item, "Id")),
        name := Coalesce(Get(item, "name"), Get(item, "Name")),
        completed := Truthy(Coalesce(Get(item, "completed"), Get(item, "Completed"))),
        emoji := Coalesce3(Get(item, "emoji"), Get(item, "Emoji"), Str(QuestionMark)),
        latitude := Coalesce3(Get(item, "latitude"), Get(item, "Latitude"), Num(0)),
        longitude := Coalesce3(Get(item, "longitude"), Get(item, "Longitude"), Num(0)),
        country := Coalesce3(Get(item, "country"), Get(item, "Country"), Str("Unknown")),
        funFact := Coalesce3(Coalesce(Get(item, "funfact"), Get(item, "funFact")), Get(item, "FunFact"), Str("")),
        uniqueThing := Coalesce3(Coalesce(Get(item, "uniquething"), Get(item, "uniqueThing")), Get(item, "UniqueThing"), Str("")),
        isWishlist := if Truthy(userId) then Truthy(Coalesce(Get(item, "isWishlist"), Get(item, "IsWishlist"))) else false))
  }

  /** `items.map(...)`: throws when any row does, and otherwise maps each row
      in place. */
  function NormalizeAll(items: seq<Value>, userId: Value): (r: Completion<seq<BucketListItem>>)
    ensures r.Normal? <==> forall i :: 0 <= i < |items| ==> !Nullish(items[i])
    ensures r.Normal? ==> |r.value| == |items|
    ensures r.Normal? ==> forall i :: 0 <= i < |items| ==> Normal(r.value[i]) == NormalizeItem(items[i], userId)
  {
    if forall i :: 0 <= i < |items| ==> !Nullish(items[i]) then
      Normal(seq(|items|, i requires 0 <= i < |items| => NormalizeItem(items[i], userId).value))
    else Throw
  }

  /** A reply row that spells the wishlist flag in lower case, as the
      bucket-list query returns it, never loads as a wishlist entry. */
  lemma LowerCaseWishlistIgnored(fields: seq<Field>, userId: Value)
    requires Lookup(fields, "isWishlist").None? && Lookup(fields, "IsWishlist").None?
    ensures !NormalizeItem(Obj(fields), userId).value.isWishlist
  {
  }

  // ---------------------------------------------------------------------------
  // chunkArray
  // ---------------------------------------------------------------------------

  function Min(a: int, b: int): int {
    if a <= b then a else b
  }

  /** The number of chunks of `size` needed for `len` elements: ceil(len / size). */
  function ChunkCount(len: nat, size: nat): nat
    requires size > 0
  {
    (len + size - 1) / size
  }

  /** Chunk `k` of `arr`: the slice starting at `k * size`, at most `size` long. */
  function Chunk<T>(arr: seq<T>, size: nat, k: nat): seq<T>
    requires size > 0 && k < ChunkCount(|arr|, size)
  {
    ChunkCountBounds(|arr|, size, k);
    arr[k * size .. Min((k + 1) * size, |arr|)]
  }

  /** The rows `chunkArray(arr, size)` should return. */
  function ChunksOf<T>(arr: seq<T>, size: nat): seq<seq<T>>
    requires size > 0
  {
    seq(ChunkCount(|arr|, size), k requires 0 <= k < ChunkCount(|arr|, size) => Chunk(arr, size, k))
  }

  /** The chunk count is the least `n` with `n * size >= len`. */
  lemma ChunkCountBounds(len: nat, size: nat, k: nat)
    requires size > 0
    ensures k < ChunkCount(len, size) <==> k * size < len
  {
    var c := ChunkCount(len, size);
    var m := len + size - 1;
    assert c * size <= m < c * size + size;
    if k < c {
      assert k + 1 <= c;
      assert (k + 1) * size <= c * size;
      assert k * size + size <= m;
    } else {
      assert c * size <= k * size;
      assert len <= c * size;
    }
  }

  /** `chunkArray(arr, size)`: the loop that pushes `arr.slice(i, i + size)`
      for i = 0, size, 2 * size, ... */
  method ChunkArray<T>(arr: seq<T>, size: nat) returns (result: seq<seq<T>>)
    requires size > 0
    ensures result == ChunksOf(arr, size)
  {
    result := [];
    var i := 0;
    while i < |arr|
      invariant i == |result| * size
      invariant |result| <= ChunkCount(|arr|, size)
      invariant forall k :: 0 <= k < |result| ==> result[k] == Chunk(arr, size, k)
    {
      ChunkCountBounds(|arr|, size, |result|);
      result := result + [arr[i .. Min(i + size, |arr|)]];
      i := i + size;
    }
    ChunkCountBounds(|arr|, size, |result|);
  }

  /** Concatenation of a list of lists. */
  function Flatten<T>(ss: seq<seq<T>>): seq<T> {
    if ss == [] then [] else Flatten(ss[..|ss| - 1]) + ss[|ss| - 1]
  }

  /** The first `n` chunks concatenate to the first `min(n * size, |arr|)`
      elements. */
  lemma {:induction false} FlattenChunksPrefix<T>(arr: seq<T>, size: nat, n: nat)
    requires size > 0 && n <= ChunkCount(|arr|, size)
    ensures Flatten(ChunksOf(arr, size)[..n]) == arr[..Min(n * size, |arr|)]
  {
    var cs := ChunksOf(arr, size);
    if n > 0 {
      var a := (n - 1) * size;
      assert n * size == a + size;
      ChunkCountBounds(|arr|, size, n - 1);
      assert a < |arr|;
      var b := Min(a + size, |arr|);
      FlattenChunksPrefix(arr, size, n - 1);
      assert Flatten(cs[..n - 1]) == arr[..a];
      assert cs[n - 1] == arr[a..b];
      assert cs[..n][..n - 1] == cs[..n - 1] && cs[..n][n - 1] == cs[n - 1];
      assert Flatten(cs[..n]) == Flatten(cs[..n - 1]) + cs[n - 1];
      assert arr[..b] == arr[..a] + arr[a..b];
    }
  }

  /** Concatenating the chunks gives back the input. */
  lemma ChunksConcat<T>(arr: seq<T>, size: nat)
    requires size > 0
    ensures Flatten(ChunksOf(arr, size)) == arr
  {
    var n := ChunkCount(|arr|, size);
    FlattenChunksPrefix(arr, size, n);
    assert ChunksOf(arr, size)[..n] == ChunksOf(arr, size);
    ChunkCountBounds(|arr|, size, n);
  }

  /** There are ceil(|arr| / size) chunks; each is non-empty and at most
      `size` long, and every chunk but the last is exactly `size` long. */
  lemma ChunksShape<T>(arr: seq<T>, size: nat)
    requires size > 0
    ensures |ChunksOf(arr, size)| == ChunkCount(|arr|, size)
    ensures forall k :: 0 <= k < |ChunksOf(arr, size)| ==> 0 < |ChunksOf(arr, size)[k]| <= size
    ensures forall k :: 0 <= k < |ChunksOf(arr, size)| - 1 ==> |ChunksOf(arr, size)[k]| == size
  {
    var cs := ChunksOf(arr, size);
    forall k | 0 <= k < |cs| ensures 0 < |cs[k]| <= size {
      ChunkCountBounds(|arr|, size, k);
      assert (k + 1) * size == k * size + size;
    }
    forall k | 0 <= k < |cs| - 1 ensures |cs[k]| == size {
      ChunkCountBounds(|arr|, size, k + 1);
      assert (k + 1) * size == k * size + size;
    }
  }

  // ---------------------------------------------------------------------------
  // trackByItemId, generatePopupContent
  // ---------------------------------------------------------------------------

  /** `trackByItemId`: the id, or -1 when it is undefined or null. */
  function TrackByItemId(index: int, item: BucketListItem): (key: Value)
    ensures !Nullish(key)
    ensures key == item.id || key == Num(-1)
  {
    Coalesce(item.id, Num(-1))
  }

  /** The key ignores the position, and two destinations share a key exactly
      when they have the same id, or when each has no id or the id -1. */
  lemma TrackByKeys(i: int, j: int, a: BucketListItem, b: BucketListItem)
    ensures TrackByItemId(i, a) == TrackByItemId(j, a)
    ensures TrackByItemId(i, a) == TrackByItemId(j, b) <==>
              (!Nullish(a.id) && a.id == b.id)
              || ((Nullish(a.id) || a.id == Num(-1)) && (Nullish(b.id) || b.id == Num(-1)))
  {
  }

  /** The parts of the popup that `generatePopupContent` writes: the wishlist
      star, the name and country, the two details and the status line. */
  datatype Popup = Popup(
    star: Option<string>,
    name: Value,
    country: Value,
    funFact: Option<Value>,
    uniqueThing: Option<Value>,
    status: string)

  /** `generatePopupContent(item, isAdmin)` for a component whose `userId` is
      the one given. */
  function PopupContent(item: BucketListItem, isAdmin: bool, userId: Value): (p: Popup)
    ensures p.star.Some? <==> Truthy(userId) && !isAdmin
    ensures p.star == Some(FullStar) ==> item.isWishlist
    ensures p.star == Some(EmptyStar) ==> !item.isWishlist
    ensures p.star.Some? ==> p.star.value == (if item.isWishlist then FullStar else EmptyStar)
    ensures p.funFact.Some? ==> p.funFact.value == item.funFact
    ensures p.uniqueThing.Some? ==> p.uniqueThing.value == item.uniqueThing
    ensures p.status == (if item.completed then "\U{2705} Completed" else "\U{274C} Not yet")
    ensures p.funFact.Some? <==> item.completed && Truthy(item.funFact)
    ensures p.uniqueThing.Some? <==> item.completed && Truthy(item.uniqueThing)
    ensures p.name == item.name && p.country == item.country
  {
    var isUser := Truthy(userId) && !isAdmin;
    Popup(
      star := if isUser then Some(if item.isWishlist then FullStar else EmptyStar) else None,
      name := item.name,
      country := item.country,
      funFact := if item.completed && Truthy(item.funFact) then Some(item.funFact) else None,
      uniqueThing := if item.completed && Truthy(item.uniqueThing) then Some(item.uniqueThing) else None,
      status := if item.completed then "\U{2705} Completed" else "\U{274C} Not yet")
  }

  /** Details of a destination not yet visited never show, whoever looks. */
  lemma PopupHidesDetailsUntilCompleted(item: BucketListItem, isAdmin: bool, userId: Value)
    requires !item.completed
    ensures PopupContent(item, isAdmin, userId).funFact.None?
    ensures PopupContent(item, isAdmin, userId).uniqueThing.None?
  {
  }

  // ---------------------------------------------------------------------------
  // The component
  // ---------------------------------------------------------------------------

  /** The guard of `addBucketItem`: a name, a country and an emoji are
      needed (the first two after trimming). */
  predicate Incomplete(form: NewBucketItem) {
    Trim(form.name) == "" || Trim(form.country) == "" || form.emoji == ""
  }

  /** The body `addBucketItem` posts for a form: the text fields trimmed,
      the emoji and the coordinates as they are. */
  function Draft(form: NewBucketItem): (d: NewBucketItem)
    ensures d.latitude == form.latitude && d.longitude == form.longitude && d.emoji == form.emoji
  {
    form.(name := Trim(form.name), country := Trim(form.country),
          funFact := Trim(form.funFact), uniqueThing := Trim(form.uniqueThing))
  }

  /** A form that passes the guard posts a name and a country that are
      non-empty and neither start nor end with white space. */
  lemma DraftTrimmed(form: NewBucketItem)
    requires !Incomplete(form)
    ensures var d := Draft(form);
      d.name != "" && !IsJsSpace(d.name[0]) && !IsJsSpace(d.name[|d.name| - 1]) &&
      d.country != "" && !IsJsSpace(d.country[0]) && !IsJsSpace(d.country[|d.country| - 1])
  {
    TrimEmpty(form.name);
    TrimEmpty(form.country);
  }

  /** The empty form the component starts with and returns to. */
  const EmptyForm := NewBucketItem("", "", Num(0), Num(0), "", "", "")

  class DestinationComponent {
    var isAdmin: bool
    var newBucketItem: string
    var newEmoji: string
    var newLatitude: Value
    var newLongitude: Value
    var newCountry: string
    var newFunFact: string
    var newUniqueThing: string
    var bucketList: seq<BucketListItem>
    var chunkedList: seq<seq<BucketListItem>>
    var isLoading: bool
    var userId: Value

    /** The rows on the page are always the chunks of the list (they hold the
        same item objects). */
    ghost predicate Valid()
      reads this
    {
      chunkedList == ChunksOf(bucketList, ChunkSize)
    }

    /** The field initialisers. */
    constructor ()
      ensures Valid()
      ensures isAdmin && bucketList == [] && !isLoading && userId == Undefined
      ensures newBucketItem == "" && newEmoji == "" && newCountry == "" && newFunFact == "" && newUniqueThing == ""
      ensures newLatitude == Num(0) && newLongitude == Num(0)
    {
      isAdmin := true;
      newBucketItem, newEmoji, newCountry, newFunFact, newUniqueThing := "", "", "", "", "";
      newLatitude, newLongitude := Num(0), Num(0);
      bucketList := [];
      chunkedList := [];
      isLoading := false;
      userId := Undefined;
    }

    /** `ngOnInit` with the session storage and the current URL: the user is
        the stored one, or `{}` when there is none, and reading it throws on
        a stored text that is not JSON. The route subscription then calls
        `loadBucketList`, which `LoadBucketList` models. */
    method Init(store: AuthService.Store, url: string) returns (outcome: Completion<()>)
      modifies this
      ensures AuthService.SessionUser(store).Throw? ==>
                outcome == Throw && userId == old(userId) && isAdmin == old(isAdmin)
      ensures AuthService.SessionUser(store).Normal? ==>
                var user := AuthService.SessionUser(store).value;
                outcome == Normal(())
                && userId == (if Nullish(user) then Undefined else Get(user, "id"))
                && (isAdmin <==> !Nullish(user) && StrictEq(Get(user, "role"), Str("admin"))
                                 && |url| >= 6 && url[..6] == "/admin")
      ensures bucketList == old(bucketList) && chunkedList == old(chunkedList) && isLoading == old(isLoading)
      ensures Form() == old(Form())
    {
      var session := AuthService.SessionUser(store);
      if session.Throw? {
        return Throw;
      }
      var user := session.value;
      userId := if Nullish(user) then Undefined else Get(user, "id");
      isAdmin := !Nullish(user) && StrictEq(Get(user, "role"), Str("admin"))
                 && |url| >= 6 && url[..6] == "/admin";
      outcome := Normal(());
    }

    /** `loadBucketList` with the reply rows, or None when the request fails.
        A row the mapping throws on stops the callback before the list, the
        rows and `isLoading` are written. */
    method LoadBucketList(reply: Option<seq<Value>>) returns (outcome: Completion<()>)
      requires Valid()
      modifies this
      ensures Valid()
      ensures reply.Some? && NormalizeAll(reply.value, userId).Normal? ==>
                outcome == Normal(()) && bucketList == NormalizeAll(reply.value, userId).value && !isLoading
      ensures reply.Some? && NormalizeAll(reply.value, userId).Throw? ==>
                outcome == Throw && bucketList == old(bucketList) && isLoading
      ensures reply.None? ==> outcome == Normal(()) && bucketList == old(bucketList) && !isLoading
      ensures userId == old(userId) && isAdmin == old(isAdmin) && Form() == old(Form())
    {
      isLoading := true;
      outcome := Normal(());
      if reply.Some? {
        var mapped := NormalizeAll(reply.value, userId);
        if mapped.Throw? {
          return Throw;
        }
        bucketList := mapped.value;
        chunkedList := ChunkArray(bucketList, ChunkSize);
      }
      isLoading := false;
    }

    /** The form as it stands. */
    function Form(): NewBucketItem
      reads this
    {
      NewBucketItem(newBucketItem, newCountry, newLatitude, newLongitude, newEmoji, newFunFact, newUniqueThing)
    }

    /** The reset after a successful POST: every form field back to its
        initial value. */
    method ClearForm()
      modifies this
      ensures Form() == EmptyForm
      ensures bucketList == old(bucketList) && chunkedList == old(chunkedList) && isLoading == old(isLoading)
      ensures userId == old(userId) && isAdmin == old(isAdmin)
    {
      newBucketItem, newEmoji, newCountry, newFunFact, newUniqueThing := "", "", "", "", "";
      newLatitude, newLongitude := Num(0), Num(0);
    }

    /** `addBucketItem` with the outcome of its POST; it returns the body
        posted (None when the guard stops it) and whether the list is
        reloaded afterwards. */
    method AddBucketItem(ok: bool) returns (posted: Option<NewBucketItem>, reload: bool)
      modifies this
      ensures Incomplete(old(Form())) ==> posted.None? && !reload && isLoading == old(isLoading)
      ensures !Incomplete(old(Form())) ==> posted == Some(Draft(old(Form()))) && reload == ok && !isLoading
      ensures Form() == if !Incomplete(old(Form())) && ok then EmptyForm else old(Form())
      ensures bucketList == old(bucketList) && chunkedList == old(chunkedList)
      ensures userId == old(userId) && isAdmin == old(isAdmin)
    {
      var form := Form();
      if Incomplete(form) {
        return None, false;
      }
      posted := Some(Draft(form));
      isLoading := true;
      if ok {
        ClearForm();
      }
      reload := ok;
      isLoading := false;
    }

    /** `toggleItem` on the destination at `index`, with the outcome of its
        PUT; it returns the item sent. A failed update flips `completed` back. */
    method ToggleItem(index: nat, ok: bool) returns (sent: Option<BucketListItem>)
      requires Valid() && index < |bucketList|
      modifies this
      ensures Valid()
      ensures !isAdmin || old(bucketList[index]).id.Undefined? ==> sent.None? && bucketList == old(bucketList)
      ensures isAdmin && !old(bucketList[index]).id.Undefined? ==> sent == Some(old(bucketList[index]))
      ensures ok ==> bucketList == old(bucketList)
      ensures isAdmin && !old(bucketList[index]).id.Undefined? && !ok ==>
                bucketList == old(bucketList)[index := old(bucketList[index]).(completed := !old(bucketList[index]).completed)]
      ensures isAdmin == old(isAdmin) && isLoading == old(isLoading) && userId == old(userId)
      ensures Form() == old(Form())
    {
      var item := bucketList[index];
      if !isAdmin || item.id.Undefined? {
        return None;
      }
      var newStatus := item.completed;
      sent := Some(item);
      if !ok {
        bucketList := bucketList[index := item.(completed := !newStatus)];
        chunkedList := ChunkArray(bucketList, ChunkSize);
      }
    }

    /** `deleteBucketItem(id)` with the answer to the confirmation and the
        outcome of the DELETE; it returns the id sent and whether the list is
        reloaded (the reload clears `isLoading`). */
    method DeleteBucketItem(id: Value, confirmed: bool, ok: bool) returns (sent: Option<Value>, reload: bool)
      modifies this
      ensures !Truthy(id) || !isAdmin || !confirmed ==> sent.None? && !reload && isLoading == old(isLoading)
      ensures Truthy(id) && isAdmin && confirmed ==> sent == Some(id) && reload == ok && isLoading == ok
      ensures bucketList == old(bucketList) && chunkedList == old(chunkedList)
      ensures isAdmin == old(isAdmin) && userId == old(userId) && Form() == old(Form())
    {
      if !Truthy(id) || !isAdmin || !confirmed {
        return None, false;
      }
      sent := Some(id);
      isLoading := true;
      if ok {
        reload := true;
      } else {
        reload := false;
        isLoading := false;
      }
    }
  }
}

=== FILE: home.dfy ===
/**
  The home page (frontend/src/app/components/home/home.component.ts): the
  sections the backend returns are mapped to `WebsiteSection`s and sorted
  into the hero, the story and the list of destinations; an admin can save a
  section.

  HTTP replies are parameters; each handler and the callback of its request
  run as one step. The image URL and the background style are kept as their
  text (Angular's sanitiser wrappers are not modelled).
 */
module Home {
  import opened Wrappers
  import opened JsValue

  /** The base of the API the image URLs point at. */
  const ApiBase := "https://wanderwithkii-g3wr.onrender.com/api"

  /** A section as the page keeps it; `backgroundStyle` is None where the
      source leaves it undefined. */
  datatype WebsiteSection = WebsiteSection(
    id: Value,
    kind: string,
    title: Value,
    description: Value,
    content1: Value,
    content2: Value,
    imageid: Value,
    isEditing: bool,
    previewUrl: string,
    cacheBustedUrl: string,
    backgroundStyle: Option<string>)

  /** `getImageUrl(id)`: empty for a falsy id. */
  function ImageUrl(id: Value): (url: string)
    ensures url == "" <==> !Truthy(id)
  {
    if Truthy(id) then ApiBase + "/images/" + ToStr(id) else ""
  }

  /** `getBackgroundStyle(imageId)`: empty for a falsy id, otherwise a darkened
      gradient over the image. */
  function BackgroundStyle(imageId: Value): (style: string)
    ensures style == "" <==> !Truthy(imageId)
  {
    if !Truthy(imageId) then ""
    else "linear-gradient(rgba(0,0,0,0.4), rgba(0,0,0,0.4)), url('" + ImageUrl(imageId) + "')"
  }

  /** `defaultSection(type)`: the placeholder hero and story, whose id and
      image id are 0 (falsy), so the page neither saves nor shows them. */
  function DefaultSection(kind: string): (s: WebsiteSection)
    ensures s.kind == kind && s.id == Num(0) && s.imageid == Num(0)
    ensures !Truthy(s.id) && !Truthy(s.imageid) && s.previewUrl == "" && s.cacheBustedUrl == ""
    ensures s.title == Str("") && s.description == Str("") && s.content1 == Str("") && s.content2 == Str("")
    ensures !s.isEditing && s.backgroundStyle.None?
  {
    WebsiteSection(Num(0), kind, Str(""), Str(""), Str(""), Str(""), Num(0), false, "", "", None)
  }

  /** `sec.type || sec.Type`, the raw type both the `type` and the
      `backgroundStyle` of a mapped section are read from. */
  function RawKind(sec: Value): Value {
    Or(Get(sec, "type"), Get(sec, "Type"))
  }

  /** `a || b || ''` on two alternative spellings of a text field. */
  function TextField(sec: Value, lower: string, upper: string): Value {
    Or(Or(Get(sec, lower), Get(sec, upper)), Str(""))
  }

  /** `v` is what `sec[lower] || sec[upper] || ''` gives: the first truthy
      spelling, or the empty text when neither is truthy. */
  predicate FallsBack(v: Value, sec: Value, lower: string, upper: string) {
    (Truthy(Get(sec, lower)) ==> v == Get(sec, lower))
    && (!Truthy(Get(sec, lower)) && Truthy(Get(sec, upper)) ==> v == Get(sec, upper))
    && (!Truthy(Get(sec, lower)) && !Truthy(Get(sec, upper)) ==> v == Str(""))
  }

  /** The mapping of one section of the reply. It throws when the section is
      null or undefined, or when its raw type is present but not a string
      (a truthy one has no `toLowerCase`, a falsy one such as 0 fails at the
      `?.toLowerCase()` of the background check). */
  function MapSection(sec: Value): (r: Completion<WebsiteSection>)
    ensures r.Throw? <==> Nullish(sec) || (!Nullish(RawKind(sec)) && !RawKind(sec).Str?)
    ensures r.Normal? ==> r.value.kind == (if RawKind(sec).Str? then ToLower(RawKind(sec).s) else "")
    ensures r.Normal? ==> (r.value.backgroundStyle.Some? <==> r.value.kind == "hero")
    ensures r.Normal? && r.value.backgroundStyle.Some? ==>
              r.value.backgroundStyle.value == BackgroundStyle(r.value.imageid)
    ensures r.Normal? && Nullish(Get(sec, "imageid")) && Nullish(Get(sec, "ImageId")) ==> r.value.imageid == Null
    ensures r.Normal? ==> r.value.id == Coalesce(Get(sec, "id"), Get(sec, "Id"))
    ensures r.Normal? ==> FallsBack(r.value.title, sec, "title", "Title")
                          && FallsBack(r.value.description, sec, "description", "Description")
                          && FallsBack(r.value.content1, sec, "content1", "Content1")
                          && FallsBack(r.value.content2, sec, "content2", "Content2")
    ensures r.Normal? ==> !r.value.isEditing && r.value.previewUrl == ""
  {
    if Nullish(sec) then Throw
    else
      var raw := RawKind(sec);
      var imageid := Coalesce(Coalesce(Get(sec, "imageid"), Get(sec, "ImageId")), Null);
      match Or(raw, Str(""))
      case Str(t) =>
        var kind := ToLower(t);
        if raw.Str? || Nullish(raw) then
          Normal(WebsiteSection(
            id := Coalesce(Get(sec, "id"), Get(sec, "Id")),
            kind := kind,
            title := TextField(sec, "title", "Title"),
            description := TextField(sec, "description", "Description"),
            content1 := TextField(sec, "content1", "Content1"),
            content2 := TextField(sec, "content2", "Content2"),
            imageid := imageid,
            isEditing := false,
            previewUrl := "",
            cacheBustedUrl := ImageUrl(imageid),
            backgroundStyle := if kind == "hero" then Some(BackgroundStyle(imageid)) else None))
        else Throw
      case _ => Throw
  }

  /** `sections.map(...)`: throws when any section does. */
  function MapSections(secs: seq<Value>): (r: Completion<seq<WebsiteSection>>)
    ensures r.Normal? <==> forall i :: 0 <= i < |secs| ==>
                             !Nullish(secs[i]) && (Nullish(RawKind(secs[i])) || RawKind(secs[i]).Str?)
    ensures r.Normal? ==> |r.value| == |secs|
    ensures r.Normal? ==> forall i :: 0 <= i < |secs| ==> Normal(r.value[i]) == MapSection(secs[i])
  {
    if forall i :: 0 <= i < |secs| ==> MapSection(secs[i]).Normal? then
      Normal(seq(|secs|, i requires 0 <= i < |secs| => MapSection(secs[i]).value))
    else Throw
  }

  /** The classification keeps the last section of a kind, or the previous
      value when there is none. */
  function LastOfKind(ss: seq<WebsiteSection>, kind: string, previous: WebsiteSection): WebsiteSection {
    if ss == [] then previous
    else if ss[|ss| - 1].kind == kind then ss[|ss| - 1]
    else LastOfKind(ss[..|ss| - 1], kind, previous)
  }

  /** The sections of a kind, in input order. */
  function OfKind(ss: seq<WebsiteSection>, kind: string): seq<WebsiteSection> {
    if ss == [] then []
    else OfKind(ss[..|ss| - 1], kind) + (if ss[|ss| - 1].kind == kind then [ss[|ss| - 1]] else [])
  }

  /** `OfKind` keeps exactly the sections of the kind. */
  lemma {:induction false} OfKindMembers(ss: seq<WebsiteSection>, kind: string)
    ensures forall s :: s in OfKind(ss, kind) <==> s in ss && s.kind == kind
  {
    if ss != [] {
      var init := ss[..|ss| - 1];
      var last := ss[|ss| - 1];
      OfKindMembers(init, kind);
      assert ss == init + [last];
    }
  }

  /** With no section of the kind, the previous value stays. */
  lemma {:induction false} LastOfKindAbsent(ss: seq<WebsiteSection>, kind: string, previous: WebsiteSection)
    requires forall i :: 0 <= i < |ss| ==> ss[i].kind != kind
    ensures LastOfKind(ss, kind, previous) == previous
  {
    if ss != [] {
      var init := ss[..|ss| - 1];
      assert forall i :: 0 <= i < |init| ==> init[i] == ss[i];
      LastOfKindAbsent(init, kind, previous);
    }
  }

  /** Otherwise the section of the kind that no later section shares it with
      is kept. */
  lemma {:induction false} LastOfKindPresent(ss: seq<WebsiteSection>, kind: string, previous: WebsiteSection, i: nat)
    requires i < |ss| && ss[i].kind == kind
    requires forall j :: i < j < |ss| ==> ss[j].kind != kind
    ensures LastOfKind(ss, kind, previous) == ss[i]
  {
    if i < |ss| - 1 {
      var init := ss[..|ss| - 1];
      assert forall j :: 0 <= j < |init| ==> init[j] == ss[j];
      LastOfKindPresent(init, kind, previous, i);
    }
  }

  /** The kinds the classification knows. */
  predicate Known(s: WebsiteSection) {
    s.kind == "hero" || s.kind == "story" || s.kind == "destination"
  }

  function KnownOnly(ss: seq<WebsiteSection>): seq<WebsiteSection> {
    if ss == [] then []
    else KnownOnly(ss[..|ss| - 1]) + (if Known(ss[|ss| - 1]) then [ss[|ss| - 1]] else [])
  }

  /** Sections of any other kind are ignored: dropping them changes neither
      the hero, the story nor the destinations. */
  lemma {:induction false} OtherKindsIgnored(ss: seq<WebsiteSection>, hero: WebsiteSection, story: WebsiteSection)
    ensures LastOfKind(ss, "hero", hero) == LastOfKind(KnownOnly(ss), "hero", hero)
    ensures LastOfKind(ss, "story", story) == LastOfKind(KnownOnly(ss), "story", story)
    ensures OfKind(ss, "destination") == OfKind(KnownOnly(ss), "destination")
  {
    if ss != [] {
      var init := ss[..|ss| - 1];
      var last := ss[|ss| - 1];
      OtherKindsIgnored(init, hero, story);
      if Known(last) {
        var k := KnownOnly(ss);
        assert k == KnownOnly(init) + [last];
        assert k[..|k| - 1] == KnownOnly(init) && k[|k| - 1] == last;
      } else {
        assert KnownOnly(ss) == KnownOnly(init);
      }
    }
  }

  /** Where `saveSection` may be called on. */
  datatype Slot = HeroSlot | StorySlot | DestinationSlot(index: nat)

  /** A section after a successful save: the new image id from the reply,
      editing closed, preview cleared. */
  function Saved(s: WebsiteSection, imageId: Value): (r: WebsiteSection)
    ensures r.imageid == imageId && !r.isEditing && r.previewUrl == ""
    ensures r.cacheBustedUrl == "" <==> !Truthy(imageId)
    ensures r.id == s.id && r.kind == s.kind && r.title == s.title && r.backgroundStyle == s.backgroundStyle
    ensures r.(imageid := s.imageid, cacheBustedUrl := s.cacheBustedUrl, isEditing := s.isEditing, previewUrl := s.previewUrl) == s
  {
    s.(imageid := imageId, cacheBustedUrl := ImageUrl(imageId), isEditing := false, previewUrl := "")
  }

  class HomeComponent {
    var isAdmin: bool
    var hero: WebsiteSection
    var story: WebsiteSection
    var destinations: seq<WebsiteSection>

    /** The field initialisers: placeholder hero and story, no destinations. */
    constructor ()
      ensures !isAdmin && hero == DefaultSection("hero") && story == DefaultSection("story") && destinations == []
    {
      isAdmin := false;
      hero := DefaultSection("hero");
      story := DefaultSection("story");
      destinations := [];
    }

    predicate HasSlot(slot: Slot)
      reads this
    {
      slot.DestinationSlot? ==> slot.index < |destinations|
    }

    function SectionAt(slot: Slot): WebsiteSection
      reads this
      requires HasSlot(slot)
    {
      match slot
      case HeroSlot => hero
      case StorySlot => story
      case DestinationSlot(i) => destinations[i]
    }

    /** The `switch` loop of `loadSections` over the mapped sections. */
    method Classify(ss: seq<WebsiteSection>)
      modifies this
      ensures hero == LastOfKind(ss, "hero", old(hero))
      ensures story == LastOfKind(ss, "story", old(story))
      ensures destinations == old(destinations) + OfKind(ss, "destination")
      ensures isAdmin == old(isAdmin)
    {
      for i := 0 to |ss|
        invariant hero == LastOfKind(ss[..i], "hero", old(hero))
        invariant story == LastOfKind(ss[..i], "story", old(story))
        invariant destinations == old(destinations) + OfKind(ss[..i], "destination")
        invariant isAdmin == old(isAdmin)
      {
        var sec := ss[i];
        assert ss[..i + 1][..i] == ss[..i] && ss[..i + 1][i] == sec;
        if sec.kind == "hero" {
          hero := sec;
        } else if sec.kind == "story" {
          story := sec;
        } else if sec.kind == "destination" {
          destinations := destinations + [sec];
        }
      }
      assert ss[..|ss|] == ss;
    }

    /** `loadSections()` with the reply (None when the request fails): the
        destinations are cleared first; a reply whose mapping throws leaves
        the hero and story as they were. */
    method LoadSections(reply: Option<seq<Value>>) returns (outcome: Completion<()>)
      modifies this
      ensures reply.None? ==> outcome == Normal(()) && hero == old(hero) && story == old(story) && destinations == []
      ensures reply.Some? && MapSections(reply.value).Throw? ==>
                outcome == Throw && hero == old(hero) && story == old(story) && destinations == []
      ensures reply.Some? && MapSections(reply.value).Normal? ==>
                var ss := MapSections(reply.value).value;
                outcome == Normal(()) && hero == LastOfKind(ss, "hero", old(hero))
                && story == LastOfKind(ss, "story", old(story)) && destinations == OfKind(ss, "destination")
      ensures isAdmin == old(isAdmin)
    {
      destinations := [];
      if reply.None? {
        return Normal(());
      }
      var mapped := MapSections(reply.value);
      if mapped.Throw? {
        return Throw;
      }
      Classify(mapped.value);
      outcome := Normal(());
    }

    /** `editSection(section)` */
    method EditSection(slot: Slot)
      requires HasSlot(slot)
      modifies this
      ensures HasSlot(slot) && SectionAt(slot) == old(SectionAt(slot)).(isEditing := true)
      ensures forall other :: other != slot && old(HasSlot(other)) ==> HasSlot(other) && SectionAt(other) == old(SectionAt(other))
      ensures isAdmin == old(isAdmin) && |destinations| == old(|destinations|)
    {
      match slot
      case HeroSlot => hero := hero.(isEditing := true);
      case StorySlot => story := story.(isEditing := true);
      case DestinationSlot(i) => destinations := destinations[i := destinations[i].(isEditing := true)];
    }

    /** `saveSection(section)` with the reply (None when the request fails).
        A section with a falsy id sends nothing; reading `imageId` of a null
        reply throws before anything is written. */
    method SaveSection(slot: Slot, response: Option<Value>) returns (sent: bool)
      requires HasSlot(slot)
      modifies this
      ensures sent <==> Truthy(old(SectionAt(slot)).id)
      ensures HasSlot(slot)
      ensures sent && response.Some? && !Nullish(response.value) ==>
                SectionAt(slot) == Saved(old(SectionAt(slot)), Get(response.value, "imageId"))
      ensures !(sent && response.Some? && !Nullish(response.value)) ==> SectionAt(slot) == old(SectionAt(slot))
      ensures forall other :: other != slot && old(HasSlot(other)) ==> HasSlot(other) && SectionAt(other) == old(SectionAt(other))
      ensures isAdmin == old(isAdmin) && |destinations| == old(|destinations|)
    {
      var section := SectionAt(slot);
      if !Truthy(section.id) {
        return false;
      }
      sent := true;
      if response.None? || Nullish(response.value) {
        return;
      }
      var updated := Saved(section, Get(response.value, "imageId"));
      match slot
      case HeroSlot => hero := updated;
      case StorySlot => story := updated;
      case DestinationSlot(i) => destinations := destinations[i := updated];
    }

    /** `deleteSection(section)` with the user's answer, whether the DELETE
        succeeded, and the reply of the reload that success triggers: a
        request is sent only for a truthy id the user confirms, and only its
        success reloads the sections (as `LoadSections`). */
    method DeleteSection(slot: Slot, confirmed: bool, deleted: bool, reload: Option<seq<Value>>)
      returns (sent: bool, outcome: Completion<()>)
      requires HasSlot(slot)
      modifies this
      ensures sent <==> Truthy(old(SectionAt(slot)).id) && confirmed
      ensures !(sent && deleted) ==>
                outcome == Normal(()) && hero == old(hero) && story == old(story) && destinations == old(destinations)
      ensures sent && deleted && reload.None? ==>
                outcome == Normal(()) && hero == old(hero) && story == old(story) && destinations == []
      ensures sent && deleted && reload.Some? && MapSections(reload.value).Throw? ==>
                outcome == Throw && hero == old(hero) && story == old(story) && destinations == []
      ensures sent && deleted && reload.Some? && MapSections(reload.value).Normal? ==>
                var ss := MapSections(reload.value).value;
                outcome == Normal(()) && hero == LastOfKind(ss, "hero", old(hero))
                && story == LastOfKind(ss, "story", old(story)) && destinations == OfKind(ss, "destination")
      ensures isAdmin == old(isAdmin)
    {
      sent := Truthy(SectionAt(slot).id) && confirmed;
      outcome := Normal(());
      if sent && deleted {
        outcome := LoadSections(reload);
      }
    }
  }
}

=== FILE: js_value.dfy ===
/**
  JavaScript values as the Angular frontend handles them: the decoded bodies of
  HTTP responses, the objects the components build, and the coercions the
  components apply (`!!v`, `a || b`, `a ?? b`, `String(v)`, `s.trim()`,
  `s.toLowerCase()`, `parseInt(v, 10)`, `===`).

  Numbers are integers; NaN is a value of its own. An object is the list of its
  own properties in insertion order, as JavaScript keeps them.
 */
module JsValue {
  import opened Wrappers

  datatype Value =
    | Undefined
    | Null
    | Bool(b: bool)
    | Num(n: int)
    | NaN
    | Str(s: string)
    | Arr(items: seq<Value>)
    | Obj(fields: seq<Field>)

  /** One own property of an object. */
  datatype Field = Field(key: string, val: Value)

  /** How a piece of frontend code ends: with a value, or by throwing. */
  datatype Completion<+T> = Normal(value: T) | Throw

  // ---------------------------------------------------------------------------
  // Truthiness, `||`, `??`, `===`
  // ---------------------------------------------------------------------------

  /** `!!v`: false exactly for undefined, null, false, 0, NaN and "". */
  predicate Truthy(v: Value) {
    match v
    case Undefined => false
    case Null => false
    case NaN => false
    case Bool(b) => b
    case Num(n) => n != 0
    case Str(s) => s != ""
    case Arr(_) => true
    case Obj(_) => true
  }

  /** The values `??` and `?.` treat as missing. */
  predicate Nullish(v: Value) {
    v.Undefined? || v.Null?
  }

  /** `a ?? b` */
  function Coalesce(a: Value, b: Value): Value {
    if Nullish(a) then b else a
  }

  /** `a || b` */
  function Or(a: Value, b: Value): Value {
    if Truthy(a) then a else b
  }

  /** `a === b` where at least one side is a primitive (the only way the
      components use it): NaN equals nothing, everything else is compared by
      value. */
  predicate StrictEq(a: Value, b: Value) {
    !a.NaN? && !b.NaN? && a == b
  }

  // ---------------------------------------------------------------------------
  // Property access and object spread
  // ---------------------------------------------------------------------------

  /** The first property named `key`, if any. */
  function Lookup(fields: seq<Field>, key: string): Option<Value> {
    if fields == [] then None
    else if fields[0].key == key then Some(fields[0].val)
    else Lookup(fields[1..], key)
  }

  /** `o.key` on a non-nullish `o`: a missing property, or any property of a
      primitive that the components read, is undefined. (Reading a property of
      undefined or null throws; callers check `Nullish` first.) */
  function Get(o: Value, key: string): Value {
    if o.Obj? then Lookup(o.fields, key).GetOr(Undefined) else Undefined
  }

  /** `{...o, key: v}` and `o.key = v`: overwrite the property in place, or add
      it at the end. */
  function Put(fields: seq<Field>, key: string, v: Value): (r: seq<Field>)
    ensures Lookup(r, key) == Some(v)
    ensures forall k :: k != key ==> Lookup(r, k) == Lookup(fields, k)
  {
    if fields == [] then [Field(key, v)]
    else if fields[0].key == key then [Field(key, v)] + fields[1..]
    else [fields[0]] + Put(fields[1..], key, v)
  }

  /** Every JavaScript object has distinct property names. */
  ghost predicate DistinctKeys(fields: seq<Field>) {
    forall i, j :: 0 <= i < j < |fields| ==> fields[i].key != fields[j].key
  }

  // ---------------------------------------------------------------------------
  // Decimal digits
  // ---------------------------------------------------------------------------

  predicate IsDigit(c: char) {
    '0' <= c <= '9'
  }

  function DigitChar(d: nat): (c: char)
    requires d < 10
    ensures IsDigit(c)
  {
    ('0' as int + d) as char
  }

  function DigitVal(c: char): nat
    requires IsDigit(c)
  {
    c as int - '0' as int
  }

  predicate AllDigits(s: string) {
    forall i | 0 <= i < |s| :: IsDigit(s[i])
  }

  /** The decimal numeral of `n`, without leading zeros. */
  function NatText(n: nat): string
    decreases n
  {
    if n < 10 then [DigitChar(n)] else NatText(n / 10) + [DigitChar(n % 10)]
  }

  /** `String(n)` for an integer `n`. */
  function IntText(n: int): string {
    if n < 0 then "-" + NatText(-n) else NatText(n)
  }

  /** The value of a string of decimal digits, read most significant first. */
  function DigitsVal(ds: string): nat
    requires AllDigits(ds)
  {
    if ds == [] then 0 else DigitsVal(ds[..|ds| - 1]) * 10 + DigitVal(ds[|ds| - 1])
  }

  /** The number of decimal digits `s` starts with. */
  function LeadingDigits(s: string): (k: nat)
    ensures k <= |s| && AllDigits(s[..k])
    ensures k < |s| ==> !IsDigit(s[k])
  {
    if s != [] && IsDigit(s[0]) then
      var k := 1 + LeadingDigits(s[1..]);
      assert s[..k] == [s[0]] + s[1..][..k - 1];
      k
    else 0
  }

  /** A numeral is a non-empty run of digits that reads back as its number. */
  lemma {:induction false} NatTextDigits(n: nat)
    ensures |NatText(n)| > 0 && AllDigits(NatText(n))
    ensures DigitsVal(NatText(n)) == n
    decreases n
  {
    if n >= 10 {
      NatTextDigits(n / 10);
      var t := NatText(n);
      assert t[..|t| - 1] == NatText(n / 10);
    }
  }

  /** A numeral followed by a non-digit is read back exactly, and the reader
      stops at its end. */
  lemma NatTextPrefix(n: nat, rest: string)
    requires rest == [] || !IsDigit(rest[0])
    ensures LeadingDigits(NatText(n) + rest) == |NatText(n)|
    ensures (NatText(n) + rest)[..|NatText(n)|] == NatText(n)
    ensures AllDigits(NatText(n)) && DigitsVal(NatText(n)) == n
  {
    NatTextDigits(n);
    var t := NatText(n);
    var s := t + rest;
    assert s[..|t|] == t;
    if rest != [] {
      assert s[|t|] == rest[0];
    }
  }

  // ---------------------------------------------------------------------------
  // String(v)
  // ---------------------------------------------------------------------------

  /** `String(v)`, which is also what `sessionStorage.setItem` stores. */
  function ToStr(v: Value): string
    decreases v, 1
  {
    match v
    case Undefined => "undefined"
    case Null => "null"
    case Bool(b) => if b then "true" else "false"
    case Num(n) => IntText(n)
    case NaN => "NaN"
    case Str(s) => s
    case Arr(items) => JoinItems(items)
    case Obj(_) => "[object Object]"
  }

  /** `Array.prototype.join(",")`, where undefined and null become "". */
  function JoinItems(items: seq<Value>): string
    decreases items, 0
  {
    if items == [] then ""
    else
      var head := if Nullish(items[0]) then "" else ToStr(items[0]);
      if |items| == 1 then head else head + "," + JoinItems(items[1..])
  }

  /** Only the string "admin" itself, or an array that joins to it, turns into
      the text "admin"; the same holds for any word that is not a numeral or a
      keyword (here: "user"). */
  lemma ToStrWord(v: Value, w: string)
    requires w == "admin" || w == "user"
    requires !v.Arr?
    ensures ToStr(v) == w <==> v == Str(w)
  {
    if v.Num? {
      var n := v.n;
      NatTextDigits(if n < 0 then -n else n);
      if n >= 0 {
        assert IsDigit(NatText(n)[0]);
      } else {
        assert ToStr(v)[0] == '-';
      }
    }
  }

  // ---------------------------------------------------------------------------
  // s.trim(), s.toLowerCase(), parseInt(v, 10)
  // ---------------------------------------------------------------------------

  /** ECMAScript white space and line terminators, which `trim` removes. */
  predicate IsJsSpace(c: char) {
    var k := c as int;
    (9 <= k <= 13) || k == 32 || k == 0xA0 || k == 0x1680 || (0x2000 <= k <= 0x200A)
    || k == 0x2028 || k == 0x2029 || k == 0x202F || k == 0x205F || k == 0x3000 || k == 0xFEFF
  }

  predicate AllSpace(s: string) {
    forall i | 0 <= i < |s| :: IsJsSpace(s[i])
  }

  /** `s` without its leading white space. */
  function TrimStart(s: string): string {
    if s != [] && IsJsSpace(s[0]) then TrimStart(s[1..]) else s
  }

  /** `s` without its trailing white space. */
  function TrimEnd(s: string): string {
    if s != [] && IsJsSpace(s[|s| - 1]) then TrimEnd(s[..|s| - 1]) else s
  }

  /** What `TrimStart` removes is a run of white space at the front, and what
      it keeps starts with a character that is not white space. */
  lemma {:induction false} TrimStartShape(s: string)
    ensures |TrimStart(s)| <= |s| && TrimStart(s) == s[|s| - |TrimStart(s)|..]
    ensures TrimStart(s) == [] || !IsJsSpace(TrimStart(s)[0])
    ensures AllSpace(s[..|s| - |TrimStart(s)|])
  {
    if s != [] && IsJsSpace(s[0]) {
      var r := TrimStart(s[1..]);
      TrimStartShape(s[1..]);
      assert s[..|s| - |r|] == [s[0]] + s[1..][..|s| - 1 - |r|];
    }
  }

  /** What `TrimEnd` removes is a run of white space at the back, and what
      it keeps ends with a character that is not white space. */
  lemma {:induction false} TrimEndShape(s: string)
    ensures |TrimEnd(s)| <= |s| && TrimEnd(s) == s[..|TrimEnd(s)|]
    ensures TrimEnd(s) == [] || !IsJsSpace(TrimEnd(s)[|TrimEnd(s)| - 1])
    ensures AllSpace(s[|TrimEnd(s)|..])
  {
    if s != [] && IsJsSpace(s[|s| - 1]) {
      var r := TrimEnd(s[..|s| - 1]);
      TrimEndShape(s[..|s| - 1]);
      assert s[|r|..] == s[..|s| - 1][|r|..] + [s[|s| - 1]];
    }
  }

  /** `s.trim()` */
  function Trim(s: string): string {
    TrimEnd(TrimStart(s))
  }

  lemma {:induction false} TrimStartEmpty(s: string)
    ensures TrimStart(s) == [] <==> AllSpace(s)
  {
    if s == [] {
    } else if IsJsSpace(s[0]) {
      var t := s[1..];
      TrimStartEmpty(t);
      assert TrimStart(s) == TrimStart(t);
      if AllSpace(t) {
        forall i | 0 <= i < |s| ensures IsJsSpace(s[i]) {
          if i > 0 { assert s[i] == t[i - 1]; }
        }
      } else {
        var j :| 0 <= j < |t| && !IsJsSpace(t[j]);
        assert s[j + 1] == t[j];
      }
    } else {
      assert TrimStart(s) == s;
    }
  }

  lemma {:induction false} TrimEndEmpty(s: string)
    ensures TrimEnd(s) == [] <==> AllSpace(s)
  {
    if s != [] && IsJsSpace(s[|s| - 1]) {
      var p := s[..|s| - 1];
      TrimEndEmpty(p);
      assert AllSpace(s) <==> AllSpace(p) by {
        if AllSpace(p) {
          forall i | 0 <= i < |s| ensures IsJsSpace(s[i]) {
            if i < |s| - 1 { assert s[i] == p[i]; }
          }
        }
      }
    }
  }

  /** `s.trim()` is empty exactly when `s` is all white space, and otherwise
      starts and ends with a character that is not white space. */
  lemma TrimEmpty(s: string)
    ensures Trim(s) == "" <==> AllSpace(s)
    ensures Trim(s) != "" ==> !IsJsSpace(Trim(s)[0]) && !IsJsSpace(Trim(s)[|Trim(s)| - 1])
  {
    var a := TrimStart(s);
    TrimStartEmpty(s);
    TrimEndEmpty(a);
    TrimStartShape(s);
    TrimEndShape(a);
    if a != [] {
      assert s[|s| - |a|] == a[0];
      var b := TrimEnd(a);
      if b != [] {
        assert b[0] == a[0];
      }
    }
  }

  /** `toLowerCase` on one character (ASCII letters only). */
  function LowerChar(c: char): char {
    if 'A' <= c <= 'Z' then (c as int + 32) as char else c
  }

  /** `s.toLowerCase()` */
  function ToLower(s: string): string {
    seq(|s|, i requires 0 <= i < |s| => LowerChar(s[i]))
  }

  /** `parseInt(text, 10)`: optional leading white space and sign, then the
      longest run of decimal digits; NaN when there is none. */
  function ParseIntText(s: string): Value {
    var t := TrimStart(s);
    var signed := |t| > 0 && (t[0] == '-' || t[0] == '+');
    var body := if signed then t[1..] else t;
    var k := LeadingDigits(body);
    if k == 0 then NaN
    else if signed && t[0] == '-' then Num(-(DigitsVal(body[..k]) as int))
    else Num(DigitsVal(body[..k]))
  }

  /** `parseInt(v, 10)`: the argument is first turned into a string. */
  function ParseInt(v: Value): Value {
    ParseIntText(ToStr(v))
  }

  /** `parseInt` gives back every integer it is handed. */
  lemma ParseIntNum(n: int)
    ensures ParseInt(Num(n)) == Num(n)
  {
    var m := if n < 0 then -n else n;
    NatTextPrefix(m, "");
    assert NatText(m) + "" == NatText(m);
    var t := IntText(n);
    assert ToStr(Num(n)) == t;
    if n < 0 {
      assert t[0] == '-';
      assert TrimStart(t) == t;
      assert t[1..] == NatText(m);
    } else {
      assert IsDigit(t[0]);
      assert TrimStart(t) == t;
    }
  }
}

=== FILE: json.dfy ===
/**
  `JSON.stringify` and `JSON.parse`, as the frontend uses them to keep the
  logged-in user in sessionStorage, and the round trip between them:
  parsing the text of a value gives back the value as JSON sees it (undefined
  properties dropped, undefined array slots and NaN turned into null).

  The text is JSON exactly as `JSON.stringify` writes it without indentation.
  The parser reads that form: no white space between tokens, integers only.
 */
module Json {
  import opened Wrappers
  import opened JsValue

  // ---------------------------------------------------------------------------
  // JSON.stringify
  // ---------------------------------------------------------------------------

  function HexChar(d: nat): char
    requires d < 16
  {
    if d < 10 then DigitChar(d) else ('a' as int + (d - 10)) as char
  }

  /** How `JSON.stringify` writes one character inside a string literal. */
  function EscapeChar(c: char): string {
    var k := c as int;
    if c == '"' then ['\\', '"']
    else if c == '\\' then ['\\', '\\']
    else if k == 8 then ['\\', 'b']
    else if k == 9 then ['\\', 't']
    else if k == 10 then ['\\', 'n']
    else if k == 12 then ['\\', 'f']
    else if k == 13 then ['\\', 'r']
    else if k < 32 then ['\\', 'u', '0', '0', HexChar(k / 16), HexChar(k % 16)]
    else [c]
  }

  function EscapeString(s: string): string {
    if s == [] then [] else EscapeChar(s[0]) + EscapeString(s[1..])
  }

  function Quote(s: string): string {
    ['"'] + EscapeString(s) + ['"']
  }

  /** The JSON text of `v` as an array element or property value: undefined
      and NaN are written as null. */
  function Encode(v: Value): string
    decreases v, 1
  {
    match v
    case Undefined => "null"
    case Null => "null"
    case NaN => "null"
    case Bool(b) => if b then "true" else "false"
    case Num(n) => IntText(n)
    case Str(s) => Quote(s)
    case Arr(items) => "[" + EncodeItems(items)
    case Obj(fields) => "{" + EncodeMembers(fields)
  }

  /** The elements of an array and the closing bracket. */
  function EncodeItems(items: seq<Value>): string
    decreases items, 0
  {
    if items == [] then "]" else Encode(items[0]) + EncodeMoreItems(items[1..])
  }

  function EncodeMoreItems(items: seq<Value>): string
    decreases items, 0
  {
    if items == [] then "]" else "," + Encode(items[0]) + EncodeMoreItems(items[1..])
  }

  function EncodeMember(f: Field): string
    decreases f, 0
  {
    Quote(f.key) + ":" + Encode(f.val)
  }

  /** The properties of an object and the closing brace; properties whose value
      is undefined are left out. */
  function EncodeMembers(fields: seq<Field>): string
    decreases fields, 0
  {
    if fields == [] then "}"
    else if fields[0].val.Undefined? then EncodeMembers(fields[1..])
    else EncodeMember(fields[0]) + EncodeMoreMembers(fields[1..])
  }

  function EncodeMoreMembers(fields: seq<Field>): string
    decreases fields, 0
  {
    if fields == [] then "}"
    else if fields[0].val.Undefined? then EncodeMoreMembers(fields[1..])
    else "," + EncodeMember(fields[0]) + EncodeMoreMembers(fields[1..])
  }

  /** `JSON.stringify(v)`: undefined has no JSON text. */
  function Stringify(v: Value): (r: Option<string>)
    ensures r.None? <==> v.Undefined?
    ensures r.Some? ==> Parse(r.value) == Some(View(v))
  {
    if v.Undefined? then None
    else
      ValueRoundTrip(v, []);
      assert Encode(v) + [] == Encode(v);
      Some(Encode(v))
  }

  // ---------------------------------------------------------------------------
  // What a value looks like after a trip through JSON
  // ---------------------------------------------------------------------------

  function View(v: Value): Value
    decreases v, 1
  {
    match v
    case Undefined => Null
    case NaN => Null
    case Arr(items) => Arr(ViewItems(items))
    case Obj(fields) => Obj(ViewFields(fields))
    case _ => v
  }

  function ViewItems(items: seq<Value>): seq<Value>
    decreases items, 0
  {
    if items == [] then [] else [View(items[0])] + ViewItems(items[1..])
  }

  function ViewFields(fields: seq<Field>): seq<Field>
    decreases fields, 0
  {
    if fields == [] then []
    else if fields[0].val.Undefined? then ViewFields(fields[1..])
    else [Field(fields[0].key, View(fields[0].val))] + ViewFields(fields[1..])
  }

  /** What reading property `key` gives after the trip: undefined stays
      undefined (the property is gone), anything else is its view. */
  function PropertyView(v: Value): Value {
    if v.Undefined? then Undefined else View(v)
  }

  // ---------------------------------------------------------------------------
  // JSON.parse
  // ---------------------------------------------------------------------------

  function HexVal(c: char): (r: Option<nat>)
    ensures r.Some? ==> r.value < 16
  {
    if '0' <= c <= '9' then Some(c as int - '0' as int)
    else if 'a' <= c <= 'f' then Some(c as int - 'a' as int + 10)
    else if 'A' <= c <= 'F' then Some(c as int - 'A' as int + 10)
    else None
  }

  /** The character named by the four hex digits of a `\uXXXX` escape; a lone
      surrogate half is refused. */
  function HexQuad(h: string): Option<char>
    requires |h| == 4
  {
    match (HexVal(h[0]), HexVal(h[1]), HexVal(h[2]), HexVal(h[3]))
    case (Some(a), Some(b), Some(c), Some(d)) =>
      var k := ((a * 16 + b) * 16 + c) * 16 + d;
      if 0xD800 <= k < 0xE000 then None else Some(k as char)
    case _ => None
  }

  /** The character named by a one-letter escape `\x`. */
  function SimpleEscape(c: char): Option<char> {
    if c == '"' then Some('"')
    else if c == '\\' then Some('\\')
    else if c == '/' then Some('/')
    else if c == 'b' then Some(8 as char)
    else if c == 't' then Some(9 as char)
    else if c == 'n' then Some(10 as char)
    else if c == 'f' then Some(12 as char)
    else if c == 'r' then Some(13 as char)
    else None
  }

  function Prepend(c: char, r: Option<(string, string)>): Option<(string, string)> {
    match r
    case None => None
    case Some((t, rest)) => Some(([c] + t, rest))
  }

  /** The body of a string literal up to and including its closing quote:
      the characters it denotes and the text after it. */
  function ParseChars(s: string): (r: Option<(string, string)>)
    ensures r.Some? ==> |r.value.1| < |s|
  {
    if s == [] then None
    else if s[0] == '"' then Some(([], s[1..]))
    else if s[0] == '\\' then
      if |s| >= 2 && SimpleEscape(s[1]).Some? then
        Prepend(SimpleEscape(s[1]).value, ParseChars(s[2..]))
      else if |s| >= 6 && s[1] == 'u' && HexQuad(s[2..6]).Some? then
        Prepend(HexQuad(s[2..6]).value, ParseChars(s[6..]))
      else None
    else if (s[0] as int) < 32 then None
    else Prepend(s[0], ParseChars(s[1..]))
  }

  /** An integer: an optional minus sign and digits without a leading zero. */
  function ParseNumber(s: string): (r: Option<(Value, string)>)
    ensures r.Some? ==> |r.value.1| < |s| && r.value.0.Num?
  {
    var neg := s != [] && s[0] == '-';
    var body := if neg then s[1..] else s;
    var k := LeadingDigits(body);
    if k == 0 || (k > 1 && body[0] == '0') then None
    else
      var m := DigitsVal(body[..k]);
      Some((Num(if neg then -(m as int) else m), body[k..]))
  }

  function ParseLiteral(s: string, word: string, v: Value): Option<(Value, string)>
    requires |word| > 0
  {
    if |s| >= |word| && s[..|word|] == word then Some((v, s[|word|..])) else None
  }

  /** One JSON value at the start of `s`, and the text after it. */
  function ParseValue(s: string): (r: Option<(Value, string)>)
    ensures r.Some? ==> |r.value.1| < |s|
    ensures r.Some? ==> !r.value.0.Undefined? && !r.value.0.NaN?
    decreases |s|, 0
  {
    if s == [] then None
    else if s[0] == 'n' then ParseLiteral(s, "null", Null)
    else if s[0] == 't' then ParseLiteral(s, "true", Bool(true))
    else if s[0] == 'f' then ParseLiteral(s, "false", Bool(false))
    else if s[0] == '"' then
      match ParseChars(s[1..])
      case Some((str, rest)) => Some((Str(str), rest))
      case None => None
    else if s[0] == '-' || IsDigit(s[0]) then ParseNumber(s)
    else if s[0] == '[' then
      match ParseItems(s[1..])
      case Some((items, rest)) => Some((Arr(items), rest))
      case None => None
    else if s[0] == '{' then
      match ParseMembers(s[1..])
      case Some((fields, rest)) => Some((Obj(fields), rest))
      case None => None
    else None
  }

  /** The elements of an array after its `[`, through the closing `]`. */
  function ParseItems(s: string): (r: Option<(seq<Value>, string)>)
    ensures r.Some? ==> |r.value.1| < |s|
    decreases |s|, 1
  {
    if s != [] && s[0] == ']' then Some(([], s[1..]))
    else
      match ParseValue(s)
      case None => None
      case Some((v, rest)) =>
        match ParseMoreItems(rest)
        case None => None
        case Some((vs, rest')) => Some(([v] + vs, rest'))
  }

  function ParseMoreItems(s: string): (r: Option<(seq<Value>, string)>)
    ensures r.Some? ==> |r.value.1| < |s|
    decreases |s|, 1
  {
    if s == [] then None
    else if s[0] == ']' then Some(([], s[1..]))
    else if s[0] == ',' then
      match ParseValue(s[1..])
      case None => None
      case Some((v, rest)) =>
        match ParseMoreItems(rest)
        case None => None
        case Some((vs, rest')) => Some(([v] + vs, rest'))
    else None
  }

  /** One `"key":value` property. */
  function ParseMember(s: string): (r: Option<(Field, string)>)
    ensures r.Some? ==> |r.value.1| < |s|
    decreases |s|, 1
  {
    if s == [] || s[0] != '"' then None
    else
      match ParseChars(s[1..])
      case None => None
      case Some((key, rest)) =>
        if rest == [] || rest[0] != ':' then None
        else
          match ParseValue(rest[1..])
          case None => None
          case Some((v, rest')) => Some((Field(key, v), rest'))
  }

  /** The properties of an object after its `{`, through the closing `}`. */
  function ParseMembers(s: string): (r: Option<(seq<Field>, string)>)
    ensures r.Some? ==> |r.value.1| < |s|
    decreases |s|, 2
  {
    if s != [] && s[0] == '}' then Some(([], s[1..]))
    else
      match ParseMember(s)
      case None => None
      case Some((f, rest)) =>
        match ParseMoreMembers(rest)
        case None => None
        case Some((fs, rest')) => Some(([f] + fs, rest'))
  }

  function ParseMoreMembers(s: string): (r: Option<(seq<Field>, string)>)
    ensures r.Some? ==> |r.value.1| < |s|
    decreases |s|, 2
  {
    if s == [] then None
    else if s[0] == '}' then Some(([], s[1..]))
    else if s[0] == ',' then
      match ParseMember(s[1..])
      case None => None
      case Some((f, rest)) =>
        match ParseMoreMembers(rest)
        case None => None
        case Some((fs, rest')) => Some(([f] + fs, rest'))
    else None
  }

  /** `JSON.parse(text)`; None where it throws. */
  function Parse(text: string): (r: Option<Value>)
    ensures text == [] ==> r.None?
    ensures r.Some? ==> !r.value.Undefined? && !r.value.NaN?
  {
    match ParseValue(text)
    case Some((v, rest)) => if rest == [] then Some(v) else None
    case None => None
  }

  // ---------------------------------------------------------------------------
  // The round trip
  // ---------------------------------------------------------------------------

  /** What may follow a value inside JSON text. */
  predicate Follows(rest: string) {
    rest == [] || rest[0] == ',' || rest[0] == ']' || rest[0] == '}'
  }

  lemma HexRoundTrip(k: nat)
    requires k < 32
    ensures HexQuad(['0', '0', HexChar(k / 16), HexChar(k % 16)]) == Some(k as char)
  {
  }

  /** A two-character escape `\\e` reads back as the character it names. */
  lemma ShortEscapeRoundTrip(c: char, e: char, tail: string)
    requires SimpleEscape(e) == Some(c)
    ensures ParseChars(['\\', e] + tail) == Prepend(c, ParseChars(tail))
  {
    assert (['\\', e] + tail)[2..] == tail;
  }

  /** A `\\u00XX` escape of a control character reads back as that character. */
  lemma UnicodeEscapeRoundTrip(k: nat, tail: string)
    requires k < 32
    ensures ParseChars(['\\', 'u', '0', '0', HexChar(k / 16), HexChar(k % 16)] + tail)
            == Prepend(k as char, ParseChars(tail))
  {
    var s := ['\\', 'u', '0', '0', HexChar(k / 16), HexChar(k % 16)] + tail;
    HexRoundTrip(k);
    assert s[2..6] == ['0', '0', HexChar(k / 16), HexChar(k % 16)];
    assert s[6..] == tail;
  }

  /** A character written as itself reads back as itself. */
  lemma PlainCharRoundTrip(c: char, tail: string)
    requires c != '"' && c != '\\' && c as int >= 32
    ensures ParseChars([c] + tail) == Prepend(c, ParseChars(tail))
  {
    assert ([c] + tail)[1..] == tail;
  }

  lemma EscapeCharRoundTrip(c: char, tail: string)
    ensures ParseChars(EscapeChar(c) + tail) == Prepend(c, ParseChars(tail))
  {
    var k := c as int;
    if c == '"' {
      ShortEscapeRoundTrip(c, '"', tail);
    } else if c == '\\' {
      ShortEscapeRoundTrip(c, '\\', tail);
    } else if k == 8 {
      ShortEscapeRoundTrip(c, 'b', tail);
    } else if k == 9 {
      ShortEscapeRoundTrip(c, 't', tail);
    } else if k == 10 {
      ShortEscapeRoundTrip(c, 'n', tail);
    } else if k == 12 {
      ShortEscapeRoundTrip(c, 'f', tail);
    } else if k == 13 {
      ShortEscapeRoundTrip(c, 'r', tail);
    } else if k < 32 {
      UnicodeEscapeRoundTrip(k, tail);
    } else {
      PlainCharRoundTrip(c, tail);
    }
  }

  /** A string literal written by `JSON.stringify` reads back as the same
      string, and parsing stops right after its closing quote. */
  lemma {:induction false} StringRoundTrip(str: string, rest: string)
    ensures ParseChars(EscapeString(str) + ['"'] + rest) == Some((str, rest))
  {
    if str == [] {
      assert EscapeString(str) + ['"'] + rest == ['"'] + rest;
    } else {
      var tail := EscapeString(str[1..]) + ['"'] + rest;
      assert EscapeString(str) + ['"'] + rest == EscapeChar(str[0]) + tail;
      EscapeCharRoundTrip(str[0], tail);
      StringRoundTrip(str[1..], rest);
      assert [str[0]] + str[1..] == str;
    }
  }

  lemma QuoteRoundTrip(str: string, rest: string)
    ensures (Quote(str) + rest)[0] == '"'
    ensures ParseChars((Quote(str) + rest)[1..]) == Some((str, rest))
  {
    assert (Quote(str) + rest)[1..] == EscapeString(str) + ['"'] + rest;
    StringRoundTrip(str, rest);
  }

  /** A numeral never starts with 0 unless it is "0". */
  lemma {:induction false} NatTextNoLeadingZero(n: nat)
    ensures n >= 10 ==> NatText(n)[0] != '0'
    decreases n
  {
    if n >= 10 {
      NatTextNoLeadingZero(n / 10);
      NatTextDigits(n / 10);
      assert NatText(n)[0] == NatText(n / 10)[0];
    }
  }

  /** The digits of a numeral followed by what may follow a value: the reader
      takes exactly the numeral, which has no leading zero. */
  lemma NumeralBody(m: nat, rest: string)
    requires Follows(rest)
    ensures var body := NatText(m) + rest;
            var k := LeadingDigits(body);
            k == |NatText(m)| && k > 0 && !(k > 1 && body[0] == '0')
            && DigitsVal(body[..k]) == m && body[k..] == rest
  {
    NatTextPrefix(m, rest);
    NatTextNoLeadingZero(m);
    var body := NatText(m) + rest;
    assert body[|NatText(m)|..] == rest;
    assert body[0] == NatText(m)[0];
  }

  lemma NatNumberRoundTrip(m: nat, rest: string)
    requires Follows(rest)
    ensures ParseNumber(NatText(m) + rest) == Some((Num(m), rest))
  {
    NumeralBody(m, rest);
    NatTextDigits(m);
    var s := NatText(m) + rest;
    assert s[0] == NatText(m)[0];
    assert s[0] != '-';
  }

  lemma NegNumberRoundTrip(m: nat, rest: string)
    requires Follows(rest) && m > 0
    ensures ParseNumber("-" + NatText(m) + rest) == Some((Num(-(m as int)), rest))
  {
    NumeralBody(m, rest);
    var body := NatText(m) + rest;
    var s := "-" + body;
    assert s == "-" + NatText(m) + rest;
    assert s[0] == '-' && s[1..] == body;
  }

  lemma NumberRoundTrip(n: int, rest: string)
    requires Follows(rest)
    ensures ParseValue(IntText(n) + rest) == Some((Num(n), rest))
  {
    if n < 0 {
      NegNumberRoundTrip(-n, rest);
      assert ("-" + NatText(-n) + rest)[0] == '-';
    } else {
      NatNumberRoundTrip(n, rest);
      NatTextDigits(n);
      assert (NatText(n) + rest)[0] == NatText(n)[0];
    }
  }

  /** A literal word reads back as its value. */
  lemma LiteralRoundTrip(word: string, v: Value, rest: string)
    requires |word| > 0
    ensures ParseLiteral(word + rest, word, v) == Some((v, rest))
  {
    assert (word + rest)[..|word|] == word;
    assert (word + rest)[|word|..] == rest;
  }

  lemma StrValueRoundTrip(str: string, rest: string)
    ensures ParseValue(Encode(Str(str)) + rest) == Some((Str(str), rest))
  {
    QuoteRoundTrip(str, rest);
  }

  lemma {:induction false} ArrValueRoundTrip(items: seq<Value>, rest: string)
    ensures ParseValue(Encode(Arr(items)) + rest) == Some((Arr(ViewItems(items)), rest))
    decreases items, 1
  {
    var s := Encode(Arr(items)) + rest;
    assert s == "[" + (EncodeItems(items) + rest);
    assert s[0] == '[' && s[1..] == EncodeItems(items) + rest;
    ItemsRoundTrip(items, rest);
  }

  lemma {:induction false} ObjValueRoundTrip(fields: seq<Field>, rest: string)
    ensures ParseValue(Encode(Obj(fields)) + rest) == Some((Obj(ViewFields(fields)), rest))
    decreases fields, 1
  {
    var s := Encode(Obj(fields)) + rest;
    assert s == "{" + (EncodeMembers(fields) + rest);
    assert s[0] == '{' && s[1..] == EncodeMembers(fields) + rest;
    MembersRoundTrip(fields, rest);
  }

  /** Parsing the text of any value, followed by anything that may follow a
      value, gives back the value as JSON sees it and the text after it. */
  lemma {:induction false} ValueRoundTrip(v: Value, rest: string)
    requires Follows(rest)
    ensures ParseValue(Encode(v) + rest) == Some((View(v), rest))
    decreases v, 2
  {
    match v
    case Undefined =>
      LiteralRoundTrip("null", Null, rest);
    case Null =>
      LiteralRoundTrip("null", Null, rest);
    case NaN =>
      LiteralRoundTrip("null", Null, rest);
    case Bool(b) =>
      if b {
        LiteralRoundTrip("true", v, rest);
      } else {
        LiteralRoundTrip("false", v, rest);
      }
    case Num(n) =>
      NumberRoundTrip(n, rest);
    case Str(str) =>
      StrValueRoundTrip(str, rest);
    case Arr(items) =>
      ArrValueRoundTrip(items, rest);
    case Obj(fields) =>
      ObjValueRoundTrip(fields, rest);
  }

  /** The text of a value is never empty and never starts with a closing
      bracket or brace. */
  lemma EncodeStart(v: Value)
    ensures |Encode(v)| > 0 && Encode(v)[0] != ']' && Encode(v)[0] != '}'
  {
    if v.Num? {
      var n := v.n;
      NatTextDigits(if n < 0 then -n else n);
      if n >= 0 {
        assert IsDigit(NatText(n)[0]);
      }
    }
  }

  lemma {:induction false} ItemsRoundTrip(items: seq<Value>, rest: string)
    ensures ParseItems(EncodeItems(items) + rest) == Some((ViewItems(items), rest))
    decreases items, 0
  {
    if items == [] {
      assert (EncodeItems(items) + rest)[1..] == rest;
    } else {
      var more := EncodeMoreItems(items[1..]) + rest;
      var s := EncodeItems(items) + rest;
      assert s == Encode(items[0]) + more;
      EncodeStart(items[0]);
      assert s[0] == Encode(items[0])[0];
      MoreItemsStart(items[1..], rest);
      ValueRoundTrip(items[0], more);
      MoreItemsRoundTrip(items[1..], rest);
      assert ViewItems(items) == [View(items[0])] + ViewItems(items[1..]);
    }
  }

  lemma MoreItemsStart(items: seq<Value>, rest: string)
    ensures Follows(EncodeMoreItems(items) + rest)
  {
  }

  lemma {:induction false} MoreItemsRoundTrip(items: seq<Value>, rest: string)
    ensures ParseMoreItems(EncodeMoreItems(items) + rest) == Some((ViewItems(items), rest))
    decreases items, 0
  {
    if items == [] {
      assert (EncodeMoreItems(items) + rest)[1..] == rest;
    } else {
      var more := EncodeMoreItems(items[1..]) + rest;
      var s := EncodeMoreItems(items) + rest;
      assert s == "," + (Encode(items[0]) + more);
      assert s[0] == ',' && s[1..] == Encode(items[0]) + more;
      MoreItemsStart(items[1..], rest);
      ValueRoundTrip(items[0], more);
      MoreItemsRoundTrip(items[1..], rest);
      assert ViewItems(items) == [View(items[0])] + ViewItems(items[1..]);
    }
  }

  lemma MoreMembersStart(fields: seq<Field>, rest: string)
    ensures Follows(EncodeMoreMembers(fields) + rest)
    decreases |fields|
  {
    if fields != [] && fields[0].val.Undefined? {
      MoreMembersStart(fields[1..], rest);
    }
  }

  lemma MemberRoundTrip(f: Field, rest: string)
    requires !f.val.Undefined?
    requires Follows(rest)
    ensures ParseMember(EncodeMember(f) + rest) == Some((Field(f.key, View(f.val)), rest))
    decreases f, 0
  {
    var after := ":" + (Encode(f.val) + rest);
    var s := EncodeMember(f) + rest;
    assert s == Quote(f.key) + after;
    QuoteRoundTrip(f.key, after);
    assert s[0] == '"' && ParseChars(s[1..]) == Some((f.key, after));
    assert after[0] == ':' && after[1..] == Encode(f.val) + rest;
    ValueRoundTrip(f.val, rest);
    assert ParseValue(after[1..]) == Some((View(f.val), rest));
  }

  lemma {:induction false} MembersRoundTrip(fields: seq<Field>, rest: string)
    ensures ParseMembers(EncodeMembers(fields) + rest) == Some((ViewFields(fields), rest))
    decreases fields, 0
  {
    if fields == [] {
      assert (EncodeMembers(fields) + rest)[1..] == rest;
    } else if fields[0].val.Undefined? {
      MembersRoundTrip(fields[1..], rest);
    } else {
      var more := EncodeMoreMembers(fields[1..]) + rest;
      assert EncodeMembers(fields) + rest == EncodeMember(fields[0]) + more;
      MoreMembersStart(fields[1..], rest);
      MemberRoundTrip(fields[0], more);
      MoreMembersRoundTrip(fields[1..], rest);
    }
  }

  lemma {:induction false} MoreMembersRoundTrip(fields: seq<Field>, rest: string)
    ensures ParseMoreMembers(EncodeMoreMembers(fields) + rest) == Some((ViewFields(fields), rest))
    decreases fields, 1
  {
    if fields == [] {
      assert (EncodeMoreMembers(fields) + rest)[1..] == rest;
    } else if fields[0].val.Undefined? {
      assert EncodeMoreMembers(fields) == EncodeMoreMembers(fields[1..]);
      assert ViewFields(fields) == ViewFields(fields[1..]);
      MoreMembersRoundTrip(fields[1..], rest);
    } else {
      MoreMembersStep(fields, rest);
    }
  }

  /** The parser's step over `,` and one more property. */
  lemma ParseNextMember(m: string, f: Field, more: string, fs: seq<Field>, rest: string)
    requires ParseMember(m) == Some((f, more))
    requires ParseMoreMembers(more) == Some((fs, rest))
    ensures ParseMoreMembers("," + m) == Some(([f] + fs, rest))
  {
    assert ("," + m)[1..] == m;
  }

  lemma {:induction false} MoreMembersStep(fields: seq<Field>, rest: string)
    requires fields != [] && !fields[0].val.Undefined?
    ensures ParseMoreMembers(EncodeMoreMembers(fields) + rest) == Some((ViewFields(fields), rest))
    decreases fields, 0
  {
    var more := EncodeMoreMembers(fields[1..]) + rest;
    var m := EncodeMember(fields[0]) + more;
    assert EncodeMoreMembers(fields) + rest == "," + m;
    MoreMembersStart(fields[1..], rest);
    MemberRoundTrip(fields[0], more);
    MoreMembersRoundTrip(fields[1..], rest);
    ParseNextMember(m, Field(fields[0].key, View(fields[0].val)), more, ViewFields(fields[1..]), rest);
  }

  /** `JSON.parse(JSON.stringify(v))` gives back `v` as JSON sees it. */
  lemma RoundTrip(v: Value)
    requires !v.Undefined?
    ensures Stringify(v).Some? && Parse(Stringify(v).value) == Some(View(v))
  {
    ValueRoundTrip(v, []);
    assert Encode(v) + [] == Encode(v);
  }

  // ---------------------------------------------------------------------------
  // Reading a property after the round trip
  // ---------------------------------------------------------------------------

  lemma {:induction false} ViewFieldsAbsent(fields: seq<Field>, key: string)
    requires Lookup(fields, key).None?
    ensures Lookup(ViewFields(fields), key).None?
  {
    if fields != [] {
      ViewFieldsAbsent(fields[1..], key);
    }
  }

  /** On an object (distinct property names), reading a property after the
      trip through JSON gives the view of what it held before. */
  lemma {:induction false} GetAfterRoundTrip(fields: seq<Field>, key: string)
    requires DistinctKeys(fields)
    ensures Get(View(Obj(fields)), key) == PropertyView(Get(Obj(fields), key))
  {
    if fields != [] {
      var tail := fields[1..];
      assert DistinctKeys(tail) by {
        forall i, j | 0 <= i < j < |tail| ensures tail[i].key != tail[j].key {
          assert tail[i] == fields[i + 1] && tail[j] == fields[j + 1];
        }
      }
      GetAfterRoundTrip(tail, key);
      if fields[0].key == key && fields[0].val.Undefined? {
        assert Lookup(tail, key).None? by {
          if Lookup(tail, key).Some? {
            var j := LookupIndex(tail, key);
          }
        }
        ViewFieldsAbsent(tail, key);
      }
    }
  }

  /** Where `Lookup` found its property. */
  lemma {:induction false} LookupIndex(fields: seq<Field>, key: string) returns (j: nat)
    requires Lookup(fields, key).Some?
    ensures j < |fields| && fields[j].key == key
  {
    if fields[0].key == key {
      j := 0;
    } else {
      var i := LookupIndex(fields[1..], key);
      j := i + 1;
    }
  }
}

=== FILE: settings.dfy ===
/**
  The account settings page (frontend/src/app/components/settings/
  settings.component.ts): grouping the user's comments by post, the wishlist
  mapping, the password change, and the tab switching.

  HTTP replies are parameters; each handler and the callback of its request
  run as one step.
 */
module Settings {
  import opened Wrappers
  import opened JsValue

  // ---------------------------------------------------------------------------
  // Comment grouping
  // ---------------------------------------------------------------------------

  /** A row of the user-comments reply: the fields the grouping reads. */
  datatype UserComment = UserComment(postId: Value, postTitle: Value, message: Value, commentDate: Value)

  /** What a group keeps of a comment. */
  datatype CommentEntry = CommentEntry(message: Value, commentDate: Value)

  /** One post and the user's comments on it. */
  datatype CommentGroup = CommentGroup(postId: Value, postTitle: Value, comments: seq<CommentEntry>)

  function EntryOf(c: UserComment): CommentEntry {
    CommentEntry(c.message, c.commentDate)
  }

  function PostIds(cs: seq<UserComment>): seq<Value> {
    seq(|cs|, i requires 0 <= i < |cs| => cs[i].postId)
  }

  predicate NoDuplicates(ks: seq<Value>) {
    forall i, j :: 0 <= i < j < |ks| ==> ks[i] != ks[j]
  }

  /** The keys in the order they first occur, each once. */
  function Distinct(ks: seq<Value>): seq<Value> {
    if ks == [] then []
    else
      var d := Distinct(ks[..|ks| - 1]);
      if ks[|ks| - 1] in d then d else d + [ks[|ks| - 1]]
  }

  /** The position where `k` first occurs, or the length when it does not. */
  function FirstIndex(ks: seq<Value>, k: Value): (i: nat)
    ensures i <= |ks|
    ensures i < |ks| ==> ks[i] == k
    ensures forall j :: 0 <= j < i ==> ks[j] != k
  {
    if ks == [] then 0
    else if ks[0] == k then 0
    else 1 + FirstIndex(ks[1..], k)
  }

  /** The title of the first comment on post `key`. */
  function FirstTitle(cs: seq<UserComment>, key: Value): Value {
    if cs == [] then Undefined
    else if cs[0].postId == key then cs[0].postTitle
    else FirstTitle(cs[1..], key)
  }

  /** The entries of the comments on post `key`, in input order. */
  function EntriesOf(cs: seq<UserComment>, key: Value): (r: seq<CommentEntry>)
    ensures |r| <= |cs|
  {
    if cs == [] then []
    else
      var last := cs[|cs| - 1];
      EntriesOf(cs[..|cs| - 1], key) + (if last.postId == key then [EntryOf(last)] else [])
  }

  /** The group for post `key`. */
  function GroupFor(cs: seq<UserComment>, key: Value): CommentGroup {
    CommentGroup(key, FirstTitle(cs, key), EntriesOf(cs, key))
  }

  /** The groups `loadUserData` should build: one per distinct post id, in
      the order the ids first occur, titled after the first comment on that
      post, holding every comment on that post in input order. */
  function Grouping(cs: seq<UserComment>): (gs: seq<CommentGroup>)
    ensures |gs| == |Distinct(PostIds(cs))|
  {
    var keys := Distinct(PostIds(cs));
    seq(|keys|, j requires 0 <= j < |keys| => GroupFor(cs, keys[j]))
  }

  /** `groupedMap.has(key)` / `groupedMap.get(key)`: the position of the
      group for `key`, or the number of groups when there is none. */
  function GroupIndex(gs: seq<CommentGroup>, key: Value): (k: nat)
    ensures k <= |gs|
    ensures k < |gs| ==> gs[k].postId == key
  {
    if gs == [] then 0
    else if gs[0].postId == key then 0
    else 1 + GroupIndex(gs[1..], key)
  }

  /** One turn of the grouping loop on the groups built so far: the group
      for the comment's post is created, titled after this comment, when
      there is none yet, and the comment's entry is appended to it. */
  function AddToGroups(gs: seq<CommentGroup>, c: UserComment): (r: seq<CommentGroup>)
    ensures |r| == if GroupIndex(gs, c.postId) == |gs| then |gs| + 1 else |gs|
  {
    var k := GroupIndex(gs, c.postId);
    var gs1 := if k == |gs| then gs + [CommentGroup(c.postId, c.postTitle, [])] else gs;
    gs1[k := gs1[k].(comments := gs1[k].comments + [EntryOf(c)])]
  }

  /** The comment-grouping loop of `loadUserData`. */
  method GroupByPost(cs: seq<UserComment>) returns (groups: seq<CommentGroup>)
    ensures groups == Grouping(cs)
  {
    groups := [];
    for i := 0 to |cs|
      invariant groups == Grouping(cs[..i])
    {
      var c := cs[i];
      ghost var before := groups;
      var k := GroupIndex(groups, c.postId);
      if k == |groups| {
        groups := groups + [CommentGroup(c.postId, c.postTitle, [])];
      }
      groups := groups[k := groups[k].(comments := groups[k].comments + [EntryOf(c)])];
      assert groups == AddToGroups(before, c);
      GroupingStep(cs[..i], c);
      assert cs[..i + 1] == cs[..i] + [c];
    }
    assert cs[..|cs|] == cs;
  }

  // Facts about the specification functions.

  lemma {:induction false} DistinctMembers(ks: seq<Value>)
    ensures forall k :: k in Distinct(ks) <==> k in ks
  {
    if ks != [] {
      DistinctMembers(ks[..|ks| - 1]);
      assert forall x :: x in ks <==> x in ks[..|ks| - 1] || x == ks[|ks| - 1];
    }
  }

  lemma {:induction false} DistinctNoDuplicates(ks: seq<Value>)
    ensures NoDuplicates(Distinct(ks))
  {
    if ks != [] {
      DistinctNoDuplicates(ks[..|ks| - 1]);
    }
  }

  lemma DistinctAppend(ks: seq<Value>, x: Value)
    ensures Distinct(ks + [x]) == if x in ks then Distinct(ks) else Distinct(ks) + [x]
  {
    assert (ks + [x])[..|ks|] == ks;
    DistinctMembers(ks);
  }

  lemma PostIdsAppend(cs: seq<UserComment>, c: UserComment)
    ensures PostIds(cs + [c]) == PostIds(cs) + [c.postId]
  {
  }

  lemma {:induction false} FirstIndexAppend(ks: seq<Value>, x: Value, k: Value)
    requires k in ks
    ensures FirstIndex(ks + [x], k) == FirstIndex(ks, k)
  {
    if ks[0] != k {
      assert (ks + [x])[1..] == ks[1..] + [x];
      FirstIndexAppend(ks[1..], x, k);
    }
  }

  lemma {:induction false} FirstTitleAppend(cs: seq<UserComment>, c: UserComment, key: Value)
    ensures FirstTitle(cs + [c], key) ==
              if key in PostIds(cs) then FirstTitle(cs, key)
              else if c.postId == key then c.postTitle
              else Undefined
  {
    if cs == [] {
      assert [c][1..] == [];
    } else {
      assert (cs + [c])[1..] == cs[1..] + [c];
      FirstTitleAppend(cs[1..], c, key);
      assert PostIds(cs) == [cs[0].postId] + PostIds(cs[1..]);
    }
  }

  lemma {:induction false} EntriesOfAbsent(cs: seq<UserComment>, key: Value)
    requires key !in PostIds(cs)
    ensures EntriesOf(cs, key) == []
  {
    if cs != [] {
      var init := cs[..|cs| - 1];
      assert PostIds(cs) == PostIds(init) + [cs[|cs| - 1].postId];
      EntriesOfAbsent(init, key);
    }
  }

  lemma EntriesOfAppend(cs: seq<UserComment>, c: UserComment, key: Value)
    ensures EntriesOf(cs + [c], key) == EntriesOf(cs, key) + (if c.postId == key then [EntryOf(c)] else [])
  {
    assert (cs + [c])[..|cs|] == cs;
  }

  /** `GroupIndex` finds the first group for the key. */
  lemma {:induction false} GroupIndexFirst(gs: seq<CommentGroup>, key: Value)
    ensures forall j :: 0 <= j < GroupIndex(gs, key) ==> gs[j].postId != key
  {
    if gs != [] && gs[0].postId != key {
      GroupIndexFirst(gs[1..], key);
    }
  }

  /** The keys of `Grouping` are the distinct post ids, so the group for a
      post sits at the position of its id among them. */
  lemma GroupIndexOfKey(cs: seq<UserComment>, key: Value)
    ensures var keys := Distinct(PostIds(cs));
      var k := GroupIndex(Grouping(cs), key);
      (key in PostIds(cs) ==> k < |keys| && keys[k] == key) && (key !in PostIds(cs) ==> k == |keys|)
  {
    var keys := Distinct(PostIds(cs));
    DistinctMembers(PostIds(cs));
    var gs := Grouping(cs);
    var k := GroupIndex(gs, key);
    GroupIndexFirst(gs, key);
    if k < |gs| {
      assert gs[k].postId == keys[k];
    }
    if key in keys {
      var m :| 0 <= m < |keys| && keys[m] == key;
      assert gs[m].postId == key;
    }
  }

  /** A further comment changes the group for `key` only by adding its own
      entry when it is on that post, or, when the post is new, by giving the
      group its title. */
  lemma GroupForAppend(cs: seq<UserComment>, c: UserComment, key: Value)
    ensures GroupFor(cs + [c], key) ==
              GroupFor(cs, key).(postTitle := FirstTitle(cs + [c], key),
                                 comments := EntriesOf(cs, key) + (if c.postId == key then [EntryOf(c)] else []))
  {
    EntriesOfAppend(cs, c, key);
  }

  /** One turn of the loop: the grouping of one more comment is the grouping
      so far with that comment's entry appended to its group, the group
      being created (titled after this comment) when its post is new. */
  lemma GroupingStep(cs: seq<UserComment>, c: UserComment)
    ensures Grouping(cs + [c]) == AddToGroups(Grouping(cs), c)
  {
    var ids := PostIds(cs);
    PostIdsAppend(cs, c);
    DistinctAppend(ids, c.postId);
    var keys := Distinct(ids);
    DistinctMembers(ids);
    var gs := Grouping(cs);
    GroupIndexOfKey(cs, c.postId);
    if c.postId in ids {
      GroupingStepOld(cs, c, keys, gs);
    } else {
      GroupingStepNew(cs, c, keys, gs);
    }
  }

  lemma GroupingStepOld(cs: seq<UserComment>, c: UserComment, keys: seq<Value>, gs: seq<CommentGroup>)
    requires keys == Distinct(PostIds(cs)) && gs == Grouping(cs)
    requires Distinct(PostIds(cs + [c])) == keys
    requires c.postId in PostIds(cs)
    requires GroupIndex(gs, c.postId) < |keys| && keys[GroupIndex(gs, c.postId)] == c.postId
    ensures Grouping(cs + [c]) == AddToGroups(gs, c)
  {
    var k := GroupIndex(gs, c.postId);
    DistinctNoDuplicates(PostIds(cs));
    DistinctMembers(PostIds(cs));
    var expected := gs[k := gs[k].(comments := gs[k].comments + [EntryOf(c)])];
    assert AddToGroups(gs, c) == expected;
    var actual := Grouping(cs + [c]);
    forall j | 0 <= j < |keys| ensures actual[j] == expected[j] {
      var key := keys[j];
      assert key in PostIds(cs);
      GroupForAppend(cs, c, key);
      FirstTitleAppend(cs, c, key);
      assert j != k ==> key != c.postId;
    }
  }

  lemma GroupingStepNew(cs: seq<UserComment>, c: UserComment, keys: seq<Value>, gs: seq<CommentGroup>)
    requires keys == Distinct(PostIds(cs)) && gs == Grouping(cs)
    requires Distinct(PostIds(cs + [c])) == keys + [c.postId]
    requires c.postId !in PostIds(cs)
    requires GroupIndex(gs, c.postId) == |keys|
    ensures Grouping(cs + [c]) == AddToGroups(gs, c)
  {
    DistinctMembers(PostIds(cs));
    var expected := gs + [CommentGroup(c.postId, c.postTitle, [EntryOf(c)])];
    var gs1 := gs + [CommentGroup(c.postId, c.postTitle, [])];
    assert |gs| == |keys|;
    var entries: seq<CommentEntry> := [];
    assert entries + [EntryOf(c)] == [EntryOf(c)];
    assert gs1[|gs|].(comments := gs1[|gs|].comments + [EntryOf(c)]) == CommentGroup(c.postId, c.postTitle, [EntryOf(c)]);
    assert gs1[|gs| := CommentGroup(c.postId, c.postTitle, [EntryOf(c)])] == expected;
    assert AddToGroups(gs, c) == expected;
    var actual := Grouping(cs + [c]);
    forall j | 0 <= j < |keys| ensures actual[j] == expected[j] {
      var key := keys[j];
      assert key in PostIds(cs);
      GroupForAppend(cs, c, key);
      FirstTitleAppend(cs, c, key);
    }
    GroupForAppend(cs, c, c.postId);
    FirstTitleAppend(cs, c, c.postId);
    EntriesOfAbsent(cs, c.postId);
    assert actual[|keys|] == expected[|keys|];
  }

  /** The number of entries over all groups. */
  function TotalEntries(gs: seq<CommentGroup>): nat {
    if gs == [] then 0 else TotalEntries(gs[..|gs| - 1]) + |gs[|gs| - 1].comments|
  }

  lemma {:induction false} TotalEntriesUpdate(gs: seq<CommentGroup>, k: nat, g: CommentGroup)
    requires k < |gs|
    ensures TotalEntries(gs[k := g]) == TotalEntries(gs) - |gs[k].comments| + |g.comments|
  {
    var init := gs[..|gs| - 1];
    if k < |gs| - 1 {
      assert gs[k := g][..|gs| - 1] == init[k := g];
      TotalEntriesUpdate(init, k, g);
    } else {
      assert gs[k := g][..|gs| - 1] == init;
    }
  }

  /** Adding one comment adds one entry in total. */
  lemma AddToGroupsTotal(gs: seq<CommentGroup>, c: UserComment)
    ensures TotalEntries(AddToGroups(gs, c)) == TotalEntries(gs) + 1
  {
    var k := GroupIndex(gs, c.postId);
    var gs1 := if k == |gs| then gs + [CommentGroup(c.postId, c.postTitle, [])] else gs;
    assert TotalEntries(gs1) == TotalEntries(gs) by {
      if k == |gs| {
        assert gs1[..|gs1| - 1] == gs;
      }
    }
    TotalEntriesUpdate(gs1, k, gs1[k].(comments := gs1[k].comments + [EntryOf(c)]));
  }

  /** Every comment lands in exactly one group: together the groups hold as
      many entries as there are comments (and, by `GroupKeysDistinct`, no
      two groups share a post id). */
  lemma {:induction false} GroupingCountsEveryComment(cs: seq<UserComment>)
    ensures TotalEntries(Grouping(cs)) == |cs|
  {
    if cs != [] {
      var init := cs[..|cs| - 1];
      var c := cs[|cs| - 1];
      assert init + [c] == cs;
      GroupingCountsEveryComment(init);
      GroupingStep(init, c);
      AddToGroupsTotal(Grouping(init), c);
    }
  }

  /** No two groups are for the same post. */
  lemma GroupKeysDistinct(cs: seq<UserComment>)
    ensures forall a, b :: 0 <= a < b < |Grouping(cs)| ==> Grouping(cs)[a].postId != Grouping(cs)[b].postId
  {
    var keys := Distinct(PostIds(cs));
    DistinctNoDuplicates(PostIds(cs));
    assert forall j :: 0 <= j < |Grouping(cs)| ==> Grouping(cs)[j].postId == keys[j];
  }

  /** Each group holds exactly the entries of the comments on its post, in
      input order, and is not empty. */
  lemma GroupContents(cs: seq<UserComment>, j: nat)
    requires j < |Grouping(cs)|
    ensures Grouping(cs)[j].comments == EntriesOf(cs, Grouping(cs)[j].postId)
    ensures Grouping(cs)[j].postId in PostIds(cs)
    ensures |Grouping(cs)[j].comments| > 0
  {
    var key := Grouping(cs)[j].postId;
    assert key == Distinct(PostIds(cs))[j];
    DistinctMembers(PostIds(cs));
    EntriesOfPresent(cs, key);
  }

  lemma {:induction false} EntriesOfPresent(cs: seq<UserComment>, key: Value)
    requires key in PostIds(cs)
    ensures |EntriesOf(cs, key)| > 0
  {
    var init := cs[..|cs| - 1];
    var last := cs[|cs| - 1];
    if last.postId != key {
      var i :| 0 <= i < |cs| && PostIds(cs)[i] == key;
      assert i < |init| && PostIds(init)[i] == key;
      EntriesOfPresent(init, key);
    }
  }

  /** `FirstTitle` is the title of the first comment on the post. */
  lemma {:induction false} FirstTitleIsFirst(cs: seq<UserComment>, key: Value)
    ensures var i := FirstIndex(PostIds(cs), key);
            i < |cs| ==> FirstTitle(cs, key) == cs[i].postTitle
  {
    if cs != [] && cs[0].postId != key {
      assert PostIds(cs)[1..] == PostIds(cs[1..]);
      FirstTitleIsFirst(cs[1..], key);
    }
  }

  /** A group is titled after the first comment on its post. */
  lemma GroupTitle(cs: seq<UserComment>, j: nat)
    requires j < |Grouping(cs)|
    ensures exists i :: 0 <= i < |cs| && cs[i].postId == Grouping(cs)[j].postId
                        && Grouping(cs)[j].postTitle == cs[i].postTitle
                        && forall h :: 0 <= h < i ==> cs[h].postId != Grouping(cs)[j].postId
  {
    var key := Distinct(PostIds(cs))[j];
    DistinctMembers(PostIds(cs));
    assert key in PostIds(cs);
    var i := FirstIndex(PostIds(cs), key);
    assert i < |cs| by {
      var m :| 0 <= m < |cs| && PostIds(cs)[m] == key;
    }
    FirstTitleIsFirst(cs, key);
    assert Grouping(cs)[j] == GroupFor(cs, key);
    assert cs[i].postId == key;
    forall h | 0 <= h < i ensures cs[h].postId != key {
      assert PostIds(cs)[h] == cs[h].postId;
    }
  }

  lemma {:induction false} NoDuplicatesCardinality(ks: seq<Value>)
    requires NoDuplicates(ks)
    ensures |set k | k in ks| == |ks|
  {
    if ks != [] {
      var init := ks[..|ks| - 1];
      var last := ks[|ks| - 1];
      NoDuplicatesCardinality(init);
      assert (set k | k in ks) == (set k | k in init) + {last};
      assert last !in init;
    }
  }

  /** There are as many groups as distinct post ids. */
  lemma GroupCount(cs: seq<UserComment>)
    ensures |Grouping(cs)| == |set k | k in PostIds(cs)|
  {
    var keys := Distinct(PostIds(cs));
    DistinctNoDuplicates(PostIds(cs));
    DistinctMembers(PostIds(cs));
    NoDuplicatesCardinality(keys);
    assert (set k | k in keys) == (set k | k in PostIds(cs));
  }

  /** Groups come in the order their post ids first occur. */
  lemma {:induction false} DistinctInFirstOccurrenceOrder(ks: seq<Value>)
    ensures forall a, b :: 0 <= a < b < |Distinct(ks)| ==>
              FirstIndex(ks, Distinct(ks)[a]) < FirstIndex(ks, Distinct(ks)[b])
  {
    if ks != [] {
      var init := ks[..|ks| - 1];
      var x := ks[|ks| - 1];
      assert init + [x] == ks;
      DistinctInFirstOccurrenceOrder(init);
      DistinctAppend(init, x);
      DistinctMembers(init);
      var d := Distinct(init);
      forall a, b | 0 <= a < b < |Distinct(ks)|
        ensures FirstIndex(ks, Distinct(ks)[a]) < FirstIndex(ks, Distinct(ks)[b])
      {
        FirstIndexAppend(init, x, d[a]);
        assert FirstIndex(init, d[a]) < |init| by {
          var m :| 0 <= m < |init| && init[m] == d[a];
        }
        if b < |d| {
          FirstIndexAppend(init, x, d[b]);
        } else {
          assert Distinct(ks)[b] == x && x !in init;
          assert FirstIndex(ks, x) == |init|;
        }
      }
    }
  }

  // ---------------------------------------------------------------------------
  // Wishlist mapping
  // ---------------------------------------------------------------------------

  /** A wishlist entry as the page keeps it. */
  datatype WishlistItem = WishlistItem(
    id: Value,
    name: Value,
    country: Value,
    latitude: Value,
    longitude: Value,
    emoji: Value,
    uniqueThing: Value,
    funFact: Value,
    isWishlist: Value,
    completed: Value)

  /** The mapping of one wishlist row; reading `item.id` of a null or
      undefined row throws. */
  function WishlistEntry(item: Value): (r: Completion<WishlistItem>)
    ensures r.Throw? <==> Nullish(item)
    ensures r.Normal? ==> r.value.id == Get(item, "id") && r.value.name == Get(item, "name")
                          && r.value.country == Get(item, "country") && r.value.emoji == Get(item, "emoji")
                          && r.value.latitude == Get(item, "latitude") && r.value.longitude == Get(item, "longitude")
    ensures r.Normal? && !Truthy(Get(item, "uniquething")) ==> r.value.uniqueThing == Str("")
    ensures r.Normal? && Truthy(Get(item, "uniquething")) ==> r.value.uniqueThing == Get(item, "uniquething")
    ensures r.Normal? && !Truthy(Get(item, "funfact")) ==> r.value.funFact == Str("")
    ensures r.Normal? && Truthy(Get(item, "funfact")) ==> r.value.funFact == Get(item, "funfact")
    ensures r.Normal? && Nullish(Get(item, "iswishlist")) ==> r.value.isWishlist == Bool(true)
    ensures r.Normal? && !Nullish(Get(item, "iswishlist")) ==> r.value.isWishlist == Get(item, "iswishlist")
    ensures r.Normal? && Nullish(Get(item, "completed")) ==> r.value.completed == Bool(false)
    ensures r.Normal? && !Nullish(Get(item, "completed")) ==> r.value.completed == Get(item, "completed")
  {
    if Nullish(item) then Throw
    else
      Normal(WishlistItem(
        id := Get(item, "id"),
        name := Get(item, "name"),
        country := Get(item, "country"),
        latitude := Get(item, "latitude"),
        longitude := Get(item, "longitude"),
        emoji := Get(item, "emoji"),
        uniqueThing := Or(Get(item, "uniquething"), Str("")),
        funFact := Or(Get(item, "funfact"), Str("")),
        isWishlist := Coalesce(Get(item, "iswishlist"), Bool(true)),
        completed := Coalesce(Get(item, "completed"), Bool(false))))
  }

  /** `res.map(...)`: throws when any row does, and otherwise maps each row
      in place. */
  function WishlistEntries(items: seq<Value>): (r: Completion<seq<WishlistItem>>)
    ensures r.Normal? <==> forall i :: 0 <= i < |items| ==> !Nullish(items[i])
    ensures r.Normal? ==> |r.value| == |items|
    ensures r.Normal? ==> forall i :: 0 <= i < |items| ==> Normal(r.value[i]) == WishlistEntry(items[i])
  {
    if forall i :: 0 <= i < |items| ==> !Nullish(items[i]) then
      Normal(seq(|items|, i requires 0 <= i < |items| => WishlistEntry(items[i]).value))
    else Throw
  }

  // ---------------------------------------------------------------------------
  // The component
  // ---------------------------------------------------------------------------

  /** The body of the password-change request. */
  datatype PasswordChange = PasswordChange(userId: Value, oldPassword: string, newPassword: string)

  class SettingsComponent {
    var activeTab: string
    var showFullSettings: bool
    var oldPassword: string
    var newPassword: string
    var confirmPassword: string
    var userId: Value
    var wishlist: seq<WishlistItem>
    var groupedComments: seq<CommentGroup>

    /** The field initialisers. */
    constructor ()
      ensures activeTab == "" && showFullSettings
      ensures oldPassword == "" && newPassword == "" && confirmPassword == ""
      ensures userId == Num(0) && wishlist == [] && groupedComments == []
    {
      activeTab := "";
      showFullSettings := true;
      oldPassword, newPassword, confirmPassword := "", "", "";
      userId := Num(0);
      wishlist := [];
      groupedComments := [];
    }

    /** `setActiveTab(tab)` */
    method SetActiveTab(tab: string)
      modifies this
      ensures activeTab == tab && !showFullSettings
      ensures oldPassword == old(oldPassword) && newPassword == old(newPassword)
      ensures confirmPassword == old(confirmPassword) && userId == old(userId)
      ensures wishlist == old(wishlist) && groupedComments == old(groupedComments)
    {
      activeTab := tab;
      showFullSettings := false;
    }

    /** `goBackToSettings()` */
    method GoBackToSettings()
      modifies this
      ensures activeTab == "" && showFullSettings
      ensures oldPassword == old(oldPassword) && newPassword == old(newPassword)
      ensures confirmPassword == old(confirmPassword) && userId == old(userId)
      ensures wishlist == old(wishlist) && groupedComments == old(groupedComments)
    {
      activeTab := "";
      showFullSettings := true;
    }

    /** `changePassword()` with the outcome of the request; it returns the
        request made, if any. */
    method ChangePassword(ok: bool) returns (request: Option<PasswordChange>)
      modifies this
      ensures old(newPassword) != old(confirmPassword) ==> request.None?
      ensures old(newPassword) == old(confirmPassword) ==>
                request == Some(PasswordChange(userId, old(oldPassword), old(newPassword)))
      ensures request.Some? && ok ==> oldPassword == "" && newPassword == "" && confirmPassword == ""
      ensures request.None? || !ok ==>
                oldPassword == old(oldPassword) && newPassword == old(newPassword)
                && confirmPassword == old(confirmPassword)
      ensures activeTab == old(activeTab) && showFullSettings == old(showFullSettings) && userId == old(userId)
      ensures wishlist == old(wishlist) && groupedComments == old(groupedComments)
    {
      if newPassword != confirmPassword {
        return None;
      }
      request := Some(PasswordChange(userId, oldPassword, newPassword));
      if ok {
        oldPassword := "";
        newPassword := "";
        confirmPassword := "";
      }
    }

    /** The wishlist callback of `loadUserData`: the reply rows, or None on
        error (the list is then left as it was). A row the mapping throws on
        leaves the list as it was too. */
    method LoadWishlist(reply: Option<seq<Value>>) returns (outcome: Completion<()>)
      modifies this
      ensures reply.Some? && WishlistEntries(reply.value).Normal? ==>
                outcome == Normal(()) && wishlist == WishlistEntries(reply.value).value
      ensures reply.Some? && WishlistEntries(reply.value).Throw? ==> outcome == Throw && wishlist == old(wishlist)
      ensures reply.None? ==> outcome == Normal(()) && wishlist == old(wishlist)
      ensures groupedComments == old(groupedComments) && activeTab == old(activeTab)
      ensures showFullSettings == old(showFullSettings) && userId == old(userId)
      ensures oldPassword == old(oldPassword) && newPassword == old(newPassword)
              && confirmPassword == old(confirmPassword)
    {
      outcome := Normal(());
      if reply.Some? {
        var mapped := WishlistEntries(reply.value);
        if mapped.Throw? {
          return Throw;
        }
        wishlist := mapped.value;
      }
    }

    /** The comments callback of `loadUserData`. */
    method LoadComments(reply: Option<seq<UserComment>>)
      modifies this
      ensures reply.Some? ==> groupedComments == Grouping(reply.value)
      ensures reply.None? ==> groupedComments == old(groupedComments)
      ensures wishlist == old(wishlist) && activeTab == old(activeTab)
      ensures showFullSettings == old(showFullSettings) && userId == old(userId)
      ensures oldPassword == old(oldPassword) && newPassword == old(newPassword)
              && confirmPassword == old(confirmPassword)
    {
      if reply.Some? {
        groupedComments := GroupByPost(reply.value);
      }
    }
  }
}

=== FILE: wrappers.dfy ===
/** The Option datatype shared by the whole model. */
module Wrappers {

  /** A value that may be absent: an SQL NULL, a missing upload, an unset id. */
  datatype Option<+T> = None | Some(value: T) {
    function GetOr(default: T): T {
      match this
      case Some(v) => v
      case None => default
    }
  }
}
